=== FILE: README.md ===
# MyLib catalog in Dafny

MyLib is a small online library. A FastAPI back end keeps a relational catalog
of books, authors, genres, reviews, per-user collections and users with
roles. A Redis cache holds verification codes and book views. A React client
browses, rates and collects books.

This project models three parts of that system as pure functions over
immutable data, and proves what each part promises.

1. **The request handlers** of the books, reviews, collections and authors
   routers, plus user registration and the e-mail code exchange. Each request
   is a transition from a catalog `Store` (and, where the handler touches it,
   a `Cache`) to a new store and a response: `Ok(view)` or an error with its
   HTTP status.
   - The store holds one map per entity table and one sequence per link table.
     Inserts never deduplicate.
   - Each table has an identity counter that hands out the next id.
   - `Catalog.Valid` is the invariant: ids come from the identity sequences,
     and every foreign key resolves. The cascades declared with
     `ondelete="CASCADE"` are explicit functions.
   - A foreign-key violation that the database would reject at commit is the
     `IntegrityError` (500) outcome. The model keeps the effect of any commit
     that came before the failing one.
   - A handler that reads a row without checking it exists raises on the
     missing row. That is the `ServerError` (500) outcome, and it writes
     nothing.
2. **The JSON codecs** (`as_dict` / `parse_json`) of the response models. They
   work over a small `Json` value type. `json.loads` keeps the last of
   duplicate keys; Python's `int()` and `float()` and the lax
   `int`/`float`/`str` fields of pydantic 2 are modelled. Round-trip lemmas are proved for
   every codec pair.
3. **Client state machines** of the React UI:
   - the book-list pager;
   - the genre badges of a book card;
   - the side-bar filter object;
   - the review list: ordering, removal after a delete, and the delete-button
     predicate;
   - the star-rating draft;
   - the add-to-collection payload;
   - the single- and multi-choice lists;
   - the `auth` reducer.

   JavaScript semantics are written out where they matter: `slice`
   normalisation, truthiness and `parseInt`.

Modules: `Wrappers`, `Seqs` and `Numerals` are generic helpers. `Catalog` is
the store. `Api` holds errors, responses and authorisation. `Rating` is the
book rating. `Books`, `Reviews`, `Collections`, `Authors`, `Accounts` and
`Codes` are the handlers. `Json` and `Codecs` are the codecs. `Js`,
`BooksPage`, `SingleBookPage`, `ChoiceLists` and `AuthSlice` are the client.

## Model

| member | source | states |
|---|---|---|
| Catalog.RoleCodesRoundTrip | models/models.py:13-16 | The role codes are exactly USER=1, MODERATOR=2, ADMIN=3, and decoding a stored code inverts encoding. |
| Catalog.RoleFromCode | models/models.py:13-19 | A stored role code denotes an enum member exactly when it is 1, 2 or 3. |
| Catalog.Empty | models/models.py:18-84 | A fresh database, with every identity sequence at its start value 1, satisfies the catalog invariant. |
| Catalog.FreshIdsExceedExisting | models/models.py:18-84 | Identity ids start at 1, so the next id of each table is at least 1 and exceeds every id already in that table. |
| Catalog.DeleteBookCascades | models/models.py:55-86 | Deleting a book removes every review, genre link and collection link that references it. Every other review and link stays, and authors, users, genres and collections are untouched. |
| Catalog.DeleteAuthorCascades | models/models.py:37-45 | Deleting an author removes exactly that author, the author's books, and those books' reviews and link rows. Every other book, review and link row stays as it was, and users, genres, collections and roles do not change. |
| Catalog.DeleteUserCascades | models/models.py:47-60 | Deleting a user removes exactly that user, the user's collections with their link rows, and the user's reviews. Every other user, collection, review and collection link stays as it was, and books, genre links, authors, genres and roles do not change. |
| Catalog.DeleteGenreAndCollectionCascade | models/models.py:66-86 | Deleting a genre removes exactly its genre links. Deleting a collection removes exactly its collection links. |
| Catalog.DeleteRoleCascades | models/models.py:22-27 | Deleting a role removes exactly the users holding it. |
| Catalog.DeleteRolePreservesValidity | models/models.py:22-27 | After a role cascade, no row references a missing row, and the identity sequences are intact. |
| Catalog.DeleteUserPreservesValidity | models/models.py:47-60 | After a user cascade, no row references a missing row. |
| Catalog.DeleteAuthorPreservesValidity | models/models.py:37-45 | After an author cascade, no row references a missing row. |
| Catalog.DeleteBookPreservesValidity | models/models.py:55-86 | After a book cascade, no row references a missing row. |
| Catalog.DeleteGenreCollectionReviewPreserveValidity | models/models.py:47-86 | After deleting a genre, a collection or a review, no row references a missing row. |
| Api.BookKeyInjective | routes/reviews_router.py:127-128 | The cache keys `/books/{id}` of two different books differ, so invalidating one book's key never touches another's. |
| Rating.BookRating | routes/books_router.py:38 | The rating is exactly 0 without reviews. Otherwise it is the sum of the ratings over their count. |
| Rating.RatingOrderIndependent | routes/books_router.py:38 | The rating depends only on the multiset of ratings, not on the order the reviews are read in. |
| Rating.RatingWithinBounds | routes/books_router.py:38 | When every rating lies in [lo, hi], a non-empty mean does too. |
| Books.ReviewIdsOf | routes/books_router.py:35-36 | The book's review query yields exactly the ids of the reviews whose book is this one, ascending and each once. |
| Books.ReviewIdsCount | routes/books_router.py:36-37 | `reviews_count` is the number of the book's reviews. |
| Books.LinkedGenres | routes/books_router.py:40-41 | The corrected genre query: the listed genres are exactly the stored genres linked to the book, with their stored names. |
| Books.LinkedGenresPerLinkRow | routes/books_router.py:40-41 | The corrected query lists one genre per link row of the book, in link order with repeats kept, when every such row names a stored genre. Its ids are exactly the genre ids of those rows. |
| Books.GenresAsWritten | routes/books_router.py:40-41 | The genre query as written lists every catalog genre once per link row of the book: its length is the number of genres times the number of link rows. A book with a link row gets every stored genre, and a book without one gets none. |
| Books.LinkedGenresWithinAsWritten | routes/books_router.py:84-85 | Every genre linked to a book is among the genres the query as written lists. |
| Books.GenresAsWrittenDiffers | routes/books_router.py:40-41 | One link row in a catalog of two genres: the query as written lists two genres, one of them not linked to the book, while the corrected query lists the linked one alone. |
| Books.GetBook | routes/books_router.py:24-69 | An absent id gives 404. Otherwise the book's document is returned. |
| Books.GetBookFields | routes/books_router.py:43-68 | The document carries the book's id, title, year and annotation, and its author's id and name. |
| Books.GetBookReviews | routes/books_router.py:50-58 | The document lists exactly the book's reviews, by ascending id, each with its stored rating, text and creation time. |
| Books.GetBookRating | routes/books_router.py:36-38 | `reviews_count` equals the number of listed reviews and the number of stored reviews of the book. The rating is the mean of the listed ratings, and 0 when there are none. |
| Books.ListedIds | routes/books_router.py:74-75 | The join lists exactly the books whose author exists, ascending. |
| Books.GetBooks | routes/books_router.py:72-107 | `get_books` has one entry per listed book. |
| Books.GetBooksAgreesWithGetBook | routes/books_router.py:78-104 | Each entry of `get_books` is the `get_book` document of that id without its reviews, so it uses the same rating formula. Entries are ordered by id. In a consistent catalog every book appears. |
| Books.GenreLinksFor | routes/books_router.py:147-152 | One genre link per requested genre id, in request order, duplicates kept. |
| Books.MissingGenres | routes/books_router.py:129-132 | The missing ids are exactly the requested ids that name no genre. |
| Books.MissingGenresInOrder | routes/books_router.py:132 | The missing ids are reported in request order, one entry per offending request entry: no ids report nothing, and a further id is appended exactly when it names no genre. |
| Books.CreateBook | routes/books_router.py:110-154 | A create succeeds exactly when the caller is ADMIN, the author exists and no genre id is missing. A rejected create writes nothing. |
| Books.CreateBookRejects | routes/books_router.py:115-137 | A non-admin gets 403 before any lookup. Then an unknown author gives 400. Then unknown genres give 400 naming all the missing ids, in request order and with repetitions, and nothing is written. |
| Books.CreateBookInserts | routes/books_router.py:139-154 | A successful create stores the book under a fresh id above every existing one and appends one genre link per requested id. Nothing else changes and the catalog stays valid. |
| Books.UpdateBook | routes/books_router.py:157-193 | An update succeeds exactly when the caller is an ADMIN, the book and the new author exist, and no requested genre is missing. A successful update returns the book's id with the new columns. |
| Books.UpdateBookChecks | routes/books_router.py:162-174 | A non-admin gets 403 and an admin gets 404 for an absent book, neither writing. An unknown author is rejected by the database with no change. |
| Books.UpdateBookReplacesLinks | routes/books_router.py:176-192 | After a successful update, the book's columns are the new ones and its genre links are exactly the requested ids in order. Other books' links are untouched, and so are reviews and collection links. |
| Books.UpdatedBookListsRequestedGenres | routes/books_router.py:181-191 | After a successful update, `get_book` finds the book and lists exactly the requested genres, in request order. |
| Books.UpdateBookPreservesValidity | routes/books_router.py:176-192 | Every update outcome, failed ones included, keeps the catalog valid. |
| Books.UpdateBookUnknownGenre | routes/books_router.py:180-192 | An unknown genre id fails the second commit. The new columns persist but the old links stay. |
| Books.DeleteBook | routes/books_router.py:196-216 | A delete succeeds exactly when the caller is ADMIN and the book exists, and then answers `{'removed': id}`. A failed delete changes nothing. |
| Books.DeleteBookChecks | routes/books_router.py:200-216 | A non-admin gets 403 even for an absent id, and an admin gets 404 for it. A successful delete leaves no review or link row referencing the book. |
| Reviews.GetReview | routes/reviews_router.py:21-59 | An absent id gives 404. Otherwise the review comes with its stored columns and its author's id and name. |
| Reviews.GetReviews | routes/reviews_router.py:62-89 | The list has one entry per stored review. |
| Reviews.GetReviewsEntries | routes/reviews_router.py:66-84 | Each listed entry is what `get_review` returns for that id, in ascending id order. |
| Reviews.GetReviewsComplete | routes/reviews_router.py:66-70 | Every stored review appears in the list. |
| Reviews.CreateReview | routes/reviews_router.py:92-144 | A create succeeds exactly when the book exists and the rating lies in 1..5. A rejected create changes neither the catalog nor the cache. |
| Reviews.CreateReviewRejects | routes/reviews_router.py:98-111 | A missing book gives 400 before the rating is looked at. A rating outside 1..5 then gives 400. |
| Reviews.CreateReviewInserts | routes/reviews_router.py:113-128 | A successful create stores exactly one new review under a fresh id, owned by the caller with the given book, rating and text. It deletes the key `/books/{book_id}` and leaves every other cache key as it was. |
| Reviews.DeleteReview | routes/reviews_router.py:147-190 | A delete never touches the cache. A failed delete changes nothing. |
| Reviews.DeleteReviewPolicy | routes/reviews_router.py:153-167 | An absent id gives 404 before any permission check. An existing review is removed exactly when the caller owns it or is MODERATOR or ADMIN. Otherwise the answer is 403 and the review still exists. |
| Reviews.DeleteReviewRemovesOnlyIt | routes/reviews_router.py:169-189 | A successful delete removes only that review, leaves the cache unchanged and reports the review id and its owner. |
| Collections.BookIdsLinked | routes/collections_router.py:28-33 | The book ids of a collection are exactly those of its link rows, in link order. |
| Collections.GetCollection | routes/collections_router.py:21-41 | An absent id, or a link row whose book is missing, raises (500). Otherwise the collection's books are exactly the books linked to it, in link order, each with its stored columns. |
| Collections.OwnedIds | routes/collections_router.py:47-48 | The listed ids are exactly the caller's collections, ascending. |
| Collections.GetCollections | routes/collections_router.py:44-71 | `get_collections` fails with 500 exactly when one of the caller's collections has a link row whose book is gone. Otherwise it has one entry per collection the caller owns. |
| Collections.GetCollectionsOwnOnly | routes/collections_router.py:47-55 | When the listing succeeds, every listed collection is owned by the caller and shown as `get_collection` shows it. Every owned collection is listed, ordered by id. |
| Collections.CollectionLinksFor | routes/collections_router.py:84-90 | One link per requested book id, in request order, duplicates kept. |
| Collections.CreateCollection | routes/collections_router.py:74-92 | The collection is always stored, owned by the caller. The link commit succeeds exactly when every book id exists. |
| Collections.CreateCollectionLinks | routes/collections_router.py:78-91 | The new id is fresh. On success the collection's links are exactly the requested ids. On a missing book no link is written. |
| Collections.Gate | routes/collections_router.py:99-102 | The update/delete gate passes exactly for an ADMIN who owns the collection. It answers 500 exactly when an ADMIN names an absent collection. |
| Collections.UpdateCollection | routes/collections_router.py:95-115 | An update succeeds exactly when the caller is ADMIN, owns the collection and every book id exists. A failed update changes nothing. |
| Collections.UpdateCollectionForbidden | routes/collections_router.py:99-102 | A non-ADMIN caller gets 403 for any id, present or not. An ADMIN who does not own the collection gets 403, and an ADMIN naming an absent collection gets 500. Nothing changes in any of these cases. |
| Collections.UpdateCollectionReplacesLinks | routes/collections_router.py:103-114 | After a successful update the title is the new one and the links are exactly the requested ids. Other collections' links are untouched. |
| Collections.UpdateCollectionPreservesValidity | routes/collections_router.py:95-115 | Every update outcome keeps the catalog valid. |
| Collections.DeleteCollection | routes/collections_router.py:118-129 | A delete succeeds exactly for an ADMIN who owns the collection, and removes it with its links. Other collections stay. A non-ADMIN gets 403 for any id, an ADMIN naming an absent collection gets 500, and a failure changes nothing. |
| Authors.BooksBy | routes/authors_router.py:24-27 | The listed book ids are exactly the books whose author is this one, ascending. |
| Authors.GetAuthor | routes/authors_router.py:21-40 | An absent id raises (500). Otherwise the author's document carries its id, its name and one entry per book of it. |
| Authors.GetAuthorBooks | routes/authors_router.py:24-39 | Each of the author's books is listed once, by ascending id, with its stored columns. No other book is listed. |
| Authors.GetAuthors | routes/authors_router.py:43-67 | `get_authors` has one entry per author, ascending. |
| Authors.GetAuthorsCoversAll | routes/authors_router.py:45-65 | Every author is listed, each entry is that author's `get_author` document, and each book appears under exactly its own author. |
| Authors.CreateAuthor | routes/authors_router.py:70-82 | A non-admin gets an empty success body and nothing is stored. An admin's author is stored with the given name under the next id. |
| Authors.CreateAuthorFresh | routes/authors_router.py:77-82 | An admin's create adds exactly one author under an unused id and keeps the catalog valid. |
| Authors.UpdateAuthor | routes/authors_router.py:85-95 | A non-admin gets 403 with no change. An admin naming an absent author gets 500 with no change. Otherwise only the author's name changes. |
| Authors.UpdateAuthorPreservesValidity | routes/authors_router.py:92-95 | A rename keeps the set of authors, so the catalog stays valid. |
| Authors.DeleteAuthor | routes/authors_router.py:98-108 | A non-admin gets 403 with no change. An admin naming an absent author gets 500 with no change. Otherwise the delete removes the author and, by cascade, every book of it, and answers `{'removed': id}`. |
| Accounts.AsciiLower | auth/manager.py:110 | Lower-casing keeps the length, leaves no ASCII capital, and changes only the letters `A`-`Z`, each to its small letter. |
| Accounts.AsciiLowerIdempotent | auth/manager.py:110 | Lower-casing an already lower-cased address changes nothing. |
| Accounts.EmailTakenIgnoresCase | auth/manager.py:110-112 | The duplicate test of `get_by_email` ignores letter case. An address matching a stored one up to case is taken. With one user on file, an address is taken exactly when it matches that user's address up to case. |
| Accounts.RegisterRefusesOtherCase | auth/manager.py:110-112 | With `a@x.org` on file, registering `A@x.org` gives UserAlreadyExists and writes nothing. |
| Accounts.SeedCollections | auth/manager.py:29-45 | The intended hook adds three collections owned by the new user, under consecutive fresh ids. |
| Accounts.Register | auth/manager.py:101-127 | Intended registration. An e-mail already on file, in any letter case, gives UserAlreadyExists and writes nothing. A missing role row 1 fails the user insert on its foreign key (models/models.py:25) and writes nothing. Otherwise the user is stored under the next id with the hashed password and role 1. |
| Accounts.RegisterAsWritten | auth/manager.py:24-25 | Registration as written never succeeds. It agrees with the intended registration on the two refusals. |
| Accounts.RegisterAsWrittenFails | auth/manager.py:123-125 | As written, a fresh e-mail stores the user and answers 500, and no collection is seeded. The intended registration answers with the row, and its store is the as-written store with the three collections seeded. |
| Accounts.RegisterIgnoresRequestedRole | auth/manager.py:121 | The role in the payload has no influence: the stored role is 1. |
| Accounts.RegisterSeedsCollections | auth/manager.py:29-45 | Under the intended hook, the new user owns exactly three collections, titled "Буду читать", "Читаю" and "Прочитано", and none of them contains a book. |
| Accounts.RegisterPreservesValidity | auth/manager.py:101-127 | Both the intended and the as-written registration keep the catalog valid, on every outcome. |
| Codes.IssueCode | auth/manager.py:53-58 | The issued code was not a cache key and is the first fresh candidate drawn. It is bound to the token, and every existing entry is kept unchanged. |
| Codes.IssueVerifyCode | auth/manager.py:48-58 | A verification code is five characters from the ASCII letters and digits, and was not a cache key. |
| Codes.IssueResetCode | auth/manager.py:76-83 | A reset code is twelve lower-case hex digits (`token_hex(6)`), and was not a cache key. |
| Codes.ExchangeCode | routes/auth_router.py:24-32 | An unknown code gives 408 and changes nothing. A known code returns exactly its stored token and is deleted. Every other key is unchanged. |
| Codes.ExchangeIsSingleUse | routes/auth_router.py:28-31 | Exchanging the same code a second time gives 408. |
| Codes.IssueThenExchange | routes/auth_router.py:27-32 | Exchanging a freshly issued code returns its token and restores the cache as it was before the code was issued. |
| Json.Keys | routes/models/books/get_book_model.py:39-69 | The keys of an object, in text order. |
| Json.LastValue | routes/models/books/get_book_model.py:72-75 | A key's value is that of its last occurrence, as `json.loads` keeps it. |
| Json.Get | routes/models/books/get_book_model.py:76-89 | Subscripting succeeds exactly on an object that holds the key. |
| Json.GetField | routes/models/books/get_book_model.py:76-89 | A member that no later member shadows is what subscripting returns. |
| Json.DictKeys | routes/models/books/get_book_model.py:72-75 | The dict built from an object holds each key once: exactly the keys of the members, without repetition. |
| Json.DictKeysOrder | routes/models/books/get_book_model.py:72-75 | Dict keys keep their first position: a further member adds its key at the end exactly when the key is new, and keys that are already distinct are kept as they are. |
| Json.DictKeyStrings | routes/models/books/get_book_model.py:72-75 | Iterating an object yields, as strings, exactly the keys of its members, at most one per member, and one per member when no key repeats. |
| Json.Iterate | routes/models/books/get_book_model.py:82-101 | Iteration succeeds exactly on arrays, objects and strings. An array yields its items. An object yields each of its keys once, so it yields one entry per member when the keys are distinct. A string yields one entry per character. |
| Json.Truncate | routes/models/genres/get_genre_model.py:20 | `int()` of a float truncates toward zero. |
| Json.PyInt | routes/models/genres/get_genre_model.py:20 | `int()` keeps integers. Null, arrays and objects fail. |
| Json.PyFloat | routes/models/books/get_book_model.py:88 | `float()` keeps reals and widens integers to reals. Null, arrays and objects fail. |
| Json.FieldInt | routes/models/authors/get_author_model.py:55 | A pydantic `int` field keeps integers and accepts a float only when its value is integral. Null, arrays and objects fail. |
| Json.FieldStr | routes/models/books/get_book_model.py:77 | A pydantic `str` field accepts exactly the strings, unchanged. |
| Json.DecodeEach | routes/models/authors/get_authors_model.py:48-69 | Decoding a list succeeds only when every element decodes, and keeps length and order. |
| Json.DecodeArray | routes/models/authors/get_authors_model.py:48-49 | An array decodes to one model per element, and the empty array to the empty list. |
| Json.EncodeArray | routes/models/authors/get_authors_model.py:25-44 | The encoded array has one element per item, in order. |
| Json.ArrayRoundTrip | routes/models/authors/get_authors_model.py:25-69 | Element-wise round trips make the array round trip. |
| Codecs.InstantRoundTrip | routes/models/reviews/get_review_model.py:30-45 | `created` written with `str()` reads back as the same instant. |
| Codecs.DecodeRef | routes/models/genres/get_genre_model.py:17-22 | A decoded genre's id is `int()` of the `id` member, and its name is the string `name` member. |
| Codecs.DecodeRefField | routes/models/authors/get_author_model.py:58-61 | A decoded nested `{id, name}` record holds what the pydantic `int` and `str` fields accept from the `id` and `name` members. |
| Codecs.RefRoundTrip | routes/models/genres/get_genre_model.py:10-22 | The genre object has exactly the keys id and name, and both readings give back the same id and name. |
| Codecs.GenreNumericStringId | routes/models/genres/get_genre_model.py:20 | A genre whose id arrives as a numeric string decodes to that integer. |
| Codecs.RefsRoundTrip | routes/models/books/get_book_model.py:47-52 | The nested genre list survives the round trip in order and length. |
| Codecs.BookReviewRoundTrip | routes/models/books/get_book_model.py:55-66 | A nested review keeps its id, user id and name, rating, text and creation time. |
| Codecs.DecodeBook | routes/models/books/get_book_model.py:72-103 | `rating` and `reviews_count` are copied verbatim, not recomputed from the review list. |
| Codecs.BookRoundTrip | routes/models/books/get_book_model.py:39-103 | The get_book round trip keeps id, title, author, genres, reviews (in order), rating, reviews_count, year and annotation. |
| Codecs.BookCardRoundTrip | routes/models/authors/get_author_model.py:31-66 | A nested book keeps its id, title, genres in order, rating and reviews_count. |
| Codecs.BookCardsRoundTrip | routes/models/collections/get_collection_model.py:28-63 | A nested book list survives in order and length. |
| Codecs.EncodeAuthor | routes/models/authors/get_author_model.py:26-43 | The author object's top-level keys are exactly id, name, about and books. |
| Codecs.AuthorRoundTrip | routes/models/authors/get_author_model.py:25-67 | The get_author round trip keeps id, name, about and the books in order. |
| Codecs.DecodeAuthors | routes/models/authors/get_authors_model.py:47-69 | The list decoder yields one author per element, in order. The empty array gives the empty list. |
| Codecs.AuthorsRoundTrip | routes/models/authors/get_authors_model.py:25-69 | Encoding each author and decoding the array yields the original list. |
| Codecs.EncodeCollection | routes/models/collections/get_collection_model.py:24-42 | The collection object's top-level keys are exactly id, title and books. |
| Codecs.CollectionRoundTrip | routes/models/collections/get_collection_model.py:24-64 | The collection round trip keeps id, title and the books in order with their genres. The update response has the same shape and codec. |
| Codecs.DecodeCollections | routes/models/collections/get_collections_model.py:45-66 | The list decoder yields one collection per element, in order. The empty array gives the empty list. |
| Codecs.CollectionsRoundTrip | routes/models/collections/get_collections_model.py:24-66 | Encoding each collection and decoding the array yields the original list. |
| Codecs.EncodeCollectionRequest | routes/models/collections/update_collection_model.py:7-9 | The update request carries exactly a title and a list of book ids. |
| Codecs.CollectionRequestRoundTrip | routes/models/collections/update_collection_model.py:7-9 | Pydantic validation of the request body gives back the title and book ids. |
| Codecs.EncodeReview | routes/models/reviews/get_review_model.py:21-31 | The review object's top-level keys are exactly id, user, book_id, rating, text and created. |
| Codecs.ReviewRoundTrip | routes/models/reviews/get_review_model.py:20-45 | The get_review round trip keeps id, user id and name, book_id, rating, text and creation time. |
| Codecs.DecodeReviews | routes/models/reviews/get_reviews_model.py:34-48 | The list decoder yields one review per element, in order. The empty array gives the empty list. |
| Codecs.ReviewsRoundTrip | routes/models/reviews/get_reviews_model.py:20-48 | Encoding each review and decoding the array yields the original list. |
| Js.SliceBound | react-ui/src/pages/BooksPage.js:137 | A `slice` bound lies between 0 and the length. A negative bound counts from the end. |
| Js.Slice | react-ui/src/pages/BooksPage.js:115 | Within the bounds, `slice(start, end)` is exactly the elements from start up to end. It never returns more than end − start elements or more than the list holds. |
| Js.PrefixLength | react-ui/src/pages/BooksPage.js:70-71 | The scanned prefix is the longest one whose characters all pass the test. |
| Js.ParseInt | react-ui/src/pages/BooksPage.js:70-71 | `parseInt` of a text that contains no digit at all is NaN. |
| Js.ParseIntRendering | react-ui/src/pages/BooksPage.js:70-71 | `parseInt` reads back the decimal rendering of every integer. |
| BooksPage.BooksPerPage | react-ui/src/pages/BooksPage.js:124 | Books per page is rows times books per row. |
| BooksPage.TotalPages | react-ui/src/pages/BooksPage.js:125 | The page count is the fewest pages that hold every book: ceil(len / booksPerPage). |
| BooksPage.Visible | react-ui/src/pages/BooksPage.js:137 | A page never shows more than booksPerPage books, and shows those at positions page·bpp to (page+1)·bpp. |
| BooksPage.Step | react-ui/src/pages/BooksPage.js:129-150 | `<` decrements only above page 0, `>` increments only below the last page, and a new book list resets to page 0. |
| BooksPage.StepKeepsPageInRange | react-ui/src/pages/BooksPage.js:140-150 | The page is never negative, and it stays below the page count once it is. |
| BooksPage.VisiblePageSizes | react-ui/src/pages/BooksPage.js:137 | Every page before the last is full, and the last is non-empty. |
| BooksPage.TwelveBooksExample | react-ui/src/pages/BooksPage.js:194 | With 12 books, page 0 shows 10 cards, page 1 shows 2, and there are two pages. |
| BooksPage.PagesPartitionBooks | react-ui/src/pages/BooksPage.js:137 | The pages in order, concatenated, are exactly the book list. |
| BooksPage.GenreBadges | react-ui/src/pages/BooksPage.js:91-92 | A card shows the first three genre names, plus `+k` when k = len − 3 > 0. |
| BooksPage.GenreBadgesCount | react-ui/src/pages/BooksPage.js:115-116 | The shown names plus the number in the badge account for every genre. |
| BooksPage.NonEmptyOrNull | react-ui/src/pages/BooksPage.js:69 | An empty selection becomes null; a non-empty one is kept. |
| BooksPage.YearOrNull | react-ui/src/pages/BooksPage.js:70-71 | An empty year string becomes null; a typed one is `parseInt` of it. |
| BooksPage.SideBarFilters | react-ui/src/pages/BooksPage.js:66-74 | The filter object has no search query, null for empty selections and year strings, and the values otherwise. |
| BooksPage.SideBarFiltersExamples | react-ui/src/pages/BooksPage.js:66-74 | With nothing selected the side bar reports the all-null initial filters. A typed year reads back as that number. |
| SingleBookPage.DeleteButtonAsWritten | react-ui/src/pages/SingleBookPage.js:107-110 | The delete-button condition as written. A logged-out viewer sees no button, and the review's author sees it. In every other case `role.name` is evaluated on a missing role and throws (None). |
| SingleBookPage.DeleteButtonThrowsForOthers | react-ui/src/pages/SingleBookPage.js:68 | A logged-in viewer looking at someone else's review makes the card throw. |
| SingleBookPage.CanDeleteMirrorsServer | react-ui/src/pages/SingleBookPage.js:107-110 | The intended button is shown exactly when the viewer is logged in and the server would let them delete: owner, MODERATOR or ADMIN. |
| SingleBookPage.InsertByCreated | react-ui/src/pages/SingleBookPage.js:124-125 | Inserting a review into a newest-first list keeps it newest-first and is a permutation. |
| SingleBookPage.SortNewestFirst | react-ui/src/pages/SingleBookPage.js:124-126 | Reviews are shown newest-created first, as a permutation of the list. |
| SingleBookPage.AfterDelete | react-ui/src/pages/SingleBookPage.js:86 | After a delete the list keeps exactly the reviews whose id differs from the returned one, in order. |
| SingleBookPage.AfterDeleteRemovesOne | react-ui/src/pages/SingleBookPage.js:86 | With distinct ids, exactly the deleted review leaves and the rest keep their order. |
| SingleBookPage.DraftStep | react-ui/src/pages/SingleBookPage.js:13-44 | Hovering star x sets rating x+1, and posting resets the text to "" and the rating to 3. |
| SingleBookPage.DraftRatingInRange | react-ui/src/pages/SingleBookPage.js:13-28 | The initial rating 3 lies in 1..5, and every step keeps the draft rating in 1..5. |
| SingleBookPage.HoverFillsUpTo | react-ui/src/pages/SingleBookPage.js:13-17 | After hovering star x, star y is filled exactly when y ≤ x. |
| SingleBookPage.DraftAccepted | react-ui/src/pages/SingleBookPage.js:37-41 | A draft posted for an existing book passes the server's rating check. |
| SingleBookPage.ShowCreateCardCases | react-ui/src/pages/SingleBookPage.js:127 | The create-review card is hidden initially and shown after login exactly when the id is not 0. `logout` does not hide it, because it keeps the id. |
| SingleBookPage.AddToCollectionRequest | react-ui/src/pages/SingleBookPage.js:172-175 | The PUT body carries the collection's title and its book ids in order followed by this book's id, with no deduplication. |
| SingleBookPage.AddToCollectionAppends | react-ui/src/pages/SingleBookPage.js:165-176 | When the server accepts the PUT, the collection's links become its old book ids followed by this book. |
| ChoiceLists.Shown | react-ui/src/components/MultipleChoiceList.js:43-48 | Collapsed shows the first hiddenLimit elements, and expanded shows all. |
| ChoiceLists.ToggleIffHidden | react-ui/src/components/MultipleChoiceList.js:49-53 | Without the toggle the collapsed view shows every element. With it, the collapsed view shows exactly hiddenLimit elements, fewer than the list holds. |
| ChoiceLists.MultiClick | react-ui/src/components/MultipleChoiceList.js:11-17 | A flagged element removes every copy of its id, and an unflagged one appends its id at the end. The flag flips. |
| ChoiceLists.DeselectKeepsOthers | react-ui/src/components/MultipleChoiceList.js:13 | Deselecting keeps every other id, in order. |
| ChoiceLists.SelectThenDeselect | react-ui/src/components/MultipleChoiceList.js:11-17 | Selecting then deselecting, from a list without the id, restores the list and the flag. |
| ChoiceLists.SingleClick | react-ui/src/components/SingleChoiceList.js:10-13 | Clicking the marked element clears the selection. Clicking any other selects its id. |
| ChoiceLists.MarkerUnique | react-ui/src/components/SingleChoiceList.js:15 | At most one id carries the marker: the selected one. |
| ChoiceLists.TwoClicksFromNone | react-ui/src/components/SingleChoiceList.js:10-13 | Two clicks on the same element from no selection return to no selection for every non-zero id. For id 0 the selection stays 0. |
| AuthSlice.Login | react-ui/src/store/auth/authSlice.js:21-27 | `login` sets logged and copies id and username from the payload. |
| AuthSlice.Signup | react-ui/src/store/auth/authSlice.js:14-20 | `signup` sets logged and copies id and username from the payload. |
| AuthSlice.Logout | react-ui/src/store/auth/authSlice.js:28-32 | `logout` clears logged and leaves id and username as they were. |
| AuthSlice.SignupIsLogin | react-ui/src/store/auth/authSlice.js:14-27 | `signup` produces the same state as `login` for the same payload. |
| AuthSlice.LogoutKeepsIdentity | react-ui/src/store/auth/authSlice.js:4-32 | Login then logout does not return to the initial state, because the old id and name remain. |

## Left out

- Database sessions, queries and commits are not modelled as such. The store is a set of immutable maps and sequences, and each commit is a whole-store update.
- Listing order: SQL without `ORDER BY` has no defined order. Every listing is fixed as ascending id.
- `get_book` reads nothing from the cache, and the update and delete handlers invalidate nothing. The model follows the code.
- The Redis connection and key expiry (`ex=`) are not modelled. The cache is a map, and an expired code behaves like an absent one.
- SMTP delivery and its 503 are not modelled.
- `secrets` randomness: the sequence of drawn codes is a parameter, with at least one fresh candidate among them.
- Password hashing is an opaque function parameter.
- Accounts.EmailTaken: only the ASCII letters are folded. PostgreSQL's `lower()` also folds other letters, following the database locale.
- Identity values spent by a rejected insert: PostgreSQL consumes a sequence value even when the insert fails its foreign key, but the model leaves the counter where it was. Ids stay fresh either way, and only their numbering differs.
- `validate_password`, the `is_active`/`is_verified`/`is_superuser` flags and the `safe` switch are not modelled.
- JWT/cookie transport and the `current_user` dependency are not modelled. The caller is an id that is assumed to be an authenticated user whose role row exists.
- routes/genres_router.py is not part of this model: it references names it never defines, so it cannot load.
- routes/models/books/get_books_model.py and routes/models/genres/get_genres_model.py are not modelled. Their codecs read undeclared fields or build the wrong class.
- The create/update/delete request and response classes that only declare fields are not modelled.
- routes/models/collections/update_collection_model.py repeats the codec of get_collection_model.py with the classes renamed, and adds the request class. The model uses one codec for both.
- The `name`/`title` attribute drift between models/models.py and its callers is not modelled. Books and collections have one `title` column.
- Floating-point arithmetic is not modelled: ratings are exact rationals (`real`).
- `datetime` is an opaque instant whose text rendering reads back as itself.
- Serialisation is not modelled at the text level: codecs work on JSON values, not on the text `json.dumps` writes.
- Json.FieldInt: follows the lax mode of pydantic 2, where an `int` field takes a float only when it is integral. Nothing in the repository pins the pydantic version. Under pydantic 1 the field truncates 5.7 to 5.
- Json.FieldStr: follows pydantic 2, where a `str` field takes only strings. Under pydantic 1 it also accepts numbers and renders them as text.
- Json.PyFloat: `float()` of a string is modelled only for integral numerals.
- Json.PyInt: `int()` of a string does not model surrounding white space or `_` separators.
- Js.IsSpace: covers only the ASCII white space that `parseInt` skips, not the Unicode space separators.
- SingleBookPage.DeleteButtonAsWritten: the review's author id comes from the `user` object that GetBookResponseModel declares. `get_book` sends reviews without `user`, so as written every card throws at `review.user.name` (SingleBookPage.js:94) before the button is evaluated, for every viewer including the author.
- SingleBookPage.CanDeleteMirrorsServer: the viewer's role is a parameter, since the client store holds none.
- SingleBookPage.SortNewestFirst: the contract does not state that the sort keeps ties in their order.
- React rendering, styles, effects and fetch calls are not modelled. DropList.js, RangeSelection.js, CollectionsPage.js, navSlice.js and App.js are not part of this model.
- The Selenium scenarios and the seed scripts are used only for the twelve-book page example.

## Findings

| source | as written | input that shows it | evidently intended | confidence | as-written member | corrected member |
|---|---|---|---|---|---|---|
| react-ui/src/pages/SingleBookPage.js:68 | The review card reads `role` from the `auth` slice and evaluates `role.name`, but the slice (react-ui/src/store/auth/authSlice.js:4-32) never stores a role. Whenever the viewer is logged in and not the review's author, `role.name` is read from `undefined` and throws a TypeError. This takes the review's `user` object that GetBookResponseModel declares. `get_book` (routes/books_router.py:50-58) sends its reviews without `user`, and with that document the card throws earlier, on `review.user.name` at line 94, for every viewer. | login with payload id 1, then render a review whose author id is 2 | Show the delete button exactly when the viewer is logged in and is the review's author, a MODERATOR or an ADMIN, matching the server's policy in routes/reviews_router.py:162-167 | not executed | SingleBookPage.DeleteButtonThrowsForOthers | SingleBookPage.CanDeleteMirrorsServer |
| auth/manager.py:125 | `create` calls `on_after_register(created_user, request)` directly. The hook's `session` parameter is only a `Depends(get_async_session)` default (auth/manager.py:24-25), which FastAPI resolves for routes and dependencies but not for a plain method call. So `session.add_all` at line 44 raises on the marker object after `user_db.create` (line 123) has already committed the user. | register any e-mail not yet on file while role row 1 exists | Store the user, seed its three reading-list collections and answer with the new user | not executed | Accounts.RegisterAsWrittenFails | Accounts.RegisterSeedsCollections |
| routes/books_router.py:40 | `select(Genre).where(GenreToBook.book_id == book.id)` names the link table only in the filter, with no join condition, so the query pairs every genre with every link row of the book. `get_books` repeats it at line 84. | a book with one genre link, in a catalog of two genres | List the genres linked to the book, once per link row | not executed | Books.GenresAsWrittenDiffers | Books.LinkedGenres |

=== FILE: accounts.dfy ===
/**
 * Registration as `UserManager.create` performs it (auth/manager.py), with
 * the three reading-list collections `on_after_register` seeds. Password
 * validation and hashing belong to the user library: the hash is a parameter.
 */
module Accounts {
  import opened Wrappers
  import opened Catalog
  import opened Api

  /** The registration payload; a client-supplied role id is accepted and then ignored. */
  datatype UserCreate = UserCreate(email: string, password: string, name: string, roleId: Option<Id>)

  /** The role row every new account is given, whatever the payload says. */
  const DefaultRoleId: Id := 1

  /** Titles of the collections every new account starts with: to read, reading, read. */
  const SeedTitles: seq<string> := ["Буду читать", "Читаю", "Прочитано"]

  /** `lower()` on the ASCII letters: `A`-`Z` become `a`-`z`, every other character stays. */
  function AsciiLower(x: string): (r: string)
    ensures |r| == |x|
    ensures forall k :: 0 <= k < |x| ==> !('A' <= r[k] <= 'Z')
    ensures forall k :: 0 <= k < |x| && !('A' <= x[k] <= 'Z') ==> r[k] == x[k]
    ensures forall k :: 0 <= k < |x| && 'A' <= x[k] <= 'Z' ==> r[k] as int - x[k] as int == 'a' as int - 'A' as int
  {
    seq(|x|, k requires 0 <= k < |x| => if 'A' <= x[k] <= 'Z' then (x[k] as int + 32) as char else x[k])
  }

  /** Lower-casing twice is lower-casing once. */
  lemma AsciiLowerIdempotent(x: string)
    ensures AsciiLower(AsciiLower(x)) == AsciiLower(x)
  {
  }

  /**
   * The user library's `get_by_email` (auth/manager.py:110) compares
   * `lower(email)` on both sides, so an address on file in any letter case
   * blocks the registration.
   */
  predicate EmailTaken(s: Store, email: string) {
    exists u :: u in s.users && AsciiLower(s.users[u].email) == AsciiLower(email)
  }

  /**
   * An address on file blocks every spelling of it that differs only in the
   * case of its letters; a different lower-cased address is not blocked by it.
   */
  lemma EmailTakenIgnoresCase(s: Store, email: string, u: Id)
    requires u in s.users
    ensures EmailTaken(s, email) <==> EmailTaken(s, AsciiLower(email))
    ensures AsciiLower(email) == AsciiLower(s.users[u].email) ==> EmailTaken(s, email)
    ensures s.users.Keys == {u} ==> (EmailTaken(s, email) <==> AsciiLower(email) == AsciiLower(s.users[u].email))
  {
    AsciiLowerIdempotent(email);
  }

  /** With `a@x.org` on file, registering `A@x.org` is refused as a duplicate. */
  lemma RegisterRefusesOtherCase(s: Store, req: UserCreate, hash: string -> string, u: Id)
    requires u in s.users && s.users[u].email == "a@x.org" && req.email == "A@x.org"
    ensures Register(s, req, hash) == Outcome(s, Err(UserAlreadyExists))
  {
    assert AsciiLower(req.email) == AsciiLower(s.users[u].email);
  }

  /** `on_after_register`: one collection per seed title, owned by `owner`, added in order. */
  function SeedCollections(s: Store, owner: Id): (t: Store)
    ensures t.next.collection == s.next.collection + 3
    ensures t.collections == s.collections
      [s.next.collection := Collection(SeedTitles[0], owner)]
      [s.next.collection + 1 := Collection(SeedTitles[1], owner)]
      [s.next.collection + 2 := Collection(SeedTitles[2], owner)]
    ensures t.collectionLinks == s.collectionLinks && t.users == s.users && t.books == s.books
  {
    var t1 := InsertCollection(s, Collection(SeedTitles[0], owner));
    var t2 := InsertCollection(t1, Collection(SeedTitles[1], owner));
    InsertCollection(t2, Collection(SeedTitles[2], owner))
  }

  /** The row `create` stores: the hashed password in place of the plain one, and role 1. */
  function NewUser(req: UserCreate, hash: string -> string): User {
    User(req.name, req.email, hash(req.password), DefaultRoleId)
  }

  /**
   * `create` as intended: an e-mail already on file is refused before anything
   * is written; a missing role row 1 makes the insert fail on its foreign key
   * with nothing written; otherwise the user row is stored and the
   * registration hook seeds its collections.
   */
  function Register(s: Store, req: UserCreate, hash: string -> string): (r: Outcome<Row<User>>)
    ensures r.response.Err? <==> EmailTaken(s, req.email) || DefaultRoleId !in s.roles
    ensures r.response.Err? ==> r.store == s
    ensures EmailTaken(s, req.email) ==> r.response == Err(UserAlreadyExists)
    ensures !EmailTaken(s, req.email) && DefaultRoleId !in s.roles ==> r.response == Err(IntegrityError)
    ensures r.response.Ok? ==>
      && r.response.value == Row(s.next.user, User(req.name, req.email, hash(req.password), DefaultRoleId))
      && r.store.users == s.users[s.next.user := r.response.value.fields]
  {
    if EmailTaken(s, req.email) then Outcome(s, Err(UserAlreadyExists))
    else if DefaultRoleId !in s.roles then Outcome(s, Err(IntegrityError))
    else
      var u := NewUser(req, hash);
      Outcome(SeedCollections(InsertUser(s, u), s.next.user), Ok(Row(s.next.user, u)))
  }

  /**
   * `create` as written. `on_after_register` is called directly, so its
   * `session` parameter keeps its default, the unresolved `Depends` marker,
   * and `session.add_all` raises after `user_db.create` has committed the user.
   */
  function RegisterAsWritten(s: Store, req: UserCreate, hash: string -> string): (r: Outcome<Row<User>>)
    ensures r.response.Err?
    ensures EmailTaken(s, req.email) || DefaultRoleId !in s.roles ==> r == Register(s, req, hash)
  {
    if EmailTaken(s, req.email) then Outcome(s, Err(UserAlreadyExists))
    else if DefaultRoleId !in s.roles then Outcome(s, Err(IntegrityError))
    else Outcome(InsertUser(s, NewUser(req, hash)), Err(ServerError))
  }

  /**
   * No registration as written ever succeeds: a fresh e-mail is stored, the
   * client gets 500, and no collection is seeded, where the intended
   * registration answers with the new row and seeds three.
   */
  lemma RegisterAsWrittenFails(s: Store, req: UserCreate, hash: string -> string)
    requires Valid(s) && !EmailTaken(s, req.email) && DefaultRoleId in s.roles
    ensures var w := RegisterAsWritten(s, req, hash);
      && w.response == Err(ServerError) && w.response.error.Status() == 500
      && w.store.users == s.users[s.next.user := NewUser(req, hash)]
      && w.store.collections == s.collections
      && OwnedCollections(w.store, s.next.user) == {}
    ensures var r := Register(s, req, hash);
      && r.response.Ok? && r.store == SeedCollections(RegisterAsWritten(s, req, hash).store, s.next.user)
  {
    FreshIdsExceedExisting(s);
    var w := RegisterAsWritten(s, req, hash);
    forall c | c in w.store.collections
      ensures w.store.collections[c].userId != s.next.user
    {
      assert s.collections[c].userId in s.users;
    }
  }

  /** The role the payload asks for has no influence on the stored account. */
  lemma RegisterIgnoresRequestedRole(s: Store, req: UserCreate, other: Option<Id>, hash: string -> string)
    ensures Register(s, req, hash) == Register(s, req.(roleId := other), hash)
    ensures Register(s, req, hash).response.Ok? ==> Register(s, req, hash).response.value.fields.roleId == DefaultRoleId
  {
  }

  /** The collections `owner` holds in `s`. */
  function OwnedCollections(s: Store, owner: Id): set<Id> {
    set c | c in s.collections && s.collections[c].userId == owner
  }

  /**
   * A new account owns exactly three fresh collections, carrying the seed
   * titles in id order, none of which holds a book.
   */
  lemma RegisterSeedsCollections(s: Store, req: UserCreate, hash: string -> string)
    requires Valid(s) && !EmailTaken(s, req.email) && DefaultRoleId in s.roles
    ensures var t := Register(s, req, hash).store;
      var u := s.next.user;
      var c := s.next.collection;
      && OwnedCollections(t, u) == {c, c + 1, c + 2}
      && t.collections[c].title == SeedTitles[0]
      && t.collections[c + 1].title == SeedTitles[1]
      && t.collections[c + 2].title == SeedTitles[2]
      && (forall l :: l in t.collectionLinks ==> l.collectionId !in OwnedCollections(t, u))
  {
    FreshIdsExceedExisting(s);
    var t := Register(s, req, hash).store;
    var u := s.next.user;
    forall c | c in s.collections
      ensures s.collections[c].userId != u
    {
      assert s.collections[c].userId in s.users;
    }
    forall l | l in t.collectionLinks
      ensures l.collectionId !in OwnedCollections(t, u)
    {
      assert l.collectionId in s.collections;
    }
  }

  /** Registration, intended or as written, keeps the catalog valid. */
  lemma RegisterPreservesValidity(s: Store, req: UserCreate, hash: string -> string)
    requires Valid(s)
    ensures Valid(Register(s, req, hash).store)
    ensures Valid(RegisterAsWritten(s, req, hash).store)
  {
    if !EmailTaken(s, req.email) && DefaultRoleId in s.roles {
      var t := InsertUser(s, NewUser(req, hash));
      InsertUserValid(s, NewUser(req, hash));
      SeedCollectionsValid(t, s.next.user);
    }
  }

  lemma InsertUserValid(s: Store, u: User)
    requires Valid(s) && u.roleId in s.roles
    ensures Valid(InsertUser(s, u)) && s.next.user in InsertUser(s, u).users
  {
    FreshIdsExceedExisting(s);
  }

  lemma SeedCollectionsValid(s: Store, owner: Id)
    requires Valid(s) && owner in s.users
    ensures Valid(SeedCollections(s, owner))
  {
    FreshIdsExceedExisting(s);
  }
}

=== FILE: api.dfy ===
/**
 * What every request handler shares: the error taxonomy with its HTTP status
 * codes, the response and transition shapes, the response cache and its keys,
 * and the role checks the routers perform against the caller's fresh role row.
 */
module Api {
  import opened Catalog
  import opened Numerals

  /** Why a request failed; the detail the source puts in its message is kept where it names ids. */
  datatype Error =
    | Forbidden                       // 403: not enough permissions
    | NotFound                        // 404: the addressed row is absent
    | UnknownAuthor(authorId: Id)     // 400: payload names a missing author
    | UnknownGenres(genreIds: seq<Id>) // 400: payload names missing genres, all of them, in request order
    | UnknownBook(bookId: Id)         // 400: payload names a missing book
    | RatingOutOfRange                // 400: rating outside 1..5
    | UserAlreadyExists               // 400: e-mail already registered
    | CodeExpired                     // 408: exchange code not (or no longer) in the cache
    | IntegrityError                  // 500: the database rejected a foreign key on commit
    | ServerError                     // 500: the handler raised (an attribute read on a missing row)
  {
    function Status(): int {
      match this
      case Forbidden => 403
      case NotFound => 404
      case UnknownAuthor(_) => 400
      case UnknownGenres(_) => 400
      case UnknownBook(_) => 400
      case RatingOutOfRange => 400
      case UserAlreadyExists => 400
      case CodeExpired => 408
      case IntegrityError => 500
      case ServerError => 500
    }
  }

  datatype Response<+V> = Ok(value: V) | Err(error: Error)

  /** A handler's effect on the catalog together with its response. */
  datatype Outcome<+V> = Outcome(store: Store, response: Response<V>)

  /** The shared key-value store: key to serialised value. */
  type Cache = map<string, string>

  /** A handler's effect on catalog and cache together with its response. */
  datatype Step<+V> = Step(store: Store, cache: Cache, response: Response<V>)

  /** A persisted row as an ORM object returns it: its id and its columns. */
  datatype Row<+T> = Row(id: Id, fields: T)

  /** The `{'removed': id}` acknowledgement of the delete handlers. */
  datatype Removed = Removed(id: Id)

  /** Book row as the author and collection routers list it: id, name, year, annotation. */
  datatype BookItem = BookItem(id: Id, title: string, year: int, annotation: string)

  function ItemOf(id: Id, b: Book): BookItem {
    BookItem(id, b.title, b.year, b.annotation)
  }

  /** The cache key of a book's view, `f'/books/{book_id}'`. */
  function BookKey(id: Id): string {
    "/books/" + IntToString(id)
  }

  /** Different books never share a cache key. */
  lemma BookKeyInjective(a: Id, b: Id)
    requires BookKey(a) == BookKey(b)
    ensures a == b
  {
    assert IntToString(a) == BookKey(a)[7..];
    assert IntToString(b) == BookKey(b)[7..];
    IntToStringInjective(a, b);
  }

  /** `current_user` resolved to a stored user whose role row exists. */
  predicate Authenticated(s: Store, caller: Id) {
    caller in s.users && s.users[caller].roleId in s.roles
  }

  /** `(await session.get(Role, user.role_id)).role`, read afresh on every request. */
  function CallerRole(s: Store, caller: Id): EnumRole
    requires Authenticated(s, caller)
  {
    s.roles[s.users[caller].roleId]
  }

  predicate IsAdmin(s: Store, caller: Id)
    requires Authenticated(s, caller)
  {
    CallerRole(s, caller) == ADMIN
  }

  /** The review-delete policy: the review's author, any moderator or any admin. */
  predicate MayDeleteReview(caller: Id, role: EnumRole, ownerId: Id) {
    caller == ownerId || role == MODERATOR || role == ADMIN
  }
}

=== FILE: auth_slice.dfy ===
/** The `auth` slice of the client store (react-ui/src/store/auth/authSlice.js). */
module AuthSlice {
  import opened Wrappers

  /**
   * The slice state. `strayKeys` records the fields `logout` writes that the
   * rest of the client never reads (`userId`, `userName`), each set to `null`.
   */
  datatype AuthState = AuthState(logged: bool, id: Option<int>, username: Option<string>, strayKeys: set<string>)

  /** The `{id, username}` payload of `signup` and `login`. */
  datatype Payload = Payload(id: int, username: string)

  const Initial: AuthState := AuthState(false, None, None, {})

  function Login(s: AuthState, p: Payload): (t: AuthState)
    ensures t.logged && t.id == Some(p.id) && t.username == Some(p.username)
    ensures t.strayKeys == s.strayKeys
  {
    s.(logged := true, id := Some(p.id), username := Some(p.username))
  }

  /** `signup` has the same body as `login`. */
  function Signup(s: AuthState, p: Payload): (t: AuthState)
    ensures t.logged && t.id == Some(p.id) && t.username == Some(p.username)
    ensures t.strayKeys == s.strayKeys
  {
    s.(logged := true, id := Some(p.id), username := Some(p.username))
  }

  /** `logout` clears the flag and writes `userId`/`userName`, not `id`/`username`. */
  function Logout(s: AuthState): (t: AuthState)
    ensures !t.logged
    ensures t.id == s.id && t.username == s.username
    ensures t.strayKeys == s.strayKeys + {"userId", "userName"}
  {
    s.(logged := false, strayKeys := s.strayKeys + {"userId", "userName"})
  }

  lemma SignupIsLogin(s: AuthState, p: Payload)
    ensures Signup(s, p) == Login(s, p)
  {
  }

  /** After login then logout the client still holds the old id and name, so it is not back at the initial state. */
  lemma LogoutKeepsIdentity(p: Payload)
    ensures var t := Logout(Login(Initial, p));
      !t.logged && t.id == Some(p.id) && t.username == Some(p.username) && t != Initial
  {
  }
}

=== FILE: authors.dfy ===
/** The handlers of routes/authors_router.py. */
module Authors {
  import opened Wrappers
  import opened Seqs
  import opened Catalog
  import opened Api

  /** The `AuthorModel` payload of create and update. */
  datatype AuthorRequest = AuthorRequest(name: string)

  datatype AuthorDetail = AuthorDetail(id: Id, name: string, books: seq<BookItem>)

  predicate WrittenBy(s: Store, a: Id, b: Id) {
    b in s.books && s.books[b].authorId == a
  }

  /** The ids of the books whose author is `a`, ascending. */
  function BooksBy(s: Store, a: Id): (ids: seq<Id>)
    ensures forall b :: b in ids <==> WrittenBy(s, a, b)
    ensures forall k :: 0 <= k < |ids| ==> WrittenBy(s, a, ids[k])
    ensures StrictlyIncreasing(ids)
  {
    var all := SortedKeys(s.books.Keys);
    FilterIncreasing(all, (b: Id) => WrittenBy(s, a, b));
    Filter(all, (b: Id) => WrittenBy(s, a, b))
  }

  function DetailOf(s: Store, a: Id): AuthorDetail
    requires a in s.authors
  {
    var ids := BooksBy(s, a);
    AuthorDetail(a, s.authors[a].name, seq(|ids|, k requires 0 <= k < |ids| => ItemOf(ids[k], s.books[ids[k]])))
  }

  /**
   * `get_author`: the author with every book whose author column names it.
   * The handler reads the row without a 404, so an absent id raises on
   * `author.id` (500).
   */
  function GetAuthor(s: Store, id: Id): (r: Response<AuthorDetail>)
    ensures r.Err? <==> id !in s.authors
    ensures r.Err? ==> r.error == ServerError
    ensures r.Ok? ==> r.value.id == id && r.value.name == s.authors[id].name && |r.value.books| == |BooksBy(s, id)|
  {
    if id !in s.authors then Err(ServerError) else Ok(DetailOf(s, id))
  }

  /** The listed books are exactly the author's books, each once, by ascending id, with their stored columns. */
  lemma GetAuthorBooks(s: Store, id: Id)
    requires id in s.authors
    ensures var v := GetAuthor(s, id).value;
      && (forall k :: 0 <= k < |v.books| ==> WrittenBy(s, id, v.books[k].id) && v.books[k] == ItemOf(v.books[k].id, s.books[v.books[k].id]))
      && (forall k, j :: 0 <= k < j < |v.books| ==> v.books[k].id < v.books[j].id)
      && (forall b :: WrittenBy(s, id, b) ==> exists k :: 0 <= k < |v.books| && v.books[k].id == b)
  {
    var v := GetAuthor(s, id).value;
    var ids := BooksBy(s, id);
    forall k | 0 <= k < |v.books| ensures v.books[k] == ItemOf(ids[k], s.books[ids[k]]) && v.books[k].id == ids[k] { }
    forall k | 0 <= k < |v.books|
      ensures WrittenBy(s, id, v.books[k].id) && v.books[k] == ItemOf(v.books[k].id, s.books[v.books[k].id])
    { }
    forall k, j | 0 <= k < j < |v.books| ensures v.books[k].id < v.books[j].id { assert ids[k] < ids[j]; }
    forall b | WrittenBy(s, id, b)
      ensures exists k :: 0 <= k < |v.books| && v.books[k].id == b
    {
      var k :| 0 <= k < |ids| && ids[k] == b;
      assert v.books[k].id == b;
    }
  }

  /** `get_authors`: one entry per author, by ascending id. */
  function GetAuthors(s: Store): (r: seq<AuthorDetail>)
    ensures |r| == |s.authors|
  {
    var ids := SortedKeys(s.authors.Keys);
    seq(|ids|, k requires 0 <= k < |ids| => DetailOf(s, ids[k]))
  }

  /** The `k`-th entry of `get_authors` is the `k`-th author id's view. */
  lemma GetAuthorsAt(s: Store, k: nat)
    requires k < |GetAuthors(s)|
    ensures var ids := SortedKeys(s.authors.Keys);
      k < |ids| && ids[k] in s.authors && GetAuthor(s, ids[k]) == Ok(GetAuthors(s)[k])
  {
  }

  /**
   * Every author appears once, and each entry equals the single-author view,
   * so a book is listed under its own author and under no other.
   */
  lemma GetAuthorsCoversAll(s: Store)
    ensures var r := GetAuthors(s);
      && (forall k :: 0 <= k < |r| ==> r[k].id in s.authors && GetAuthor(s, r[k].id) == Ok(r[k]))
      && (forall k, j :: 0 <= k < j < |r| ==> r[k].id < r[j].id)
      && (forall a :: a in s.authors ==> exists k :: 0 <= k < |r| && r[k].id == a)
  {
    var r := GetAuthors(s);
    var ids := SortedKeys(s.authors.Keys);
    forall k | 0 <= k < |r|
      ensures GetAuthor(s, ids[k]) == Ok(r[k]) && r[k].id == ids[k]
    {
      GetAuthorsAt(s, k);
    }
    forall k, j | 0 <= k < j < |r|
      ensures r[k].id < r[j].id
    {
      assert ids[k] < ids[j];
    }
    forall a | a in s.authors
      ensures exists k :: 0 <= k < |r| && r[k].id == a
    {
      var k :| 0 <= k < |ids| && ids[k] == a;
      assert r[k].id == a;
    }
  }

  /**
   * `create_author`: a non-admin caller gets an empty body with status 200 and
   * nothing is stored; an admin's author is stored under a fresh id.
   */
  function CreateAuthor(s: Store, caller: Id, req: AuthorRequest): (r: Outcome<Option<Row<Author>>>)
    requires Authenticated(s, caller)
    ensures r.response.Ok?
    ensures !IsAdmin(s, caller) <==> r == Outcome(s, Ok(None))
    ensures IsAdmin(s, caller) ==>
      && r.response.value == Some(Row(s.next.author, Author(req.name)))
      && r.store.authors == s.authors[s.next.author := Author(req.name)]
  {
    if !IsAdmin(s, caller) then Outcome(s, Ok(None))
    else Outcome(InsertAuthor(s, Author(req.name)), Ok(Some(Row(s.next.author, Author(req.name)))))
  }

  /** An admin's create never reuses an id and keeps the store valid. */
  lemma CreateAuthorFresh(s: Store, caller: Id, req: AuthorRequest)
    requires Valid(s) && Authenticated(s, caller) && IsAdmin(s, caller)
    ensures var r := CreateAuthor(s, caller, req);
      && s.next.author !in s.authors
      && |r.store.authors| == |s.authors| + 1
      && Valid(r.store)
  {
    FreshIdsExceedExisting(s);
  }

  /**
   * `update_author`: 403 before the lookup; an admin's target is read without
   * a 404, so an absent id raises on the `name` assignment (500).
   */
  function UpdateAuthor(s: Store, caller: Id, id: Id, req: AuthorRequest): (r: Outcome<Row<Author>>)
    requires Authenticated(s, caller)
    ensures r.response.Ok? <==> IsAdmin(s, caller) && id in s.authors
    ensures r.response.Err? ==> r.store == s
    ensures !IsAdmin(s, caller) ==> r.response == Err(Forbidden)
    ensures IsAdmin(s, caller) && id !in s.authors ==> r.response == Err(ServerError)
    ensures r.response.Ok? ==>
      && r.response.value == Row(id, Author(req.name))
      && r.store == s.(authors := s.authors[id := Author(req.name)])
  {
    if !IsAdmin(s, caller) then Outcome(s, Err(Forbidden))
    else if id !in s.authors then Outcome(s, Err(ServerError))
    else Outcome(s.(authors := s.authors[id := Author(req.name)]), Ok(Row(id, Author(req.name))))
  }

  /** Renaming an author keeps the key set, so every foreign key still resolves. */
  lemma UpdateAuthorPreservesValidity(s: Store, caller: Id, id: Id, req: AuthorRequest)
    requires Valid(s) && Authenticated(s, caller)
    ensures Valid(UpdateAuthor(s, caller, id, req).store)
    ensures UpdateAuthor(s, caller, id, req).store.authors.Keys == s.authors.Keys
  {
  }

  /**
   * `delete_author`: 403 before the lookup; `session.delete` of the missing
   * row an absent id yields raises (500); otherwise the author and, by
   * cascade, their books go.
   */
  function DeleteAuthor(s: Store, caller: Id, id: Id): (r: Outcome<Removed>)
    requires Authenticated(s, caller)
    ensures r.response.Ok? <==> IsAdmin(s, caller) && id in s.authors
    ensures r.response.Err? ==> r.store == s
    ensures !IsAdmin(s, caller) ==> r.response == Err(Forbidden)
    ensures IsAdmin(s, caller) && id !in s.authors ==> r.response == Err(ServerError)
    ensures r.response.Ok? ==>
      && r.response.value == Removed(id)
      && id !in r.store.authors
      && (forall b :: b in r.store.books ==> r.store.books[b].authorId != id)
  {
    if !IsAdmin(s, caller) then Outcome(s, Err(Forbidden))
    else if id !in s.authors then Outcome(s, Err(ServerError))
    else Outcome(CascadeDeleteAuthor(s, id), Ok(Removed(id)))
  }
}

=== FILE: books.dfy ===
/** The handlers of routes/books_router.py. */
module Books {
  import opened Wrappers
  import opened Seqs
  import opened Catalog
  import opened Rating
  import opened Api

  /** The `BookModel` payload of create and update. */
  datatype BookRequest = BookRequest(title: string, authorId: Id, year: int, annotation: string, genreIds: seq<Id>)

  datatype AuthorRef = AuthorRef(id: Id, name: string)
  datatype GenreRef = GenreRef(id: Id, name: string)
  datatype ReviewEntry = ReviewEntry(id: Id, rating: int, text: string, created: Instant)

  /** The document `get_book` assembles. */
  datatype BookDetail = BookDetail(
    id: Id, title: string, author: AuthorRef, reviews: seq<ReviewEntry>, genres: seq<GenreRef>,
    rating: real, reviewsCount: nat, year: int, annotation: string)

  /** One element of the `get_books` list: the detail without its reviews. */
  datatype BookSummary = BookSummary(
    id: Id, title: string, author: AuthorRef, genres: seq<GenreRef>,
    rating: real, reviewsCount: nat, year: int, annotation: string)

  function SummaryOf(d: BookDetail): BookSummary {
    BookSummary(d.id, d.title, d.author, d.genres, d.rating, d.reviewsCount, d.year, d.annotation)
  }

  // ---------------------------------------------------------------------
  // Reads
  // ---------------------------------------------------------------------

  predicate OfBook(s: Store, b: Id, x: Id) {
    x in s.reviews && s.reviews[x].bookId == b
  }

  /** `select(Review).where(Review.book_id == book.id)`, listed by ascending id. */
  function ReviewIdsOf(s: Store, b: Id): (ids: seq<Id>)
    ensures forall x :: x in ids <==> OfBook(s, b, x)
    ensures forall k :: 0 <= k < |ids| ==> ids[k] in s.reviews
    ensures StrictlyIncreasing(ids)
  {
    var all := SortedKeys(s.reviews.Keys);
    FilterIncreasing(all, (x: Id) => OfBook(s, b, x));
    Filter(all, (x: Id) => OfBook(s, b, x))
  }

  /** The listing has one entry per review of the book. */
  lemma ReviewIdsCount(s: Store, b: Id)
    ensures |ReviewIdsOf(s, b)| == |set x | x in s.reviews && s.reviews[x].bookId == b|
  {
    var ids := ReviewIdsOf(s, b);
    forall i, j | 0 <= i < j < |ids| ensures ids[i] != ids[j] { assert ids[i] < ids[j]; }
    var c := set x | x in s.reviews && s.reviews[x].bookId == b;
    forall x ensures x in c <==> x in ids { assert x in ids <==> OfBook(s, b, x); }
    DistinctCard(ids, c);
  }

  function RatingsOf(s: Store, ids: seq<Id>): (rs: seq<int>)
    requires forall k :: 0 <= k < |ids| ==> ids[k] in s.reviews
    ensures |rs| == |ids|
  {
    seq(|ids|, k requires 0 <= k < |ids| => s.reviews[ids[k]].rating)
  }

  function EntriesOf(s: Store, ids: seq<Id>): (es: seq<ReviewEntry>)
    requires forall k :: 0 <= k < |ids| ==> ids[k] in s.reviews
    ensures |es| == |ids|
  {
    seq(|ids|, k requires 0 <= k < |ids| =>
      var r := s.reviews[ids[k]]; ReviewEntry(ids[k], r.rating, r.text, r.created))
  }

  /** The genres linked to book `b`, one per link row, in link order. */
  function LinkedGenres(s: Store, links: seq<GenreLink>, b: Id): (gs: seq<GenreRef>)
    ensures forall g :: g in gs ==> GenreLink(g.id, b) in links && g.id in s.genres && g.name == s.genres[g.id].name
    ensures forall l :: l in links && l.bookId == b && l.genreId in s.genres ==> GenreRef(l.genreId, s.genres[l.genreId].name) in gs
  {
    if |links| == 0 then []
    else
      var l := links[0];
      var rest := LinkedGenres(s, links[1..], b);
      if l.bookId == b && l.genreId in s.genres then [GenreRef(l.genreId, s.genres[l.genreId].name)] + rest
      else rest
  }

  /** The genre ids of a genre listing, in listing order. */
  function GenreRefIds(gs: seq<GenreRef>): (ids: seq<Id>)
    ensures |ids| == |gs|
    ensures forall k :: 0 <= k < |gs| ==> ids[k] == gs[k].id
  {
    seq(|gs|, k requires 0 <= k < |gs| => gs[k].id)
  }

  /**
   * When every link row of the book names a stored genre, the corrected query
   * lists one genre per link row, in link order, repetitions kept.
   */
  lemma {:induction false} LinkedGenresPerLinkRow(s: Store, links: seq<GenreLink>, b: Id)
    requires forall l :: l in links && l.bookId == b ==> l.genreId in s.genres
    ensures |LinkedGenres(s, links, b)| == LinkRowsOf(links, b)
    ensures GenreRefIds(LinkedGenres(s, links, b)) == GenreIdsLinked(links, b)
  {
    if |links| > 0 {
      forall l | l in links[1..] && l.bookId == b
        ensures l.genreId in s.genres
      {
        assert l in links;
      }
      LinkedGenresPerLinkRow(s, links[1..], b);
      var rest := LinkedGenres(s, links[1..], b);
      if links[0].bookId == b {
        assert links[0] in links;
        var g := GenreRef(links[0].genreId, s.genres[links[0].genreId].name);
        assert LinkedGenres(s, links, b) == [g] + rest;
        assert GenreRefIds([g] + rest) == [g.id] + GenreRefIds(rest);
      } else {
        assert LinkedGenres(s, links, b) == rest;
      }
    }
  }

  /** The number of link rows that name book `b`. */
  function LinkRowsOf(links: seq<GenreLink>, b: Id): (n: nat)
    ensures n <= |links|
    ensures n == 0 <==> forall l :: l in links ==> l.bookId != b
  {
    if |links| == 0 then 0
    else
      assert forall l :: l in links <==> l == links[0] || l in links[1..];
      (if links[0].bookId == b then 1 else 0) + LinkRowsOf(links[1..], b)
  }

  /** Each genre of `ids` with its stored name, repeated `k` times, genre after genre. */
  function RepeatedGenres(s: Store, ids: seq<Id>, k: nat): (gs: seq<GenreRef>)
    requires forall i :: 0 <= i < |ids| ==> ids[i] in s.genres
    ensures |gs| == |ids| * k
    ensures forall g :: g in gs <==> k > 0 && g.id in ids && g.id in s.genres && g.name == s.genres[g.id].name
  {
    if |ids| == 0 then []
    else
      var first := seq(k, _ => GenreRef(ids[0], s.genres[ids[0]].name));
      var rest := RepeatedGenres(s, ids[1..], k);
      assert forall x :: x in ids <==> x == ids[0] || x in ids[1..];
      assert k > 0 ==> first[0] in first;
      assert |first + rest| == k + (|ids| - 1) * k == |ids| * k;
      first + rest
  }

  /**
   * The genre query as written, `select(Genre).where(GenreToBook.book_id ==
   * book.id)`: without a join condition it pairs every genre of the catalog
   * with every link row of the book, so each genre appears once per such
   * row, and a book with no link rows gets none. Genres come in ascending id.
   */
  function GenresAsWritten(s: Store, b: Id): (gs: seq<GenreRef>)
    ensures |gs| == |s.genres| * LinkRowsOf(s.genreLinks, b)
    ensures forall g :: g in gs <==>
      (exists l :: l in s.genreLinks && l.bookId == b) && g.id in s.genres && g.name == s.genres[g.id].name
  {
    var ids := SortedKeys(s.genres.Keys);
    assert |s.genres.Keys| == |s.genres|;
    RepeatedGenres(s, ids, LinkRowsOf(s.genreLinks, b))
  }

  /** Every genre linked to the book is among the genres the query as written lists. */
  lemma LinkedGenresWithinAsWritten(s: Store, b: Id)
    ensures forall g :: g in LinkedGenres(s, s.genreLinks, b) ==> g in GenresAsWritten(s, b)
  {
    forall g | g in LinkedGenres(s, s.genreLinks, b)
      ensures g in GenresAsWritten(s, b)
    {
      assert GenreLink(g.id, b) in s.genreLinks;
    }
  }

  /**
   * A book with one link row in a catalog of two genres: the query as written
   * lists both genres, while the book is linked to one of them.
   */
  lemma GenresAsWrittenDiffers(s: Store, b: Id, g: Id, h: Id)
    requires g != h && s.genres.Keys == {g, h} && s.genreLinks == [GenreLink(g, b)]
    ensures LinkedGenres(s, s.genreLinks, b) == [GenreRef(g, s.genres[g].name)]
    ensures |GenresAsWritten(s, b)| == 2
    ensures GenreRef(h, s.genres[h].name) in GenresAsWritten(s, b)
    ensures GenreRef(h, s.genres[h].name) !in LinkedGenres(s, s.genreLinks, b)
  {
    assert s.genreLinks[1..] == [];
    assert |s.genres| == |s.genres.Keys| == 2;
    assert GenreLink(g, b) in s.genreLinks;
  }

  /** `get_book`: 404 for an absent id, otherwise the aggregated document. */
  function GetBook(s: Store, id: Id): (r: Response<BookDetail>)
    requires id in s.books ==> s.books[id].authorId in s.authors
    ensures r.Err? <==> id !in s.books
    ensures r.Err? ==> r.error == NotFound
  {
    if id !in s.books then Err(NotFound)
    else
      var b := s.books[id];
      var ids := ReviewIdsOf(s, id);
      var ratings := RatingsOf(s, ids);
      Ok(BookDetail(id, b.title, AuthorRef(b.authorId, s.authors[b.authorId].name),
                    EntriesOf(s, ids), LinkedGenres(s, s.genreLinks, id),
                    BookRating(ratings), |ids|, b.year, b.annotation))
  }

  function EntryRatings(es: seq<ReviewEntry>): (rs: seq<int>)
    ensures |rs| == |es|
  {
    seq(|es|, k requires 0 <= k < |es| => es[k].rating)
  }

  function EntryIds(es: seq<ReviewEntry>): (ids: seq<Id>)
    ensures |ids| == |es|
  {
    seq(|es|, k requires 0 <= k < |es| => es[k].id)
  }

  /** The document carries the book's own columns and its author's id and name. */
  lemma GetBookFields(s: Store, id: Id)
    requires id in s.books && s.books[id].authorId in s.authors
    ensures var v := GetBook(s, id).value;
      var b := s.books[id];
      && v.id == id && v.title == b.title && v.year == b.year && v.annotation == b.annotation
      && v.author == AuthorRef(b.authorId, s.authors[b.authorId].name)
  {
  }

  /** The document lists exactly the book's reviews, by ascending id, each as stored. */
  lemma GetBookReviews(s: Store, id: Id)
    requires id in s.books && s.books[id].authorId in s.authors
    ensures var v := GetBook(s, id).value;
      && (forall x :: x in EntryIds(v.reviews) <==> x in s.reviews && s.reviews[x].bookId == id)
      && StrictlyIncreasing(EntryIds(v.reviews))
      && (forall e :: e in v.reviews ==> e.id in s.reviews && e.rating == s.reviews[e.id].rating
                                         && e.text == s.reviews[e.id].text && e.created == s.reviews[e.id].created)
  {
    var v := GetBook(s, id).value;
    var ids := ReviewIdsOf(s, id);
    var es := EntriesOf(s, ids);
    assert v.reviews == es;
    EntriesAsStored(s, ids);
  }

  /** Each entry copies the stored review its id names, in the order of `ids`. */
  lemma EntriesAsStored(s: Store, ids: seq<Id>)
    requires forall k :: 0 <= k < |ids| ==> ids[k] in s.reviews
    ensures EntryIds(EntriesOf(s, ids)) == ids
    ensures forall e :: e in EntriesOf(s, ids) ==>
      && e.id in s.reviews && e.rating == s.reviews[e.id].rating
      && e.text == s.reviews[e.id].text && e.created == s.reviews[e.id].created
  {
    var es := EntriesOf(s, ids);
    forall k | 0 <= k < |ids|
      ensures es[k] == ReviewEntry(ids[k], s.reviews[ids[k]].rating, s.reviews[ids[k]].text, s.reviews[ids[k]].created)
    { }
    var eids := EntryIds(es);
    forall k | 0 <= k < |ids| ensures eids[k] == ids[k] { }
    assert eids == ids;
    forall e | e in es
      ensures e.id in s.reviews && e.rating == s.reviews[e.id].rating
      ensures e.text == s.reviews[e.id].text && e.created == s.reviews[e.id].created
    {
      var k :| 0 <= k < |es| && es[k] == e;
      assert e.id == ids[k];
    }
  }

  /**
   * `reviews_count` is the number of the book's reviews and `rating` is the
   * mean of the listed ratings, exactly 0 when there are none.
   */
  lemma GetBookRating(s: Store, id: Id)
    requires id in s.books && s.books[id].authorId in s.authors
    ensures var v := GetBook(s, id).value;
      && v.reviewsCount == |v.reviews| == |set x | x in s.reviews && s.reviews[x].bookId == id|
      && v.rating == BookRating(EntryRatings(v.reviews))
      && (v.reviewsCount == 0 ==> v.rating == 0.0)
  {
    var v := GetBook(s, id).value;
    var ids := ReviewIdsOf(s, id);
    var rs := RatingsOf(s, ids);
    ReviewIdsCount(s, id);
    EntryRatingsAsStored(s, ids);
    assert v.reviews == EntriesOf(s, ids) && v.rating == BookRating(rs) && v.reviewsCount == |ids|;
  }

  /** The ratings read off the entries are the stored ratings, in the same order. */
  lemma EntryRatingsAsStored(s: Store, ids: seq<Id>)
    requires forall k :: 0 <= k < |ids| ==> ids[k] in s.reviews
    ensures EntryRatings(EntriesOf(s, ids)) == RatingsOf(s, ids)
  {
    var es := EntriesOf(s, ids);
    var rs := RatingsOf(s, ids);
    var ers := EntryRatings(es);
    forall k | 0 <= k < |rs| ensures ers[k] == rs[k] {
      assert es[k].rating == s.reviews[ids[k]].rating;
    }
  }

  /** `get_books` computes each listed book with its own copy of the same queries. */
  function ListedBook(s: Store, id: Id): BookSummary
    requires id in s.books && s.books[id].authorId in s.authors
  {
    var b := s.books[id];
    var ids := ReviewIdsOf(s, id);
    BookSummary(id, b.title, AuthorRef(b.authorId, s.authors[b.authorId].name),
                LinkedGenres(s, s.genreLinks, id), BookRating(RatingsOf(s, ids)), |ids|, b.year, b.annotation)
  }

  predicate HasAuthor(s: Store, id: Id) {
    id in s.books && s.books[id].authorId in s.authors
  }

  /** `select(Book, Author)...where(Book.author_id == Author.id)`: books joined to their author, by id. */
  function ListedIds(s: Store): (ids: seq<Id>)
    ensures forall x :: x in ids <==> HasAuthor(s, x)
    ensures forall k :: 0 <= k < |ids| ==> HasAuthor(s, ids[k])
    ensures StrictlyIncreasing(ids)
  {
    var all := SortedKeys(s.books.Keys);
    FilterIncreasing(all, (x: Id) => HasAuthor(s, x));
    Filter(all, (x: Id) => HasAuthor(s, x))
  }

  /** `get_books`: every book that has its author, in ascending id order. */
  function GetBooks(s: Store): (r: seq<BookSummary>)
    ensures |r| == |ListedIds(s)|
  {
    var ids := ListedIds(s);
    seq(|ids|, k requires 0 <= k < |ids| => ListedBook(s, ids[k]))
  }

  /**
   * Each listed book is summarised exactly as `get_book` would show it, rating
   * included; under the foreign-key invariant every book is listed, once.
   */
  lemma GetBooksAgreesWithGetBook(s: Store)
    ensures forall k :: 0 <= k < |GetBooks(s)| ==>
      var e := GetBooks(s)[k];
      HasAuthor(s, e.id) && GetBook(s, e.id).Ok? && e == SummaryOf(GetBook(s, e.id).value)
    ensures forall k, j :: 0 <= k < j < |GetBooks(s)| ==> GetBooks(s)[k].id < GetBooks(s)[j].id
    ensures Consistent(s) ==> forall b :: b in s.books <==> exists k :: 0 <= k < |GetBooks(s)| && GetBooks(s)[k].id == b
  {
    var r := GetBooks(s);
    var ids := ListedIds(s);
    forall k | 0 <= k < |r|
      ensures r[k].id == ids[k] && HasAuthor(s, r[k].id)
      ensures GetBook(s, r[k].id).Ok? && r[k] == SummaryOf(GetBook(s, r[k].id).value)
    {
      GetBooksAt(s, k);
      ListedBookAgrees(s, ids[k]);
    }
    forall k, j | 0 <= k < j < |r| ensures r[k].id < r[j].id { assert ids[k] < ids[j]; }
    if Consistent(s) {
      forall b | b in s.books
        ensures exists k :: 0 <= k < |r| && r[k].id == b
      {
        assert HasAuthor(s, b);
        var k :| 0 <= k < |ids| && ids[k] == b;
        assert r[k].id == b;
      }
    }
  }

  /** The `k`-th entry of `get_books` summarises the `k`-th listed id. */
  lemma GetBooksAt(s: Store, k: nat)
    requires k < |ListedIds(s)|
    ensures var ids := ListedIds(s);
      k < |GetBooks(s)| && HasAuthor(s, ids[k]) && GetBooks(s)[k] == ListedBook(s, ids[k])
  {
  }

  /** The listing's summary of a book is the summary of its `get_book` document. */
  lemma ListedBookAgrees(s: Store, id: Id)
    requires HasAuthor(s, id)
    ensures GetBook(s, id).Ok? && ListedBook(s, id) == SummaryOf(GetBook(s, id).value)
  {
  }

  // ---------------------------------------------------------------------
  // Writes (ADMIN only; the role check comes first)
  // ---------------------------------------------------------------------

  /** One link row per requested genre id, in request order, duplicates kept. */
  function GenreLinksFor(genreIds: seq<Id>, b: Id): (ls: seq<GenreLink>)
    ensures |ls| == |genreIds|
    ensures forall k :: 0 <= k < |ls| ==> ls[k] == GenreLink(genreIds[k], b)
  {
    if |genreIds| == 0 then [] else [GenreLink(genreIds[0], b)] + GenreLinksFor(genreIds[1..], b)
  }

  /** The requested genre ids that name no genre, in request order (repetitions kept). */
  function MissingGenres(s: Store, genreIds: seq<Id>): (ms: seq<Id>)
    ensures forall g :: g in ms <==> g in genreIds && g !in s.genres
  {
    Filter(genreIds, (g: Id) => g !in s.genres)
  }

  /**
   * The report is built in request order, one entry per offending request
   * entry: nothing for no ids, and each further id is reported after the
   * earlier ones exactly when it names no genre.
   */
  lemma MissingGenresInOrder(s: Store, ids: seq<Id>, g: Id)
    ensures MissingGenres(s, []) == []
    ensures MissingGenres(s, ids + [g]) == MissingGenres(s, ids) + (if g in s.genres then [] else [g])
  {
    FilterAppend(ids, [g], (x: Id) => x !in s.genres);
    assert [g][1..] == [];
  }

  function BookOf(req: BookRequest): Book {
    Book(req.title, req.year, req.authorId, req.annotation)
  }

  /** `create_book`: role check, then the author, then every genre id, then the insert. */
  function CreateBook(s: Store, caller: Id, req: BookRequest): (r: Outcome<Row<Book>>)
    requires Authenticated(s, caller)
    ensures r.response.Err? ==> r.store == s
    ensures r.response.Ok? <==> IsAdmin(s, caller) && req.authorId in s.authors && MissingGenres(s, req.genreIds) == []
  {
    if !IsAdmin(s, caller) then Outcome(s, Err(Forbidden))
    else if req.authorId !in s.authors then Outcome(s, Err(UnknownAuthor(req.authorId)))
    else
      var missing := MissingGenres(s, req.genreIds);
      if |missing| > 0 then Outcome(s, Err(UnknownGenres(missing)))
      else
        var id := s.next.book;
        var t := InsertBook(s, BookOf(req));
        Outcome(t.(genreLinks := t.genreLinks + GenreLinksFor(req.genreIds, id)), Ok(Row(id, BookOf(req))))
  }

  /**
   * A non-admin gets 403 before anything else is looked at; an unknown author
   * gives 400 naming it; unknown genres give 400 naming every one of them.
   * None of these writes anything.
   */
  lemma CreateBookRejects(s: Store, caller: Id, req: BookRequest)
    requires Authenticated(s, caller)
    ensures var r := CreateBook(s, caller, req);
      && (!IsAdmin(s, caller) ==> r == Outcome(s, Err(Forbidden)))
      && (IsAdmin(s, caller) && req.authorId !in s.authors ==> r == Outcome(s, Err(UnknownAuthor(req.authorId))))
      && (IsAdmin(s, caller) && req.authorId in s.authors && (exists g :: g in req.genreIds && g !in s.genres) ==>
            r.store == s && r.response.Err? && r.response.error.UnknownGenres?
            && r.response.error.genreIds == MissingGenres(s, req.genreIds)
            && (forall g :: g in r.response.error.genreIds <==> g in req.genreIds && g !in s.genres)
            && r.response.error.Status() == 400)
  {
  }

  /**
   * A successful create adds one book under a fresh id with the requested
   * columns, and one genre link per requested genre id (duplicates included),
   * appended in request order; nothing else changes.
   */
  lemma CreateBookInserts(s: Store, caller: Id, req: BookRequest)
    requires Valid(s) && Authenticated(s, caller)
    requires CreateBook(s, caller, req).response.Ok?
    ensures var r := CreateBook(s, caller, req);
      var id := r.response.value.id;
      && id !in s.books && (forall k :: k in s.books ==> k < id)
      && r.store.books == s.books[id := BookOf(req)]
      && r.store.genreLinks == s.genreLinks + GenreLinksFor(req.genreIds, id)
      && r.store.reviews == s.reviews && r.store.authors == s.authors && r.store.genres == s.genres
      && r.store.collectionLinks == s.collectionLinks && r.store.collections == s.collections
      && Valid(r.store)
  {
    FreshIdsExceedExisting(s);
    var r := CreateBook(s, caller, req);
    var id := s.next.book;
    forall l | l in r.store.genreLinks
      ensures l.genreId in r.store.genres && l.bookId in r.store.books
    {
      if l !in s.genreLinks {
        var ls := GenreLinksFor(req.genreIds, id);
        assert l in ls;
        var k :| 0 <= k < |ls| && ls[k] == l;
        assert req.genreIds[k] in req.genreIds;
        assert req.genreIds[k] !in MissingGenres(s, req.genreIds);
      }
    }
  }

  /** Selects the link rows of books other than `b`. */
  function NotLinkOf(b: Id): GenreLink -> bool {
    (l: GenreLink) => l.bookId != b
  }

  /** The genre ids linked to book `b`, in link order. */
  function GenreIdsLinked(links: seq<GenreLink>, b: Id): seq<Id> {
    if |links| == 0 then []
    else if links[0].bookId == b then [links[0].genreId] + GenreIdsLinked(links[1..], b)
    else GenreIdsLinked(links[1..], b)
  }

  lemma {:induction false} GenreIdsLinkedAppend(a: seq<GenreLink>, c: seq<GenreLink>, b: Id)
    ensures GenreIdsLinked(a + c, b) == GenreIdsLinked(a, b) + GenreIdsLinked(c, b)
  {
    if |a| == 0 {
      assert a + c == c;
    } else {
      assert (a + c)[0] == a[0];
      assert (a + c)[1..] == a[1..] + c;
      GenreIdsLinkedAppend(a[1..], c, b);
    }
  }

  lemma {:induction false} GenreIdsLinkedNone(links: seq<GenreLink>, b: Id)
    requires forall k :: 0 <= k < |links| ==> links[k].bookId != b
    ensures GenreIdsLinked(links, b) == []
  {
    if |links| > 0 {
      GenreIdsLinkedNone(links[1..], b);
    }
  }

  lemma {:induction false} GenreIdsLinkedFor(genreIds: seq<Id>, b: Id)
    ensures GenreIdsLinked(GenreLinksFor(genreIds, b), b) == genreIds
  {
    if |genreIds| > 0 {
      var ls := GenreLinksFor(genreIds, b);
      assert ls[1..] == GenreLinksFor(genreIds[1..], b);
      GenreIdsLinkedFor(genreIds[1..], b);
    }
  }

  /**
   * `update_book`: role check, then existence. Author and genre ids are NOT
   * validated by the handler: the database's foreign keys reject a missing
   * author at the first commit (nothing changes) and a missing genre at the
   * second (the new columns stay, the old links stay).
   */
  function UpdateBook(s: Store, caller: Id, id: Id, req: BookRequest): (r: Outcome<Row<Book>>)
    requires Authenticated(s, caller)
    ensures r.response.Ok? <==>
      IsAdmin(s, caller) && id in s.books && req.authorId in s.authors && MissingGenres(s, req.genreIds) == []
    ensures r.response.Ok? ==> r.response.value == Row(id, BookOf(req))
  {
    if !IsAdmin(s, caller) then Outcome(s, Err(Forbidden))
    else if id !in s.books then Outcome(s, Err(NotFound))
    else if req.authorId !in s.authors then Outcome(s, Err(IntegrityError))
    else
      var t := s.(books := s.books[id := BookOf(req)]);
      if MissingGenres(s, req.genreIds) != [] then Outcome(t, Err(IntegrityError))
      else
        var kept := Filter(t.genreLinks, NotLinkOf(id));
        Outcome(t.(genreLinks := kept + GenreLinksFor(req.genreIds, id)), Ok(Row(id, BookOf(req))))
  }

  /** 403 comes before the existence check; an absent book then gives 404; neither writes. */
  lemma UpdateBookChecks(s: Store, caller: Id, id: Id, req: BookRequest)
    requires Authenticated(s, caller)
    ensures !IsAdmin(s, caller) ==> UpdateBook(s, caller, id, req) == Outcome(s, Err(Forbidden))
    ensures IsAdmin(s, caller) && id !in s.books ==> UpdateBook(s, caller, id, req) == Outcome(s, Err(NotFound))
    ensures IsAdmin(s, caller) && id in s.books && req.authorId !in s.authors ==>
      UpdateBook(s, caller, id, req) == Outcome(s, Err(IntegrityError))
  {
  }

  /**
   * After a successful update the book's columns are the requested ones, its
   * genre links are exactly the requested ids in request order, and every
   * other book's links are untouched.
   */
  lemma UpdateBookReplacesLinks(s: Store, caller: Id, id: Id, req: BookRequest)
    requires Authenticated(s, caller)
    requires UpdateBook(s, caller, id, req).response.Ok?
    ensures var t := UpdateBook(s, caller, id, req).store;
      && t.books == s.books[id := BookOf(req)]
      && GenreIdsLinked(t.genreLinks, id) == req.genreIds
      && Filter(t.genreLinks, NotLinkOf(id)) == Filter(s.genreLinks, NotLinkOf(id))
      && t.reviews == s.reviews && t.collectionLinks == s.collectionLinks
  {
    var t := UpdateBook(s, caller, id, req).store;
    var p := NotLinkOf(id);
    var kept := Filter(s.genreLinks, p);
    var added := GenreLinksFor(req.genreIds, id);
    assert t.genreLinks == kept + added;
    GenreIdsLinkedAppend(kept, added, id);
    GenreIdsLinkedNone(kept, id);
    GenreIdsLinkedFor(req.genreIds, id);
    FilterAppend(kept, added, p);
    FilterIdempotent(s.genreLinks, p);
    FilterNone(added, p);
  }
  /** After a successful update, `get_book` lists exactly the requested genres, in request order. */
  lemma UpdatedBookListsRequestedGenres(s: Store, caller: Id, id: Id, req: BookRequest)
    requires Authenticated(s, caller)
    requires UpdateBook(s, caller, id, req).response.Ok?
    ensures var t := UpdateBook(s, caller, id, req).store;
      && GetBook(t, id).Ok?
      && GenreRefIds(GetBook(t, id).value.genres) == req.genreIds
  {
    var t := UpdateBook(s, caller, id, req).store;
    UpdateBookReplacesLinks(s, caller, id, req);
    var kept := Filter(s.genreLinks, NotLinkOf(id));
    var added := GenreLinksFor(req.genreIds, id);
    assert t.genreLinks == kept + added;
    forall l | l in t.genreLinks && l.bookId == id
      ensures l.genreId in t.genres
    {
      if l !in kept {
        var k :| 0 <= k < |added| && added[k] == l;
        assert req.genreIds[k] in req.genreIds;
      }
    }
    LinkedGenresPerLinkRow(t, t.genreLinks, id);
  }


  /** Every update outcome, failed ones included, keeps the foreign-key invariant. */
  lemma UpdateBookPreservesValidity(s: Store, caller: Id, id: Id, req: BookRequest)
    requires Valid(s) && Authenticated(s, caller)
    ensures Valid(UpdateBook(s, caller, id, req).store)
  {
    var r := UpdateBook(s, caller, id, req);
    if r.response.Ok? {
      var t := r.store;
      var added := GenreLinksFor(req.genreIds, id);
      forall l | l in t.genreLinks
        ensures l.genreId in t.genres && l.bookId in t.books
      {
        if l in added {
          var k :| 0 <= k < |added| && added[k] == l;
          assert req.genreIds[k] in req.genreIds;
          assert req.genreIds[k] !in MissingGenres(s, req.genreIds);
        }
      }
    }
  }

  /** A missing genre id fails the second commit: the new columns persist but the old links stay. */
  lemma UpdateBookUnknownGenre(s: Store, caller: Id, id: Id, req: BookRequest, g: Id)
    requires Authenticated(s, caller) && IsAdmin(s, caller)
    requires id in s.books && req.authorId in s.authors
    requires g in req.genreIds && g !in s.genres
    ensures var r := UpdateBook(s, caller, id, req);
      && r.response == Err(IntegrityError)
      && r.store == s.(books := s.books[id := BookOf(req)])
  {
    assert g in MissingGenres(s, req.genreIds);
  }

  /** `delete_book`: role check, then existence, then the cascading delete. */
  function DeleteBook(s: Store, caller: Id, id: Id): (r: Outcome<Removed>)
    requires Authenticated(s, caller)
    ensures r.response.Ok? <==> IsAdmin(s, caller) && id in s.books
    ensures r.response.Err? ==> r.store == s
    ensures r.response.Ok? ==> r.response.value == Removed(id)
  {
    if !IsAdmin(s, caller) then Outcome(s, Err(Forbidden))
    else if id !in s.books then Outcome(s, Err(NotFound))
    else Outcome(CascadeDeleteBook(s, id), Ok(Removed(id)))
  }

  /** A non-admin gets 403 even for an absent id; an admin gets 404 for it; a delete cascades. */
  lemma DeleteBookChecks(s: Store, caller: Id, id: Id)
    requires Authenticated(s, caller)
    ensures !IsAdmin(s, caller) ==> DeleteBook(s, caller, id).response == Err(Forbidden)
    ensures IsAdmin(s, caller) && id !in s.books ==> DeleteBook(s, caller, id).response == Err(NotFound)
    ensures IsAdmin(s, caller) && id in s.books ==>
      var t := DeleteBook(s, caller, id).store;
      id !in t.books && (forall x :: x in t.reviews ==> t.reviews[x].bookId != id)
      && (forall l :: l in t.genreLinks ==> l.bookId != id)
      && (forall l :: l in t.collectionLinks ==> l.bookId != id)
  {
    if IsAdmin(s, caller) && id in s.books {
      DeleteBookCascades(s, id);
    }
  }
}

=== FILE: books_page.dfy ===
/**
 * The state logic of react-ui/src/pages/BooksPage.js: the `BooksList`
 * pager, the genre overflow badge of `BookCard`, and the filter object
 * `SideBar` derives from its selections.
 */
module BooksPage {
  import opened Wrappers
  import opened Numerals
  import Js

  /** `<BooksList booksPerRow={5} rowsPerPage={2}/>`. */
  const BooksPerRow: nat := 5
  const RowsPerPage: nat := 2

  function BooksPerPage(rows: nat, perRow: nat): (n: nat)
    ensures rows > 0 && perRow > 0 ==> n > 0
  {
    rows * perRow
  }

  /** `Math.ceil(len / booksPerPage)`: the fewest pages that hold every book. */
  function TotalPages(len: nat, perPage: nat): (t: nat)
    requires perPage > 0
    ensures t * perPage >= len
    ensures t > 0 ==> (t - 1) * perPage < len
    ensures t == 0 <==> len == 0
  {
    (len + perPage - 1) / perPage
  }

  /** The cards of page `page`: `books.slice(page * bpp, (page + 1) * bpp)`. */
  function Visible<T>(books: seq<T>, page: int, perPage: nat): (v: seq<T>)
    ensures |v| <= perPage
    ensures 0 <= page && (page + 1) * perPage <= |books| ==> v == books[page * perPage..(page + 1) * perPage]
  {
    Js.Slice(books, page * perPage, (page + 1) * perPage)
  }

  /** The pager: the list it shows and the current page. */
  datatype Pager<T> = Pager(books: seq<T>, page: int)

  datatype PagerEvent<T> = Previous | Next | BooksChanged(books: seq<T>)

  /** `<` decrements only above page 0; `>` increments only below the last page; a new list resets to 0. */
  function Step<T>(p: Pager<T>, e: PagerEvent<T>, perPage: nat): (q: Pager<T>)
    requires perPage > 0
    ensures e.Previous? ==> q.books == p.books && q.page == (if p.page > 0 then p.page - 1 else p.page)
    ensures e.Next? ==> q.books == p.books && q.page == (if p.page + 1 < TotalPages(|p.books|, perPage) then p.page + 1 else p.page)
    ensures e.BooksChanged? ==> q == Pager(e.books, 0)
  {
    match e
    case Previous => if p.page > 0 then p.(page := p.page - 1) else p
    case Next => if p.page + 1 < TotalPages(|p.books|, perPage) then p.(page := p.page + 1) else p
    case BooksChanged(bs) => Pager(bs, 0)
  }

  /** The page is never negative, and it names an existing page whenever there are books. */
  predicate InRange<T>(p: Pager<T>, perPage: nat)
    requires perPage > 0
  {
    0 <= p.page && (p.page < TotalPages(|p.books|, perPage) || p.page == 0)
  }

  /** Every event keeps the page in range, starting from the initial page 0. */
  lemma StepKeepsPageInRange<T>(p: Pager<T>, e: PagerEvent<T>, perPage: nat)
    requires perPage > 0 && InRange(p, perPage)
    ensures InRange(Step(p, e, perPage), perPage)
    ensures InRange(Pager(p.books, 0), perPage)
  {
  }

  /** Within range, a page that is not the last one is full and the last one is non-empty. */
  lemma VisiblePageSizes<T>(books: seq<T>, page: nat, perPage: nat)
    requires perPage > 0 && page < TotalPages(|books|, perPage)
    ensures page + 1 < TotalPages(|books|, perPage) ==> |Visible(books, page, perPage)| == perPage
    ensures page + 1 == TotalPages(|books|, perPage) ==> |Visible(books, page, perPage)| == |books| - page * perPage > 0
  {
    var t := TotalPages(|books|, perPage);
    var lo := page * perPage;
    var hi := (page + 1) * perPage;
    MulSucc(page, perPage);
    if page + 1 < t {
      MulMono(page + 1, t - 1, perPage);
      assert Visible(books, page, perPage) == books[lo..hi];
    } else {
      assert lo == (t - 1) * perPage && hi == t * perPage;
      assert Visible(books, page, perPage) == books[lo..];
    }
  }

  lemma MulSucc(a: nat, n: nat)
    ensures (a + 1) * n == a * n + n
  {
  }

  lemma MulMono(a: nat, b: nat, n: nat)
    requires a <= b
    ensures a * n <= b * n
  {
  }

  /** The twelve-book list of the browser scenario: ten cards on page 0, two on page 1, two pages. */
  lemma TwelveBooksExample<T>(books: seq<T>)
    requires |books| == 12
    ensures BooksPerPage(RowsPerPage, BooksPerRow) == 10
    ensures TotalPages(12, 10) == 2
    ensures |Visible(books, 0, 10)| == 10 && |Visible(books, 1, 10)| == 2
  {
  }

  /** The pages in order, concatenated, are exactly the book list. */
  function AllPages<T>(books: seq<T>, perPage: nat, from: nat): seq<T>
    requires perPage > 0
    decreases |books| - from * perPage
  {
    if from * perPage >= |books| then [] else Visible(books, from, perPage) + AllPages(books, perPage, from + 1)
  }

  lemma {:induction false} PagesPartitionBooks<T>(books: seq<T>, perPage: nat, from: nat)
    requires perPage > 0 && from * perPage <= |books|
    ensures AllPages(books, perPage, from) == books[from * perPage..]
    decreases |books| - from * perPage
  {
    if from * perPage < |books| {
      var lo := from * perPage;
      var hi := (from + 1) * perPage;
      MulSucc(from, perPage);
      if hi <= |books| {
        PagesPartitionBooks(books, perPage, from + 1);
        assert Visible(books, from, perPage) == books[lo..hi];
        assert books[lo..hi] + books[hi..] == books[lo..];
      } else {
        assert Visible(books, from, perPage) == books[lo..];
        assert AllPages(books, perPage, from + 1) == [];
      }
    }
  }

  // ---------------------------------------------------------------------
  // BookCard
  // ---------------------------------------------------------------------

  const GenresLimit: nat := 3

  /** The genre badges of a card: the first three names, then `+k` for the rest when there are any. */
  function GenreBadges(genres: seq<string>): (badges: seq<string>)
    ensures |genres| <= GenresLimit ==> badges == genres
    ensures |genres| > GenresLimit ==> badges == genres[..GenresLimit] + ["+" + IntToString(|genres| - GenresLimit)]
  {
    var hidden := |genres| - GenresLimit;
    Js.Slice(genres, 0, GenresLimit) + (if hidden > 0 then ["+" + IntToString(hidden)] else [])
  }

  /** The shown names plus the number in the badge account for every genre. */
  lemma GenreBadgesCount(genres: seq<string>)
    ensures var b := GenreBadges(genres);
      |genres| > GenresLimit ==> |b| == GenresLimit + 1 && Numerals.ParseInt(b[GenresLimit][1..]) == Some(|genres| - GenresLimit)
  {
    if |genres| > GenresLimit {
      var h := |genres| - GenresLimit;
      var b := GenreBadges(genres);
      var badge := "+" + IntToString(h);
      assert b == genres[..GenresLimit] + [badge];
      assert b[GenresLimit] == badge;
      assert badge[1..] == IntToString(h);
      IntToStringRoundTrip(h);
    }
  }

  // ---------------------------------------------------------------------
  // SideBar
  // ---------------------------------------------------------------------

  /** The filter object `SideBar` hands to the page; `None` is `null`. */
  datatype Filters = Filters(
    searchQuery: Option<string>,
    genreIds: Option<seq<int>>,
    yearFrom: Option<Js.Number>,
    yearTo: Option<Js.Number>,
    authorIds: Option<seq<int>>)

  /** The filters before the side bar reports: everything `null`. */
  const InitialFilters: Filters := Filters(None, None, None, None, None)

  function NonEmptyOrNull(ids: seq<int>): (r: Option<seq<int>>)
    ensures r.None? <==> |ids| == 0
    ensures r.Some? ==> r.value == ids
  {
    if |ids| > 0 then Some(ids) else None
  }

  function YearOrNull(text: string): (r: Option<Js.Number>)
    ensures r.None? <==> |text| == 0
    ensures r.Some? ==> r.value == Js.ParseInt(text)
  {
    if |text| > 0 then Some(Js.ParseInt(text)) else None
  }

  /** The effect in `SideBar`: empty selections and empty year strings become `null`; no search query. */
  function SideBarFilters(genres: seq<int>, authors: seq<int>, yearFrom: string, yearTo: string): (f: Filters)
    ensures f.searchQuery.None?
    ensures f.genreIds.None? <==> |genres| == 0
    ensures f.authorIds.None? <==> |authors| == 0
    ensures f.yearFrom.None? <==> |yearFrom| == 0
    ensures f.yearTo.None? <==> |yearTo| == 0
  {
    Filters(None, NonEmptyOrNull(genres), YearOrNull(yearFrom), YearOrNull(yearTo), NonEmptyOrNull(authors))
  }

  /** With nothing selected the side bar reports the initial filters; a typed year is read back as a number. */
  lemma SideBarFiltersExamples(genres: seq<int>, authors: seq<int>, year: int)
    ensures SideBarFilters([], [], "", "") == InitialFilters
    ensures SideBarFilters(genres, authors, IntToString(year), "").yearFrom == Some(Js.Num(year))
  {
    Js.ParseIntRendering(year);
  }
}

=== FILE: catalog.dfy ===
/**
 * The relational catalog of models/models.py as immutable tables: one map
 * from id to row per entity table, one sequence per link table (inserts never
 * deduplicate), and the identity counter of every entity table.
 */
module Catalog {
  import opened Wrappers
  import opened Seqs

  type Id = int

  /** `Role.EnumRole`: the three role kinds and their stored codes. */
  datatype EnumRole = USER | MODERATOR | ADMIN {
    function Code(): (c: int)
      ensures 1 <= c <= 3
    {
      match this
      case USER => 1
      case MODERATOR => 2
      case ADMIN => 3
    }
  }

  /** The enum member a stored code denotes, if any. */
  function RoleFromCode(c: int): (r: Option<EnumRole>)
    ensures r.Some? <==> 1 <= c <= 3
  {
    if c == 1 then Some(USER)
    else if c == 2 then Some(MODERATOR)
    else if c == 3 then Some(ADMIN)
    else None
  }

  /** The codes are exactly USER=1, MODERATOR=2, ADMIN=3: decoding inverts encoding. */
  lemma RoleCodesRoundTrip(r: EnumRole, c: int)
    ensures RoleFromCode(r.Code()) == Some(r)
    ensures RoleFromCode(c).Some? ==> RoleFromCode(c).value.Code() == c
    ensures r.Code() == 1 <==> r == USER
    ensures r.Code() == 2 <==> r == MODERATOR
    ensures r.Code() == 3 <==> r == ADMIN
  {
  }

  datatype User = User(name: string, email: string, hashedPassword: string, roleId: Id)
  datatype Author = Author(name: string)
  datatype Book = Book(title: string, year: int, authorId: Id, annotation: string)
  datatype Genre = Genre(name: string)
  datatype Collection = Collection(title: string, userId: Id)

  /** A server-assigned creation time; only its identity matters to the model. */
  datatype Instant = Instant(ticks: nat)

  datatype Review = Review(userId: Id, bookId: Id, rating: int, text: string, created: Instant)

  /** A row of the "Books Genres" table. */
  datatype GenreLink = GenreLink(genreId: Id, bookId: Id)

  /** A row of the "Books Collections" table. */
  datatype CollectionLink = CollectionLink(collectionId: Id, bookId: Id)

  /** The next value of each table's `Identity(start=1, increment=1)` sequence. */
  datatype Counters = Counters(role: Id, user: Id, author: Id, book: Id, genre: Id, collection: Id, review: Id)

  datatype Store = Store(
    roles: map<Id, EnumRole>,
    users: map<Id, User>,
    authors: map<Id, Author>,
    books: map<Id, Book>,
    genres: map<Id, Genre>,
    collections: map<Id, Collection>,
    reviews: map<Id, Review>,
    genreLinks: seq<GenreLink>,
    collectionLinks: seq<CollectionLink>,
    next: Counters)

  /** A fresh database: every table empty, every identity sequence at its start value 1. */
  function Empty(): (s: Store)
    ensures Valid(s)
  {
    Store(map[], map[], map[], map[], map[], map[], map[], [], [],
          Counters(1, 1, 1, 1, 1, 1, 1))
  }

  predicate KeysBelow<T>(m: map<Id, T>, next: Id) {
    forall k :: k in m ==> 1 <= k < next
  }

  /** Every id was drawn from its table's sequence: ids start at 1 and lie below the next value. */
  predicate IdentityOk(s: Store) {
    && s.next.role >= 1 && s.next.user >= 1 && s.next.author >= 1 && s.next.book >= 1
    && s.next.genre >= 1 && s.next.collection >= 1 && s.next.review >= 1
    && KeysBelow(s.roles, s.next.role)
    && KeysBelow(s.users, s.next.user)
    && KeysBelow(s.authors, s.next.author)
    && KeysBelow(s.books, s.next.book)
    && KeysBelow(s.genres, s.next.genre)
    && KeysBelow(s.collections, s.next.collection)
    && KeysBelow(s.reviews, s.next.review)
  }

  /** Every non-null foreign key resolves to an existing row. */
  predicate Consistent(s: Store) {
    && (forall u :: u in s.users ==> s.users[u].roleId in s.roles)
    && (forall b :: b in s.books ==> s.books[b].authorId in s.authors)
    && (forall c :: c in s.collections ==> s.collections[c].userId in s.users)
    && (forall r :: r in s.reviews ==> s.reviews[r].userId in s.users && s.reviews[r].bookId in s.books)
    && (forall l :: l in s.genreLinks ==> l.genreId in s.genres && l.bookId in s.books)
    && (forall l :: l in s.collectionLinks ==> l.collectionId in s.collections && l.bookId in s.books)
  }

  predicate Valid(s: Store) {
    IdentityOk(s) && Consistent(s)
  }

  /** A freshly assigned id is new to its table and exceeds every id already in it. */
  lemma FreshIdsExceedExisting(s: Store)
    requires IdentityOk(s)
    ensures forall k :: k in s.users ==> k < s.next.user
    ensures forall k :: k in s.authors ==> k < s.next.author
    ensures forall k :: k in s.books ==> k < s.next.book
    ensures forall k :: k in s.collections ==> k < s.next.collection
    ensures forall k :: k in s.reviews ==> k < s.next.review
    ensures s.next.user >= 1 && s.next.author >= 1 && s.next.book >= 1
    ensures s.next.collection >= 1 && s.next.review >= 1
  {
  }

  // ---------------------------------------------------------------------
  // Inserts: the row gets the table's next identity value.
  // ---------------------------------------------------------------------

  function InsertUser(s: Store, u: User): Store {
    s.(users := s.users[s.next.user := u], next := s.next.(user := s.next.user + 1))
  }

  function InsertAuthor(s: Store, a: Author): Store {
    s.(authors := s.authors[s.next.author := a], next := s.next.(author := s.next.author + 1))
  }

  function InsertBook(s: Store, b: Book): Store {
    s.(books := s.books[s.next.book := b], next := s.next.(book := s.next.book + 1))
  }

  function InsertCollection(s: Store, c: Collection): Store {
    s.(collections := s.collections[s.next.collection := c],
       next := s.next.(collection := s.next.collection + 1))
  }

  function InsertReview(s: Store, r: Review): Store {
    s.(reviews := s.reviews[s.next.review := r], next := s.next.(review := s.next.review + 1))
  }

  // ---------------------------------------------------------------------
  // Cascading deletes: the `ondelete="CASCADE"` foreign keys.
  // ---------------------------------------------------------------------

  /** Removes the given books with their reviews and both kinds of link rows. */
  function RemoveBooks(s: Store, ids: set<Id>): Store {
    s.(books := map b | b in s.books && b !in ids :: s.books[b],
       reviews := map r | r in s.reviews && s.reviews[r].bookId !in ids :: s.reviews[r],
       genreLinks := Filter(s.genreLinks, (l: GenreLink) => l.bookId !in ids),
       collectionLinks := Filter(s.collectionLinks, (l: CollectionLink) => l.bookId !in ids))
  }

  /** Removes the given collections with their link rows. */
  function RemoveCollections(s: Store, ids: set<Id>): Store {
    s.(collections := map c | c in s.collections && c !in ids :: s.collections[c],
       collectionLinks := Filter(s.collectionLinks, (l: CollectionLink) => l.collectionId !in ids))
  }

  /** Removes the given users with their reviews and their collections (and so those collections' links). */
  function RemoveUsers(s: Store, ids: set<Id>): Store {
    var owned := set c | c in s.collections && s.collections[c].userId in ids;
    var t := RemoveCollections(s, owned);
    t.(users := map u | u in t.users && u !in ids :: t.users[u],
       reviews := map r | r in t.reviews && t.reviews[r].userId !in ids :: t.reviews[r])
  }

  function CascadeDeleteRole(s: Store, id: Id): Store {
    var holders := set u | u in s.users && s.users[u].roleId == id;
    RemoveUsers(s.(roles := s.roles - {id}), holders)
  }

  function CascadeDeleteUser(s: Store, id: Id): Store {
    RemoveUsers(s, {id})
  }

  function CascadeDeleteAuthor(s: Store, id: Id): Store {
    var written := set b | b in s.books && s.books[b].authorId == id;
    RemoveBooks(s.(authors := s.authors - {id}), written)
  }

  function CascadeDeleteBook(s: Store, id: Id): Store {
    RemoveBooks(s, {id})
  }

  function CascadeDeleteGenre(s: Store, id: Id): Store {
    s.(genres := s.genres - {id},
       genreLinks := Filter(s.genreLinks, (l: GenreLink) => l.genreId != id))
  }

  function CascadeDeleteCollection(s: Store, id: Id): Store {
    RemoveCollections(s, {id})
  }

  /** Reviews are referenced by nothing, so deleting one touches only its own row. */
  function CascadeDeleteReview(s: Store, id: Id): Store {
    s.(reviews := s.reviews - {id})
  }

  // ---------------------------------------------------------------------
  // What each cascade guarantees.
  // ---------------------------------------------------------------------

  /** Deleting a book removes every review and link row that references it, and nothing else. */
  lemma DeleteBookCascades(s: Store, b: Id)
    ensures var t := CascadeDeleteBook(s, b);
      && t.books.Keys == s.books.Keys - {b}
      && (forall r :: r in t.reviews ==> t.reviews[r].bookId != b)
      && (forall l :: l in t.genreLinks ==> l.bookId != b)
      && (forall l :: l in t.collectionLinks ==> l.bookId != b)
      && (forall r :: r in s.reviews && s.reviews[r].bookId != b ==> r in t.reviews && t.reviews[r] == s.reviews[r])
      && (forall l :: l in s.genreLinks ==> (l in t.genreLinks <==> l.bookId != b))
      && (forall l :: l in s.collectionLinks ==> (l in t.collectionLinks <==> l.bookId != b))
      && t.authors == s.authors && t.users == s.users && t.genres == s.genres
      && t.collections == s.collections && t.roles == s.roles
  {
  }

  /** Deleting an author removes all of its books and, transitively, their reviews and link rows, and nothing else. */
  lemma DeleteAuthorCascades(s: Store, a: Id)
    ensures var t := CascadeDeleteAuthor(s, a);
      && t.authors == s.authors - {a}
      && (forall b :: b in t.books ==> t.books[b].authorId != a)
      && (forall b :: b in s.books && s.books[b].authorId != a ==> b in t.books && t.books[b] == s.books[b])
      && (forall r :: r in t.reviews ==> r in s.reviews && t.reviews[r] == s.reviews[r])
      && (forall r :: r in s.reviews ==>
            (r in t.reviews <==> !(s.reviews[r].bookId in s.books && s.books[s.reviews[r].bookId].authorId == a)))
      && (forall l :: l in t.genreLinks ==> l in s.genreLinks)
      && (forall l :: l in s.genreLinks ==>
            (l in t.genreLinks <==> !(l.bookId in s.books && s.books[l.bookId].authorId == a)))
      && (forall l :: l in t.collectionLinks ==> l in s.collectionLinks)
      && (forall l :: l in s.collectionLinks ==>
            (l in t.collectionLinks <==> !(l.bookId in s.books && s.books[l.bookId].authorId == a)))
      && t.users == s.users && t.genres == s.genres && t.collections == s.collections && t.roles == s.roles
  {
  }

  /** Deleting a user removes the user's collections (with their links) and the user's reviews, and nothing else. */
  lemma DeleteUserCascades(s: Store, u: Id)
    ensures var t := CascadeDeleteUser(s, u);
      && t.users.Keys == s.users.Keys - {u}
      && (forall v :: v in t.users ==> t.users[v] == s.users[v])
      && (forall c :: c in t.collections ==> t.collections[c].userId != u)
      && (forall c :: c in s.collections && s.collections[c].userId != u ==> c in t.collections && t.collections[c] == s.collections[c])
      && (forall r :: r in t.reviews ==> r in s.reviews && t.reviews[r] == s.reviews[r])
      && (forall r :: r in s.reviews ==> (r in t.reviews <==> s.reviews[r].userId != u))
      && (forall l :: l in t.collectionLinks ==> l in s.collectionLinks)
      && (forall l :: l in s.collectionLinks ==>
            (l in t.collectionLinks <==> !(l.collectionId in s.collections && s.collections[l.collectionId].userId == u)))
      && t.books == s.books && t.genreLinks == s.genreLinks
      && t.authors == s.authors && t.genres == s.genres && t.roles == s.roles
  {
  }

  /** Deleting a genre removes its link rows; deleting a collection removes its link rows. */
  lemma DeleteGenreAndCollectionCascade(s: Store, g: Id, c: Id)
    ensures var t := CascadeDeleteGenre(s, g);
      && g !in t.genres
      && (forall l :: l in s.genreLinks ==> (l in t.genreLinks <==> l.genreId != g))
      && t.books == s.books && t.collectionLinks == s.collectionLinks
    ensures var t := CascadeDeleteCollection(s, c);
      && c !in t.collections
      && (forall l :: l in s.collectionLinks ==> (l in t.collectionLinks <==> l.collectionId != c))
      && t.books == s.books && t.genreLinks == s.genreLinks
  {
  }

  /** Deleting a role removes every user holding it, with those users' dependants. */
  lemma DeleteRoleCascades(s: Store, id: Id)
    ensures var t := CascadeDeleteRole(s, id);
      && id !in t.roles
      && (forall u :: u in t.users ==> t.users[u].roleId != id)
      && (forall u :: u in s.users && s.users[u].roleId != id ==> u in t.users)
  {
  }

  /** No cascade leaves a dangling reference behind, and none disturbs the identity sequences. */
  lemma DeleteRolePreservesValidity(s: Store, id: Id)
    requires Valid(s)
    ensures Valid(CascadeDeleteRole(s, id))
  {
    RemoveUsersValid(s.(roles := s.roles - {id}), set u | u in s.users && s.users[u].roleId == id);
  }

  lemma DeleteUserPreservesValidity(s: Store, id: Id)
    requires Valid(s)
    ensures Valid(CascadeDeleteUser(s, id))
  {
    RemoveUsersValid(s, {id});
  }

  lemma DeleteAuthorPreservesValidity(s: Store, id: Id)
    requires Valid(s)
    ensures Valid(CascadeDeleteAuthor(s, id))
  {
    RemoveBooksValid(s.(authors := s.authors - {id}), set b | b in s.books && s.books[b].authorId == id);
  }

  lemma DeleteBookPreservesValidity(s: Store, id: Id)
    requires Valid(s)
    ensures Valid(CascadeDeleteBook(s, id))
  {
    RemoveBooksValid(s, {id});
  }

  lemma DeleteGenreCollectionReviewPreserveValidity(s: Store, id: Id)
    requires Valid(s)
    ensures Valid(CascadeDeleteGenre(s, id))
    ensures Valid(CascadeDeleteCollection(s, id))
    ensures Valid(CascadeDeleteReview(s, id))
  {
    RemoveCollectionsValid(s, {id});
  }

  lemma RemoveBooksValid(s: Store, ids: set<Id>)
    requires IdentityOk(s)
    requires forall u :: u in s.users ==> s.users[u].roleId in s.roles
    requires forall b :: b in s.books && b !in ids ==> s.books[b].authorId in s.authors
    requires forall c :: c in s.collections ==> s.collections[c].userId in s.users
    requires forall r :: r in s.reviews ==> s.reviews[r].userId in s.users && s.reviews[r].bookId in s.books
    requires forall l :: l in s.genreLinks ==> l.genreId in s.genres && l.bookId in s.books
    requires forall l :: l in s.collectionLinks ==> l.collectionId in s.collections && l.bookId in s.books
    ensures Valid(RemoveBooks(s, ids))
  {
  }

  lemma RemoveCollectionsValid(s: Store, ids: set<Id>)
    requires Valid(s)
    ensures Valid(RemoveCollections(s, ids))
  {
  }

  lemma RemoveUsersValid(s: Store, ids: set<Id>)
    requires IdentityOk(s)
    requires forall u :: u in s.users && u !in ids ==> s.users[u].roleId in s.roles
    requires forall b :: b in s.books ==> s.books[b].authorId in s.authors
    requires forall c :: c in s.collections ==> s.collections[c].userId in s.users
    requires forall r :: r in s.reviews ==> s.reviews[r].userId in s.users && s.reviews[r].bookId in s.books
    requires forall l :: l in s.genreLinks ==> l.genreId in s.genres && l.bookId in s.books
    requires forall l :: l in s.collectionLinks ==> l.collectionId in s.collections && l.bookId in s.books
    ensures Valid(RemoveUsers(s, ids))
  {
  }
}

=== FILE: choice_lists.dfy ===
/**
 * The selection components react-ui/src/components/MultipleChoiceList.js
 * and SingleChoiceList.js: the click handlers of their `Element`s and the
 * collapsed/expanded listing both share.
 */
module ChoiceLists {
  import opened Wrappers
  import opened Seqs
  import Js

  // ---------------------------------------------------------------------
  // Listing
  // ---------------------------------------------------------------------

  /** Collapsed: the first `hiddenLimit` elements; expanded: all of them. */
  function Shown<T>(elements: seq<T>, hiddenLimit: nat, expanded: bool): (v: seq<T>)
    ensures expanded ==> v == elements
    ensures !expanded ==> v == elements[..if hiddenLimit < |elements| then hiddenLimit else |elements|]
  {
    if expanded then elements else Js.Slice(elements, 0, hiddenLimit)
  }

  /** The show-all/hide button exists iff some element would be hidden when collapsed. */
  predicate HasToggle(count: nat, hiddenLimit: nat) {
    hiddenLimit < count
  }

  /** Without the toggle nothing is hidden; with it, collapsing hides exactly the elements past the limit. */
  lemma ToggleIffHidden<T>(elements: seq<T>, hiddenLimit: nat)
    ensures !HasToggle(|elements|, hiddenLimit) ==> Shown(elements, hiddenLimit, false) == elements
    ensures HasToggle(|elements|, hiddenLimit) ==>
      |Shown(elements, hiddenLimit, false)| == hiddenLimit < |elements|
  {
  }

  // ---------------------------------------------------------------------
  // MultipleChoiceList
  // ---------------------------------------------------------------------

  /** An element's local flag together with the shared list of selected ids. */
  datatype MultiState = MultiState(flag: bool, selected: seq<int>)

  function NotEqual(id: int): int -> bool {
    (x: int) => x != id
  }

  /** A click: a flagged element removes every copy of its id, an unflagged one appends it; the flag flips. */
  function MultiClick(st: MultiState, id: int): (t: MultiState)
    ensures t.flag == !st.flag
    ensures !st.flag ==> t.selected == st.selected + [id]
    ensures st.flag ==> id !in t.selected && forall x :: x != id ==> (x in t.selected <==> x in st.selected)
  {
    if st.flag then MultiState(false, Filter(st.selected, NotEqual(id)))
    else MultiState(true, st.selected + [id])
  }

  /** The removal keeps every other id, in order. */
  lemma DeselectKeepsOthers(selected: seq<int>, id: int)
    ensures MultiClick(MultiState(true, selected), id).selected == Filter(selected, NotEqual(id))
    ensures id !in selected ==> MultiClick(MultiState(true, selected), id).selected == selected
  {
    if id !in selected {
      FilterAll(selected, NotEqual(id));
    }
  }

  /** Selecting then deselecting, from a list without the id, restores the list and the flag. */
  lemma SelectThenDeselect(selected: seq<int>, id: int)
    requires id !in selected
    ensures MultiClick(MultiClick(MultiState(false, selected), id), id) == MultiState(false, selected)
  {
    FilterAppend(selected, [id], NotEqual(id));
    FilterAll(selected, NotEqual(id));
    FilterNone([id], NotEqual(id));
  }

  // ---------------------------------------------------------------------
  // SingleChoiceList
  // ---------------------------------------------------------------------

  /** The marker shows on an element when `selected` is truthy and equals its id. */
  predicate Marked(selected: Option<int>, id: int) {
    Js.Truthy(selected) && selected == Some(id)
  }

  /** A click deselects the marked element and selects any other. */
  function SingleClick(selected: Option<int>, id: int): (r: Option<int>)
    ensures Marked(selected, id) ==> r == None
    ensures !Marked(selected, id) ==> r == Some(id)
  {
    if Js.Truthy(selected) && selected == Some(id) then None else Some(id)
  }

  /** At most one id carries the marker: the selected one. */
  lemma MarkerUnique(selected: Option<int>, a: int, b: int)
    requires Marked(selected, a) && Marked(selected, b)
    ensures a == b && selected == Some(a)
  {
  }

  /**
   * Two clicks on the same element from no selection return to no selection,
   * except for id 0: 0 is falsy, so that element can never be deselected.
   */
  lemma TwoClicksFromNone(id: int)
    ensures id != 0 ==> SingleClick(SingleClick(None, id), id) == None
    ensures SingleClick(SingleClick(None, 0), 0) == Some(0)
  {
  }
}

=== FILE: codecs.dfy ===
/**
 * The `as_dict` / `parse_json` pairs of the response models under
 * routes/models/: each `as_dict` is an encoder to a JSON value, each
 * `parse_json` a decoder that applies the same subscripts, `int()` calls and
 * field coercions to the value `json.loads` returns.
 */
module Codecs {
  import opened Wrappers
  import opened Numerals
  import opened Catalog
  import opened Json

  /** The `{id, name}` records nested in the responses: users, authors and genres. */
  datatype Ref = Ref(id: int, name: string)

  /** A review as the book response nests it. */
  datatype BookReview = BookReview(id: int, user: Ref, rating: int, text: string, created: Instant)

  /** `GetBookResponseModel`. */
  datatype BookResponse = BookResponse(
    id: int, title: string, author: Ref, genres: seq<Ref>, rating: real,
    reviewsCount: int, reviews: seq<BookReview>, year: int, annotation: string)

  /** The `BookModel` nested in the author and collection responses. */
  datatype BookCard = BookCard(id: int, title: string, genres: seq<Ref>, rating: real, reviewsCount: int)

  /** `GetAuthorResponseModel`, also the element of `GetAuthorsResponseModel` lists. */
  datatype AuthorResponse = AuthorResponse(id: int, name: string, about: string, books: seq<BookCard>)

  /** `GetCollectionResponseModel`; the list and update responses have the same shape. */
  datatype CollectionResponse = CollectionResponse(id: int, title: string, books: seq<BookCard>)

  /** `UpdateCollectionRequestModel`: exactly a title and a list of book ids. */
  datatype CollectionRequest = CollectionRequest(title: string, bookIds: seq<int>)

  /** `GetReviewResponseModel`, also the element of `GetReviewsResponseModel` lists. */
  datatype ReviewResponse = ReviewResponse(id: int, user: Ref, bookId: int, rating: int, text: string, created: Instant)

  // ---------------------------------------------------------------------
  // Field readers: `x[key]` followed by the conversion the source applies.
  // ---------------------------------------------------------------------

  /** `int(x[key])`. */
  function CallInt(j: Json, key: string): Option<int> {
    var v :- Get(j, key);
    PyInt(v)
  }

  /** `x[key]` handed to a pydantic `int` field. */
  function FieldIntAt(j: Json, key: string): Option<int> {
    var v :- Get(j, key);
    FieldInt(v)
  }

  /** `float(x[key])`, or `x[key]` handed to a pydantic `float` field. */
  function RealAt(j: Json, key: string): Option<real> {
    var v :- Get(j, key);
    PyFloat(v)
  }

  /** `x[key]` handed to a pydantic `str` field. */
  function StrAt(j: Json, key: string): Option<string> {
    var v :- Get(j, key);
    FieldStr(v)
  }

  /** `created` is written with `str()` and read back by the `datetime` field. */
  function InstantText(t: Instant): string {
    NatToString(t.ticks)
  }

  function InstantAt(j: Json, key: string): Option<Instant> {
    var s :- StrAt(j, key);
    var n :- ParseNat(s);
    Some(Instant(n))
  }

  /** `[f(e) for e in x[key]]`. */
  function ArrayAt<T>(j: Json, key: string, f: Json -> Option<T>): Option<seq<T>> {
    var v :- Get(j, key);
    DecodeArray(v, f)
  }

  /** Reading back the rendering of an instant gives the instant. */
  lemma InstantRoundTrip(t: Instant)
    ensures ParseNat(InstantText(t)) == Some(t.ticks)
  {
    NatToStringValue(t.ticks);
  }

  // ---------------------------------------------------------------------
  // Nested records.
  // ---------------------------------------------------------------------

  function EncodeRef(r: Ref): Json {
    JObj([Member("id", JInt(r.id)), Member("name", JStr(r.name))])
  }

  /**
   * A nested record whose id goes through `int()`: the book response's
   * author, genres and review users, and `GetGenreResponseModel.parse_json`.
   */
  function DecodeRef(j: Json): (r: Option<Ref>)
    ensures r.Some? ==> CallInt(j, "id") == Some(r.value.id) && StrAt(j, "name") == Some(r.value.name)
  {
    var id :- CallInt(j, "id");
    var name :- StrAt(j, "name");
    Some(Ref(id, name))
  }

  /**
   * A nested record whose id is handed straight to the pydantic field: the
   * author document's genres (routes/models/authors/get_author_model.py:58-61)
   * and the review document's user (routes/models/reviews/get_review_model.py:38-41).
   */
  function DecodeRefField(j: Json): (r: Option<Ref>)
    ensures r.Some? ==> FieldIntAt(j, "id") == Some(r.value.id) && StrAt(j, "name") == Some(r.value.name)
  {
    var id :- FieldIntAt(j, "id");
    var name :- StrAt(j, "name");
    Some(Ref(id, name))
  }

  /** Both readings of a nested record invert its encoding; the genre codec is exactly this pair. */
  lemma RefRoundTrip(r: Ref)
    ensures DecodeRef(EncodeRef(r)) == Some(r)
    ensures DecodeRefField(EncodeRef(r)) == Some(r)
    ensures Keys(EncodeRef(r).members) == ["id", "name"]
  {
    var ms := EncodeRef(r).members;
    GetField(ms, 0);
    GetField(ms, 1);
  }

  /** `int()` accepts a numeric string, so a genre whose id arrives as text decodes to that integer. */
  lemma GenreNumericStringId(id: int, name: string)
    ensures DecodeRef(JObj([Member("id", JStr(IntToString(id))), Member("name", JStr(name))])) == Some(Ref(id, name))
  {
    var ms := [Member("id", JStr(IntToString(id))), Member("name", JStr(name))];
    GetField(ms, 0);
    GetField(ms, 1);
    IntToStringRoundTrip(id);
  }

  /** Element-wise round trip of the nested record lists. */
  lemma RefsRoundTrip(rs: seq<Ref>)
    ensures DecodeArray(EncodeArray(rs, EncodeRef), DecodeRef) == Some(rs)
    ensures DecodeArray(EncodeArray(rs, EncodeRef), DecodeRefField) == Some(rs)
  {
    forall k | 0 <= k < |rs|
      ensures DecodeRef(EncodeRef(rs[k])) == Some(rs[k]) && DecodeRefField(EncodeRef(rs[k])) == Some(rs[k])
    {
      RefRoundTrip(rs[k]);
    }
    ArrayRoundTrip(rs, EncodeRef, DecodeRef);
    ArrayRoundTrip(rs, EncodeRef, DecodeRefField);
  }

  // ---------------------------------------------------------------------
  // routes/models/books/get_book_model.py
  // ---------------------------------------------------------------------

  function EncodeBookReview(r: BookReview): Json {
    JObj([
      Member("id", JInt(r.id)),
      Member("user", EncodeRef(r.user)),
      Member("rating", JInt(r.rating)),
      Member("text", JStr(r.text)),
      Member("created", JStr(InstantText(r.created)))])
  }

  function DecodeBookReview(j: Json): Option<BookReview> {
    var id :- CallInt(j, "id");
    var u :- Get(j, "user");
    var user :- DecodeRef(u);
    var rating :- CallInt(j, "rating");
    var text :- StrAt(j, "text");
    var created :- InstantAt(j, "created");
    Some(BookReview(id, user, rating, text, created))
  }

  lemma BookReviewRoundTrip(r: BookReview)
    ensures DecodeBookReview(EncodeBookReview(r)) == Some(r)
  {
    var j := EncodeBookReview(r);
    BookReviewFields(r);
    RefRoundTrip(r.user);
    InstantRoundTrip(r.created);
  }

  /** Subscripting an encoded review by each of its keys gives that member's value. */
  lemma BookReviewFields(r: BookReview)
    ensures var j := EncodeBookReview(r);
      && Get(j, "id") == Some(JInt(r.id)) && Get(j, "user") == Some(EncodeRef(r.user))
      && Get(j, "rating") == Some(JInt(r.rating)) && Get(j, "text") == Some(JStr(r.text))
      && Get(j, "created") == Some(JStr(InstantText(r.created)))
  {
    var ms := EncodeBookReview(r).members;
    GetField(ms, 0);
    GetField(ms, 1);
    GetField(ms, 2);
    GetField(ms, 3);
    GetField(ms, 4);
  }

  function EncodeBook(b: BookResponse): Json {
    BookObject(JInt(b.id), JStr(b.title), EncodeRef(b.author), EncodeArray(b.genres, EncodeRef), JReal(b.rating),
      JInt(b.reviewsCount), EncodeArray(b.reviews, EncodeBookReview), JInt(b.year), JStr(b.annotation))
  }

  function DecodeBook(j: Json): (r: Option<BookResponse>)
    ensures r.Some? ==> RealAt(j, "rating") == Some(r.value.rating) && CallInt(j, "reviews_count") == Some(r.value.reviewsCount)
  {
    var id :- CallInt(j, "id");
    var title :- StrAt(j, "title");
    var a :- Get(j, "author");
    var author :- DecodeRef(a);
    var genres :- ArrayAt(j, "genres", DecodeRef);
    var rating :- RealAt(j, "rating");
    var count :- CallInt(j, "reviews_count");
    var reviews :- ArrayAt(j, "reviews", DecodeBookReview);
    var year :- CallInt(j, "year");
    var annotation :- StrAt(j, "annotation");
    Some(BookResponse(id, title, author, genres, rating, count, reviews, year, annotation))
  }

  /**
   * The book round trip: scalars, the author, the genres and the reviews in
   * order, and rating and review count exactly as stored, whatever the
   * reviews say.
   */
  lemma BookRoundTrip(b: BookResponse)
    ensures DecodeBook(EncodeBook(b)) == Some(b)
  {
    var j := EncodeBook(b);
    var id, title, author, genres, rating, count, reviews, year, annotation :=
      JInt(b.id), JStr(b.title), EncodeRef(b.author), EncodeArray(b.genres, EncodeRef), JReal(b.rating),
      JInt(b.reviewsCount), EncodeArray(b.reviews, EncodeBookReview), JInt(b.year), JStr(b.annotation);
    BookFieldsHead(id, title, author, genres, rating, count, reviews, year, annotation);
    BookFieldsMiddle(id, title, author, genres, rating, count, reviews, year, annotation);
    BookFieldsTail(id, title, author, genres, rating, count, reviews, year, annotation);
    assert DecodeRef(EncodeRef(b.author)) == Some(b.author) by { RefRoundTrip(b.author); }
    assert ArrayAt(j, "genres", DecodeRef) == Some(b.genres) by { RefsRoundTrip(b.genres); }
    assert ArrayAt(j, "reviews", DecodeBookReview) == Some(b.reviews) by {
      forall k | 0 <= k < |b.reviews|
        ensures DecodeBookReview(EncodeBookReview(b.reviews[k])) == Some(b.reviews[k])
      {
        BookReviewRoundTrip(b.reviews[k]);
      }
      ArrayRoundTrip(b.reviews, EncodeBookReview, DecodeBookReview);
    }
    assert CallInt(j, "id") == Some(b.id);
    assert StrAt(j, "title") == Some(b.title);
    assert RealAt(j, "rating") == Some(b.rating);
    assert CallInt(j, "reviews_count") == Some(b.reviewsCount);
    assert CallInt(j, "year") == Some(b.year);
    assert StrAt(j, "annotation") == Some(b.annotation);
  }

  /** The book object as `as_dict` lays it out. */
  function BookObject(id: Json, title: Json, author: Json, genres: Json, rating: Json,
                      count: Json, reviews: Json, year: Json, annotation: Json): Json {
    JObj([
      Member("id", id), Member("title", title), Member("author", author), Member("genres", genres),
      Member("rating", rating), Member("reviews_count", count), Member("reviews", reviews),
      Member("year", year), Member("annotation", annotation)])
  }

  /** Subscripting the book object by id, title and author gives those members' values. */
  lemma BookFieldsHead(id: Json, title: Json, author: Json, genres: Json, rating: Json,
                   count: Json, reviews: Json, year: Json, annotation: Json)
    ensures var j := BookObject(id, title, author, genres, rating, count, reviews, year, annotation);
      Get(j, "id") == Some(id) && Get(j, "title") == Some(title) && Get(j, "author") == Some(author)
  {
    GetField(BookObject(id, title, author, genres, rating, count, reviews, year, annotation).members, 0);
    GetField(BookObject(id, title, author, genres, rating, count, reviews, year, annotation).members, 1);
    GetField(BookObject(id, title, author, genres, rating, count, reviews, year, annotation).members, 2);
  }

  /** Subscripting the book object by genres, rating and reviews_count gives those members' values. */
  lemma BookFieldsMiddle(id: Json, title: Json, author: Json, genres: Json, rating: Json,
                   count: Json, reviews: Json, year: Json, annotation: Json)
    ensures var j := BookObject(id, title, author, genres, rating, count, reviews, year, annotation);
      Get(j, "genres") == Some(genres) && Get(j, "rating") == Some(rating) && Get(j, "reviews_count") == Some(count)
  {
    GetField(BookObject(id, title, author, genres, rating, count, reviews, year, annotation).members, 3);
    GetField(BookObject(id, title, author, genres, rating, count, reviews, year, annotation).members, 4);
    GetField(BookObject(id, title, author, genres, rating, count, reviews, year, annotation).members, 5);
  }

  /** Subscripting the book object by reviews, year and annotation gives those members' values. */
  lemma BookFieldsTail(id: Json, title: Json, author: Json, genres: Json, rating: Json,
                   count: Json, reviews: Json, year: Json, annotation: Json)
    ensures var j := BookObject(id, title, author, genres, rating, count, reviews, year, annotation);
      Get(j, "reviews") == Some(reviews) && Get(j, "year") == Some(year) && Get(j, "annotation") == Some(annotation)
  {
    GetField(BookObject(id, title, author, genres, rating, count, reviews, year, annotation).members, 6);
    GetField(BookObject(id, title, author, genres, rating, count, reviews, year, annotation).members, 7);
    GetField(BookObject(id, title, author, genres, rating, count, reviews, year, annotation).members, 8);
  }


  // ---------------------------------------------------------------------
  // The nested `BookModel` of the author and collection responses.
  // ---------------------------------------------------------------------

  function EncodeBookCard(c: BookCard): Json {
    JObj([
      Member("id", JInt(c.id)),
      Member("title", JStr(c.title)),
      Member("genres", EncodeArray(c.genres, EncodeRef)),
      Member("rating", JReal(c.rating)),
      Member("reviews_count", JInt(c.reviewsCount))])
  }

  function DecodeBookCard(j: Json): Option<BookCard> {
    var id :- FieldIntAt(j, "id");
    var title :- StrAt(j, "title");
    var genres :- ArrayAt(j, "genres", DecodeRefField);
    var rating :- RealAt(j, "rating");
    var count :- FieldIntAt(j, "reviews_count");
    Some(BookCard(id, title, genres, rating, count))
  }

  lemma BookCardRoundTrip(c: BookCard)
    ensures DecodeBookCard(EncodeBookCard(c)) == Some(c)
  {
    BookCardFields(c);
    RefsRoundTrip(c.genres);
  }

  /** Subscripting an encoded card by each of its keys gives that member's value. */
  lemma BookCardFields(c: BookCard)
    ensures var j := EncodeBookCard(c);
      && Get(j, "id") == Some(JInt(c.id)) && Get(j, "title") == Some(JStr(c.title))
      && Get(j, "genres") == Some(EncodeArray(c.genres, EncodeRef)) && Get(j, "rating") == Some(JReal(c.rating))
      && Get(j, "reviews_count") == Some(JInt(c.reviewsCount))
  {
    var ms := EncodeBookCard(c).members;
    GetField(ms, 0);
    GetField(ms, 1);
    GetField(ms, 2);
    GetField(ms, 3);
    GetField(ms, 4);
  }

  lemma BookCardsRoundTrip(cs: seq<BookCard>)
    ensures DecodeArray(EncodeArray(cs, EncodeBookCard), DecodeBookCard) == Some(cs)
  {
    forall k | 0 <= k < |cs|
      ensures DecodeBookCard(EncodeBookCard(cs[k])) == Some(cs[k])
    {
      BookCardRoundTrip(cs[k]);
    }
    ArrayRoundTrip(cs, EncodeBookCard, DecodeBookCard);
  }

  // ---------------------------------------------------------------------
  // routes/models/authors/get_author_model.py and get_authors_model.py
  // ---------------------------------------------------------------------

  function EncodeAuthor(a: AuthorResponse): (j: Json)
    ensures j.JObj? && Keys(j.members) == ["id", "name", "about", "books"]
  {
    JObj([
      Member("id", JInt(a.id)),
      Member("name", JStr(a.name)),
      Member("about", JStr(a.about)),
      Member("books", EncodeArray(a.books, EncodeBookCard))])
  }

  function DecodeAuthor(j: Json): Option<AuthorResponse> {
    var id :- CallInt(j, "id");
    var name :- StrAt(j, "name");
    var about :- StrAt(j, "about");
    var books :- ArrayAt(j, "books", DecodeBookCard);
    Some(AuthorResponse(id, name, about, books))
  }

  lemma AuthorRoundTrip(a: AuthorResponse)
    ensures DecodeAuthor(EncodeAuthor(a)) == Some(a)
  {
    AuthorFields(a);
    BookCardsRoundTrip(a.books);
  }

  /** Subscripting an encoded author by each of its keys gives that member's value. */
  lemma AuthorFields(a: AuthorResponse)
    ensures var j := EncodeAuthor(a);
      && Get(j, "id") == Some(JInt(a.id)) && Get(j, "name") == Some(JStr(a.name))
      && Get(j, "about") == Some(JStr(a.about)) && Get(j, "books") == Some(EncodeArray(a.books, EncodeBookCard))
  {
    var ms := EncodeAuthor(a).members;
    GetField(ms, 0);
    GetField(ms, 1);
    GetField(ms, 2);
    GetField(ms, 3);
  }

  /** `GetAuthorsResponseModel.parse_json`: one model per array element. */
  function DecodeAuthors(j: Json): (r: Option<seq<AuthorResponse>>)
    ensures j == JArr([]) ==> r == Some([])
    ensures r.Some? && j.JArr? ==>
      |r.value| == |j.items| && forall k :: 0 <= k < |j.items| ==> DecodeAuthor(j.items[k]) == Some(r.value[k])
  {
    DecodeArray(j, DecodeAuthor)
  }

  /** Encoding each author and decoding the array yields the original list. */
  lemma AuthorsRoundTrip(as_: seq<AuthorResponse>)
    ensures DecodeAuthors(EncodeArray(as_, EncodeAuthor)) == Some(as_)
  {
    forall k | 0 <= k < |as_|
      ensures DecodeAuthor(EncodeAuthor(as_[k])) == Some(as_[k])
    {
      AuthorRoundTrip(as_[k]);
    }
    ArrayRoundTrip(as_, EncodeAuthor, DecodeAuthor);
  }

  // ---------------------------------------------------------------------
  // routes/models/collections/: get_collection, get_collections, update_collection
  // ---------------------------------------------------------------------

  function EncodeCollection(c: CollectionResponse): (j: Json)
    ensures j.JObj? && Keys(j.members) == ["id", "title", "books"]
  {
    JObj([
      Member("id", JInt(c.id)),
      Member("title", JStr(c.title)),
      Member("books", EncodeArray(c.books, EncodeBookCard))])
  }

  function DecodeCollection(j: Json): Option<CollectionResponse> {
    var id :- CallInt(j, "id");
    var title :- StrAt(j, "title");
    var books :- ArrayAt(j, "books", DecodeBookCard);
    Some(CollectionResponse(id, title, books))
  }

  /** The collection round trip: id, title and the books in order with their genres. */
  lemma CollectionRoundTrip(c: CollectionResponse)
    ensures DecodeCollection(EncodeCollection(c)) == Some(c)
  {
    var ms := EncodeCollection(c).members;
    GetField(ms, 0);
    GetField(ms, 1);
    GetField(ms, 2);
    BookCardsRoundTrip(c.books);
  }

  /** `GetCollectionsResponseModel.parse_json`: one model per array element. */
  function DecodeCollections(j: Json): (r: Option<seq<CollectionResponse>>)
    ensures j == JArr([]) ==> r == Some([])
    ensures r.Some? && j.JArr? ==>
      |r.value| == |j.items| && forall k :: 0 <= k < |j.items| ==> DecodeCollection(j.items[k]) == Some(r.value[k])
  {
    DecodeArray(j, DecodeCollection)
  }

  lemma CollectionsRoundTrip(cs: seq<CollectionResponse>)
    ensures DecodeCollections(EncodeArray(cs, EncodeCollection)) == Some(cs)
  {
    forall k | 0 <= k < |cs|
      ensures DecodeCollection(EncodeCollection(cs[k])) == Some(cs[k])
    {
      CollectionRoundTrip(cs[k]);
    }
    ArrayRoundTrip(cs, EncodeCollection, DecodeCollection);
  }

  /** The request body as a client sends it. */
  function EncodeCollectionRequest(r: CollectionRequest): (j: Json)
    ensures j.JObj? && Keys(j.members) == ["title", "book_ids"]
  {
    JObj([Member("title", JStr(r.title)), Member("book_ids", EncodeArray(r.bookIds, (i: int) => JInt(i)))])
  }

  /** Pydantic validation of the request body: a string title and an array of integers. */
  function DecodeCollectionRequest(j: Json): Option<CollectionRequest> {
    var title :- StrAt(j, "title");
    var ids :- Get(j, "book_ids");
    if !ids.JArr? then None
    else
      var bookIds :- DecodeEach(ids.items, FieldInt);
      Some(CollectionRequest(title, bookIds))
  }

  lemma CollectionRequestRoundTrip(r: CollectionRequest)
    ensures DecodeCollectionRequest(EncodeCollectionRequest(r)) == Some(r)
  {
    var ms := EncodeCollectionRequest(r).members;
    GetField(ms, 0);
    GetField(ms, 1);
    var items := ms[1].value.items;
    var d := DecodeEach(items, FieldInt);
    assert d.Some?;
    assert d.value == r.bookIds;
  }

  // ---------------------------------------------------------------------
  // routes/models/reviews/get_review_model.py and get_reviews_model.py
  // ---------------------------------------------------------------------

  function EncodeReview(r: ReviewResponse): (j: Json)
    ensures j.JObj? && Keys(j.members) == ["id", "user", "book_id", "rating", "text", "created"]
  {
    JObj([
      Member("id", JInt(r.id)),
      Member("user", EncodeRef(r.user)),
      Member("book_id", JInt(r.bookId)),
      Member("rating", JInt(r.rating)),
      Member("text", JStr(r.text)),
      Member("created", JStr(InstantText(r.created)))])
  }

  function DecodeReview(j: Json): Option<ReviewResponse> {
    var id :- CallInt(j, "id");
    var u :- Get(j, "user");
    var user :- DecodeRefField(u);
    var bookId :- CallInt(j, "book_id");
    var rating :- CallInt(j, "rating");
    var text :- StrAt(j, "text");
    var created :- InstantAt(j, "created");
    Some(ReviewResponse(id, user, bookId, rating, text, created))
  }

  /** The review round trip: every field, `created` through its text rendering. */
  lemma ReviewRoundTrip(r: ReviewResponse)
    ensures DecodeReview(EncodeReview(r)) == Some(r)
  {
    var j := EncodeReview(r);
    ReviewFields(JInt(r.id), EncodeRef(r.user), JInt(r.bookId), JInt(r.rating), JStr(r.text), JStr(InstantText(r.created)));
    assert DecodeRefField(EncodeRef(r.user)) == Some(r.user) by { RefRoundTrip(r.user); }
    assert InstantAt(j, "created") == Some(r.created) by { InstantRoundTrip(r.created); }
  }

  /** Subscripting the review object by each of its six keys gives that member's value. */
  lemma ReviewFields(id: Json, user: Json, bookId: Json, rating: Json, text: Json, created: Json)
    ensures var j := JObj([
      Member("id", id), Member("user", user), Member("book_id", bookId),
      Member("rating", rating), Member("text", text), Member("created", created)]);
      && Get(j, "id") == Some(id) && Get(j, "user") == Some(user) && Get(j, "book_id") == Some(bookId)
      && Get(j, "rating") == Some(rating) && Get(j, "text") == Some(text) && Get(j, "created") == Some(created)
  {
    var ms := [
      Member("id", id), Member("user", user), Member("book_id", bookId),
      Member("rating", rating), Member("text", text), Member("created", created)];
    GetField(ms, 0);
    GetField(ms, 1);
    GetField(ms, 2);
    GetField(ms, 3);
    GetField(ms, 4);
    GetField(ms, 5);
  }

  /** `GetReviewsResponseModel.parse_json`: one model per array element. */
  function DecodeReviews(j: Json): (r: Option<seq<ReviewResponse>>)
    ensures j == JArr([]) ==> r == Some([])
    ensures r.Some? && j.JArr? ==>
      |r.value| == |j.items| && forall k :: 0 <= k < |j.items| ==> DecodeReview(j.items[k]) == Some(r.value[k])
  {
    DecodeArray(j, DecodeReview)
  }

  lemma ReviewsRoundTrip(rs: seq<ReviewResponse>)
    ensures DecodeReviews(EncodeArray(rs, EncodeReview)) == Some(rs)
  {
    forall k | 0 <= k < |rs|
      ensures DecodeReview(EncodeReview(rs[k])) == Some(rs[k])
    {
      ReviewRoundTrip(rs[k]);
    }
    ArrayRoundTrip(rs, EncodeReview, DecodeReview);
  }
}

=== FILE: codes.dfy ===
/**
 * The one-time codes of e-mail verification and password reset: issuing a
 * fresh code bound to a token (auth/manager.py) and exchanging it back for
 * the token exactly once (routes/auth_router.py). Randomness is replaced by
 * the sequence of candidate codes the generator would draw; key expiry is
 * left to the cache.
 */
module Codes {
  import opened Api

  /** `string.ascii_letters + string.digits`. */
  const CodeAlphabet: string := "abcdefghijklmnopqrstuvwxyzABCDEFGHIJKLMNOPQRSTUVWXYZ0123456789"

  /** The characters `secrets.token_hex` writes. */
  const HexAlphabet: string := "0123456789abcdef"

  /** A verification code: five draws from the 62-character alphabet. */
  predicate IsVerifyCode(c: string) {
    |c| == 5 && forall i :: 0 <= i < |c| ==> c[i] in CodeAlphabet
  }

  /** A reset code: `token_hex(6)`, six random bytes as twelve lower-case hex digits. */
  predicate IsResetCode(c: string) {
    |c| == 12 && forall i :: 0 <= i < |c| ==> c[i] in HexAlphabet
  }

  /**
   * The `while True` loop of both hooks: draw candidates until one is not a
   * cache key, then bind it to the token. Existing entries are never
   * overwritten; termination needs a fresh candidate among the draws.
   */
  method IssueCode(cache: Cache, token: string, candidates: seq<string>) returns (code: string, next: Cache)
    requires exists i :: 0 <= i < |candidates| && candidates[i] !in cache
    ensures code !in cache
    ensures exists i :: 0 <= i < |candidates| && candidates[i] == code && forall j :: 0 <= j < i ==> candidates[j] in cache
    ensures next == cache[code := token]
    ensures forall k :: k in cache ==> k in next && next[k] == cache[k]
  {
    var i := 0;
    while candidates[i] in cache
      invariant 0 <= i < |candidates|
      invariant forall j :: 0 <= j < i ==> candidates[j] in cache
      invariant exists m :: i <= m < |candidates| && candidates[m] !in cache
      decreases |candidates| - i
    {
      i := i + 1;
    }
    code := candidates[i];
    next := cache[code := token];
  }

  /** `on_after_request_verify`: the issued code is a verification code. */
  method IssueVerifyCode(cache: Cache, token: string, candidates: seq<string>) returns (code: string, next: Cache)
    requires forall i :: 0 <= i < |candidates| ==> IsVerifyCode(candidates[i])
    requires exists i :: 0 <= i < |candidates| && candidates[i] !in cache
    ensures IsVerifyCode(code) && code !in cache
    ensures next == cache[code := token]
  {
    code, next := IssueCode(cache, token, candidates);
  }

  /** `on_after_forgot_password`: the issued code is a reset code. */
  method IssueResetCode(cache: Cache, token: string, candidates: seq<string>) returns (code: string, next: Cache)
    requires forall i :: 0 <= i < |candidates| ==> IsResetCode(candidates[i])
    requires exists i :: 0 <= i < |candidates| && candidates[i] !in cache
    ensures IsResetCode(code) && code !in cache
    ensures next == cache[code := token]
  {
    code, next := IssueCode(cache, token, candidates);
  }

  datatype Exchange = Exchange(cache: Cache, response: Response<string>)

  /** `exchange_code`: an unknown code is 408; a known one yields its token and is deleted. */
  function ExchangeCode(cache: Cache, code: string): (r: Exchange)
    ensures code !in cache <==> r.response.Err?
    ensures code !in cache ==> r == Exchange(cache, Err(CodeExpired))
    ensures code in cache ==> r.response == Ok(cache[code]) && code !in r.cache
    ensures forall k :: k != code ==> (k in r.cache <==> k in cache) && (k in cache ==> r.cache[k] == cache[k])
  {
    if code !in cache then Exchange(cache, Err(CodeExpired))
    else Exchange(cache - {code}, Ok(cache[code]))
  }

  /** A code works once: exchanging it again answers 408 and changes nothing more. */
  lemma ExchangeIsSingleUse(cache: Cache, code: string)
    ensures var once := ExchangeCode(cache, code);
      ExchangeCode(once.cache, code) == Exchange(once.cache, Err(CodeExpired))
  {
  }

  /**
   * Issuing a code for a token and then exchanging it returns that token and
   * leaves the cache as it was before the code was issued.
   */
  lemma IssueThenExchange(cache: Cache, token: string, code: string)
    requires code !in cache
    ensures ExchangeCode(cache[code := token], code) == Exchange(cache, Ok(token))
  {
    assert cache[code := token] - {code} == cache;
  }
}

=== FILE: collections.dfy ===
/** The handlers of routes/collections_router.py. */
module Collections {
  import opened Wrappers
  import opened Seqs
  import opened Catalog
  import opened Api

  /** The `CollectionModel` payload of create and update. */
  datatype CollectionRequest = CollectionRequest(title: string, bookIds: seq<Id>)

  datatype CollectionDetail = CollectionDetail(id: Id, title: string, books: seq<BookItem>)

  /** The book ids linked to collection `c`, one per link row, in link order. */
  function BookIdsLinked(links: seq<CollectionLink>, c: Id): (ids: seq<Id>)
    ensures forall b :: b in ids <==> CollectionLink(c, b) in links
    ensures forall k :: 0 <= k < |ids| ==> CollectionLink(c, ids[k]) in links
  {
    if |links| == 0 then []
    else
      var rest := BookIdsLinked(links[1..], c);
      assert forall l :: l in links <==> l == links[0] || l in links[1..];
      if links[0].collectionId == c then [links[0].bookId] + rest else rest
  }

  /** Every link row of `c` points at a stored book (the outer join would otherwise yield None). */
  predicate LinkedBooksExist(s: Store, c: Id) {
    forall l :: l in s.collectionLinks && l.collectionId == c ==> l.bookId in s.books
  }

  function ItemIds(items: seq<BookItem>): (ids: seq<Id>)
    ensures |ids| == |items|
    ensures forall k :: 0 <= k < |items| ==> ids[k] == items[k].id
  {
    seq(|items|, k requires 0 <= k < |items| => items[k].id)
  }

  function DetailOf(s: Store, c: Id): CollectionDetail
    requires c in s.collections && LinkedBooksExist(s, c)
  {
    var ids := BookIdsLinked(s.collectionLinks, c);
    CollectionDetail(c, s.collections[c].title,
      seq(|ids|, k requires 0 <= k < |ids| => ItemOf(ids[k], s.books[ids[k]])))
  }

  /**
   * `get_collection`: the collection with the books its link rows name. The
   * handler asks for no caller and reads the row without a 404, so an absent
   * id raises on `collection.id` (500); so does a link row whose book the outer
   * join cannot find, on `book.id`.
   */
  function GetCollection(s: Store, id: Id): (r: Response<CollectionDetail>)
    ensures r.Err? <==> id !in s.collections || !LinkedBooksExist(s, id)
    ensures r.Err? ==> r.error == ServerError
    ensures r.Ok? ==>
      && r.value.id == id && r.value.title == s.collections[id].title
      && ItemIds(r.value.books) == BookIdsLinked(s.collectionLinks, id)
      && (forall b :: b in ItemIds(r.value.books) <==> CollectionLink(id, b) in s.collectionLinks)
      && (forall i :: i in r.value.books ==> i.id in s.books && i == ItemOf(i.id, s.books[i.id]))
  {
    if id !in s.collections || !LinkedBooksExist(s, id) then Err(ServerError)
    else
      var v := DetailOf(s, id);
      forall i | i in v.books
        ensures i.id in s.books && i == ItemOf(i.id, s.books[i.id])
      {
        var k :| 0 <= k < |v.books| && v.books[k] == i;
      }
      Ok(v)
  }

  predicate OwnedBy(s: Store, caller: Id, c: Id) {
    c in s.collections && s.collections[c].userId == caller
  }

  function OwnedIds(s: Store, caller: Id): (ids: seq<Id>)
    ensures forall c :: c in ids <==> OwnedBy(s, caller, c)
    ensures forall k :: 0 <= k < |ids| ==> OwnedBy(s, caller, ids[k])
    ensures StrictlyIncreasing(ids)
  {
    var all := SortedKeys(s.collections.Keys);
    FilterIncreasing(all, (c: Id) => OwnedBy(s, caller, c));
    Filter(all, (c: Id) => OwnedBy(s, caller, c))
  }

  /**
   * `get_collections`: the caller's own collections only, by ascending id. The
   * loop builds every entry the way `get_collection` does, so one link row
   * whose book the outer join cannot find raises on `book.id` (500).
   */
  function GetCollections(s: Store, caller: Id): (r: Response<seq<CollectionDetail>>)
    ensures r.Err? <==> exists c :: OwnedBy(s, caller, c) && !LinkedBooksExist(s, c)
    ensures r.Err? ==> r.error == ServerError
    ensures r.Ok? ==> |r.value| == |OwnedIds(s, caller)|
  {
    var ids := OwnedIds(s, caller);
    if exists c :: c in ids && !LinkedBooksExist(s, c) then Err(ServerError)
    else
      Ok(seq(|ids|, k requires 0 <= k < |ids| => assert OwnedBy(s, caller, ids[k]); DetailOf(s, ids[k])))
  }

  /** Entry `k` of a successful listing is collection `ids[k]`, built as `get_collection` builds it. */
  lemma GetCollectionsAt(s: Store, caller: Id, k: int)
    requires GetCollections(s, caller).Ok? && 0 <= k < |GetCollections(s, caller).value|
    ensures var ids := OwnedIds(s, caller);
      && k < |ids| && OwnedBy(s, caller, ids[k])
      && GetCollections(s, caller).value[k].id == ids[k]
      && GetCollection(s, ids[k]) == Ok(GetCollections(s, caller).value[k])
  {
    var ids := OwnedIds(s, caller);
    assert OwnedBy(s, caller, ids[k]);
    assert ids[k] in ids;
    assert LinkedBooksExist(s, ids[k]);
    assert GetCollections(s, caller).value[k] == DetailOf(s, ids[k]);
  }

  /**
   * Every listed collection belongs to the caller and shows exactly what
   * `get_collection` shows for it; every collection the caller owns is listed.
   */
  lemma GetCollectionsOwnOnly(s: Store, caller: Id)
    ensures var r := GetCollections(s, caller);
      r.Ok? ==>
        && (forall k :: 0 <= k < |r.value| ==> OwnedBy(s, caller, r.value[k].id) && GetCollection(s, r.value[k].id) == Ok(r.value[k]))
        && (forall k, j :: 0 <= k < j < |r.value| ==> r.value[k].id < r.value[j].id)
        && (forall c :: OwnedBy(s, caller, c) ==> exists k :: 0 <= k < |r.value| && r.value[k].id == c)
  {
    var r := GetCollections(s, caller);
    if r.Ok? {
      var v := r.value;
      var ids := OwnedIds(s, caller);
      forall k | 0 <= k < |v|
        ensures OwnedBy(s, caller, v[k].id) && GetCollection(s, v[k].id) == Ok(v[k])
      {
        GetCollectionsAt(s, caller, k);
      }
      forall k, j | 0 <= k < j < |v|
        ensures v[k].id < v[j].id
      {
        GetCollectionsAt(s, caller, k);
        GetCollectionsAt(s, caller, j);
        assert ids[k] < ids[j];
      }
      forall c | OwnedBy(s, caller, c)
        ensures exists k :: 0 <= k < |v| && v[k].id == c
      {
        var k :| 0 <= k < |ids| && ids[k] == c;
        GetCollectionsAt(s, caller, k);
      }
    }
  }

  /** One link row per book id, in request order, duplicates kept. */
  function CollectionLinksFor(bookIds: seq<Id>, c: Id): (ls: seq<CollectionLink>)
    ensures |ls| == |bookIds|
    ensures forall k :: 0 <= k < |ls| ==> ls[k] == CollectionLink(c, bookIds[k])
  {
    if |bookIds| == 0 then [] else [CollectionLink(c, bookIds[0])] + CollectionLinksFor(bookIds[1..], c)
  }

  /** True when some requested book id names no book. */
  predicate AnyMissingBook(s: Store, bookIds: seq<Id>) {
    exists b :: b in bookIds && b !in s.books
  }

  /**
   * `create_collection`: the collection is committed first with the caller as
   * owner; the book ids are not validated, so a missing one makes the second
   * commit fail on the foreign key, leaving the collection without links.
   */
  function CreateCollection(s: Store, caller: Id, req: CollectionRequest): (r: Outcome<Row<Collection>>)
    requires caller in s.users
    ensures r.store.collections == s.collections[s.next.collection := Collection(req.title, caller)]
    ensures r.response.Ok? <==> !AnyMissingBook(s, req.bookIds)
  {
    var id := s.next.collection;
    var t := InsertCollection(s, Collection(req.title, caller));
    if AnyMissingBook(s, req.bookIds) then Outcome(t, Err(IntegrityError))
    else Outcome(t.(collectionLinks := t.collectionLinks + CollectionLinksFor(req.bookIds, id)),
                 Ok(Row(id, Collection(req.title, caller))))
  }

  /**
   * The new collection gets a fresh id and the caller as owner; on success it
   * is linked to exactly the supplied book ids in order, on failure to none.
   */
  lemma CreateCollectionLinks(s: Store, caller: Id, req: CollectionRequest)
    requires Valid(s) && caller in s.users
    ensures var r := CreateCollection(s, caller, req);
      var id := s.next.collection;
      && id !in s.collections && (forall c :: c in s.collections ==> c < id)
      && r.store.collections[id].userId == caller
      && (r.response.Ok? ==> r.response.value.id == id && BookIdsLinked(r.store.collectionLinks, id) == req.bookIds)
      && (r.response.Err? ==> r.store.collectionLinks == s.collectionLinks && BookIdsLinked(r.store.collectionLinks, id) == [])
      && r.store.books == s.books && r.store.reviews == s.reviews && r.store.genreLinks == s.genreLinks
  {
    FreshIdsExceedExisting(s);
    var id := s.next.collection;
    var r := CreateCollection(s, caller, req);
    BookIdsLinkedNone(s.collectionLinks, id);
    if r.response.Ok? {
      var added := CollectionLinksFor(req.bookIds, id);
      BookIdsLinkedAppend(s.collectionLinks, added, id);
      BookIdsLinkedFor(req.bookIds, id);
    }
  }

  lemma {:induction false} BookIdsLinkedAppend(a: seq<CollectionLink>, b: seq<CollectionLink>, c: Id)
    ensures BookIdsLinked(a + b, c) == BookIdsLinked(a, c) + BookIdsLinked(b, c)
  {
    if |a| == 0 {
      assert a + b == b;
    } else {
      assert (a + b)[0] == a[0];
      assert (a + b)[1..] == a[1..] + b;
      BookIdsLinkedAppend(a[1..], b, c);
    }
  }

  lemma BookIdsLinkedNone(links: seq<CollectionLink>, c: Id)
    requires forall l :: l in links ==> l.collectionId != c
    ensures BookIdsLinked(links, c) == []
  {
  }

  lemma {:induction false} BookIdsLinkedFor(bookIds: seq<Id>, c: Id)
    ensures BookIdsLinked(CollectionLinksFor(bookIds, c), c) == bookIds
  {
    if |bookIds| > 0 {
      var ls := CollectionLinksFor(bookIds, c);
      assert ls[1..] == CollectionLinksFor(bookIds[1..], c);
      BookIdsLinkedFor(bookIds[1..], c);
    }
  }

  /** Selects the link rows of collections other than `c`. */
  function NotLinkOf(c: Id): CollectionLink -> bool {
    (l: CollectionLink) => l.collectionId != c
  }

  /** Update and delete proceed only for a caller who is ADMIN and also owns the collection. */
  predicate MayModify(s: Store, caller: Id, id: Id)
    requires Authenticated(s, caller)
  {
    IsAdmin(s, caller) && id in s.collections && s.collections[id].userId == caller
  }

  /**
   * The shared gate of update and delete, `role != ADMIN or collection.user_id
   * != user.id`: the role is tested first, so a non-ADMIN caller gets 403 for
   * any id, while for an ADMIN an absent row raises on `user_id` (500).
   */
  function Gate(s: Store, caller: Id, id: Id): (e: Option<Error>)
    requires Authenticated(s, caller)
    ensures e.None? <==> MayModify(s, caller, id)
    ensures e == Some(ServerError) <==> IsAdmin(s, caller) && id !in s.collections
  {
    if !IsAdmin(s, caller) then Some(Forbidden)
    else if id !in s.collections then Some(ServerError)
    else if s.collections[id].userId != caller then Some(Forbidden)
    else None
  }

  /**
   * `update_collection`: the gate, then the rename and the link replacement,
   * which share one commit, so a missing book id rejects both.
   */
  function UpdateCollection(s: Store, caller: Id, id: Id, req: CollectionRequest): (r: Outcome<Row<Collection>>)
    requires Authenticated(s, caller)
    ensures r.response.Err? ==> r.store == s
    ensures r.response.Ok? <==> MayModify(s, caller, id) && !AnyMissingBook(s, req.bookIds)
  {
    match Gate(s, caller, id)
    case Some(e) => Outcome(s, Err(e))
    case None =>
      if AnyMissingBook(s, req.bookIds) then Outcome(s, Err(IntegrityError))
      else
        var renamed := Collection(req.title, caller);
        Outcome(s.(collections := s.collections[id := renamed],
                   collectionLinks := Filter(s.collectionLinks, NotLinkOf(id)) + CollectionLinksFor(req.bookIds, id)),
                Ok(Row(id, renamed)))
  }

  /**
   * A non-ADMIN caller gets 403 whatever the id, an ADMIN who does not own an
   * existing collection gets 403, and an ADMIN naming an absent one gets 500;
   * nothing changes in any of these cases.
   */
  lemma UpdateCollectionForbidden(s: Store, caller: Id, id: Id, req: CollectionRequest)
    requires Authenticated(s, caller)
    ensures !IsAdmin(s, caller) ==> UpdateCollection(s, caller, id, req) == Outcome(s, Err(Forbidden))
    ensures IsAdmin(s, caller) && id in s.collections && s.collections[id].userId != caller ==>
      UpdateCollection(s, caller, id, req) == Outcome(s, Err(Forbidden))
    ensures IsAdmin(s, caller) && id !in s.collections ==>
      UpdateCollection(s, caller, id, req) == Outcome(s, Err(ServerError))
  {
  }

  /**
   * After a successful update the collection carries the new title, its links
   * are exactly the requested book ids in order, and other collections' links
   * are untouched.
   */
  lemma UpdateCollectionReplacesLinks(s: Store, caller: Id, id: Id, req: CollectionRequest)
    requires Authenticated(s, caller)
    requires UpdateCollection(s, caller, id, req).response.Ok?
    ensures var t := UpdateCollection(s, caller, id, req).store;
      && t.collections == s.collections[id := Collection(req.title, caller)]
      && BookIdsLinked(t.collectionLinks, id) == req.bookIds
      && Filter(t.collectionLinks, NotLinkOf(id)) == Filter(s.collectionLinks, NotLinkOf(id))
      && t.books == s.books && t.genreLinks == s.genreLinks && t.reviews == s.reviews
  {
    var t := UpdateCollection(s, caller, id, req).store;
    var p := NotLinkOf(id);
    var kept := Filter(s.collectionLinks, p);
    var added := CollectionLinksFor(req.bookIds, id);
    assert t.collectionLinks == kept + added;
    BookIdsLinkedAppend(kept, added, id);
    BookIdsLinkedNone(kept, id);
    BookIdsLinkedFor(req.bookIds, id);
    FilterAppend(kept, added, p);
    FilterIdempotent(s.collectionLinks, p);
    FilterNone(added, p);
  }

  /** Every update outcome keeps the foreign-key invariant. */
  lemma UpdateCollectionPreservesValidity(s: Store, caller: Id, id: Id, req: CollectionRequest)
    requires Valid(s) && Authenticated(s, caller)
    ensures Valid(UpdateCollection(s, caller, id, req).store)
  {
    var r := UpdateCollection(s, caller, id, req);
    if r.response.Ok? {
      var added := CollectionLinksFor(req.bookIds, id);
      forall l | l in r.store.collectionLinks
        ensures l.collectionId in r.store.collections && l.bookId in r.store.books
      {
        if l in added {
          var k :| 0 <= k < |added| && added[k] == l;
          assert req.bookIds[k] in req.bookIds;
        }
      }
    }
  }

  /** `delete_collection`: the same gate as update, then the cascading delete. */
  function DeleteCollection(s: Store, caller: Id, id: Id): (r: Outcome<Removed>)
    requires Authenticated(s, caller)
    ensures r.response.Ok? <==> MayModify(s, caller, id)
    ensures r.response.Err? ==> r.store == s
    ensures !IsAdmin(s, caller) ==> r.response == Err(Forbidden)
    ensures r.response == Err(ServerError) <==> IsAdmin(s, caller) && id !in s.collections
    ensures r.response.Ok? ==>
      && r.response.value == Removed(id) && id !in r.store.collections
      && (forall l :: l in r.store.collectionLinks ==> l.collectionId != id)
      && (forall c :: c in s.collections && c != id ==> c in r.store.collections)
  {
    match Gate(s, caller, id)
    case Some(e) => Outcome(s, Err(e))
    case None => Outcome(CascadeDeleteCollection(s, id), Ok(Removed(id)))
  }
}

=== FILE: js.dfy ===
/**
 * The few JavaScript built-ins the client state machines rely on:
 * `Array.prototype.slice`, truthiness of an optional id, and the global
 * `parseInt` without a radix.
 */
module Js {
  import opened Wrappers
  import opened Numerals

  /** A slice bound as `slice` normalises it: negative counts from the end, then clamped to the length. */
  function SliceBound(len: nat, i: int): (b: nat)
    ensures b <= len
    ensures 0 <= i <= len ==> b == i
    ensures i > len ==> b == len
  {
    if i < 0 then (if len + i < 0 then 0 else len + i) else if i > len then len else i
  }

  /** `s.slice(start, end)`. */
  function Slice<T>(s: seq<T>, start: int, end: int): (r: seq<T>)
    ensures 0 <= start <= end <= |s| ==> r == s[start..end]
    ensures 0 <= start <= |s| <= end ==> r == s[start..]
    ensures 0 <= start && 0 <= end ==> |r| <= if end >= start then end - start else 0
    ensures |r| <= |s|
  {
    var from := SliceBound(|s|, start);
    var to := SliceBound(|s|, end);
    if from >= to then [] else s[from..to]
  }

  /** Whether an optional numeric id is truthy: `null`, `0` are falsy. */
  predicate Truthy(v: Option<int>) {
    v.Some? && v.value != 0
  }

  /** A JavaScript number as `parseInt` produces it. */
  datatype Number = NaN | Num(n: int)

  /** The white space `parseInt` skips (the ASCII members of the ECMAScript set). */
  predicate IsSpace(c: char) {
    c == ' ' || c == '\t' || c == '\n' || c == '\r' || c == '\U{B}' || c == '\U{C}'
  }

  predicate IsHexDigit(c: char) {
    IsDigit(c) || 'a' <= c <= 'f' || 'A' <= c <= 'F'
  }

  function HexValue(c: char): nat
    requires IsHexDigit(c)
  {
    if IsDigit(c) then DigitValue(c) else if 'a' <= c <= 'f' then (c - 'a') as nat + 10 else (c - 'A') as nat + 10
  }

  /** Length of the longest prefix of `s` whose characters all satisfy `p`. */
  function PrefixLength(s: string, p: char -> bool): (n: nat)
    ensures n <= |s|
    ensures forall i :: 0 <= i < n ==> p(s[i])
    ensures n < |s| ==> !p(s[n])
  {
    if |s| == 0 || !p(s[0]) then 0 else 1 + PrefixLength(s[1..], p)
  }

  /** Value of a string of digits in base `radix`. */
  function DigitsIn(s: string, radix: nat): nat
    requires forall i :: 0 <= i < |s| ==> IsHexDigit(s[i])
  {
    if |s| == 0 then 0 else DigitsIn(s[..|s| - 1], radix) * radix + HexValue(s[|s| - 1])
  }

  /** The magnitude part of `parseInt`: a `0x` prefix selects hexadecimal, otherwise decimal. */
  function ParseMagnitude(s: string): Number {
    if |s| >= 2 && s[0] == '0' && (s[1] == 'x' || s[1] == 'X') then
      var n := PrefixLength(s[2..], IsHexDigit);
      if n == 0 then NaN else Num(DigitsIn(s[2..][..n], 16))
    else
      var n := PrefixLength(s, IsDigit);
      if n == 0 then NaN else Num(DigitsIn(s[..n], 10))
  }

  /**
   * `parseInt(s)`: leading white space skipped, an optional sign, then the
   * longest digit prefix; no digits at all gives NaN, trailing text is ignored.
   */
  function ParseInt(s: string): (r: Number)
    ensures (forall i :: 0 <= i < |s| ==> !IsDigit(s[i])) ==> r == NaN
  {
    var t := s[PrefixLength(s, IsSpace)..];
    if |t| > 0 && t[0] == '-' then
      (match ParseMagnitude(t[1..]) case NaN => NaN case Num(n) => Num(0 - n))
    else if |t| > 0 && t[0] == '+' then ParseMagnitude(t[1..])
    else ParseMagnitude(t)
  }

  lemma {:induction false} DigitsInDecimal(s: string)
    requires forall i :: 0 <= i < |s| ==> IsDigit(s[i])
    ensures DigitsIn(s, 10) == DigitsValue(s)
  {
    if |s| > 0 {
      DigitsInDecimal(s[..|s| - 1]);
    }
  }

  /** `parseInt` reads back the decimal rendering of every integer. */
  lemma ParseIntRendering(i: int)
    ensures ParseInt(IntToString(i)) == Num(i)
  {
    var s := IntToString(i);
    if i < 0 {
      var d := NatToString(-i);
      assert s == "-" + d;
      assert !IsSpace(s[0]);
      assert s[PrefixLength(s, IsSpace)..] == s;
      assert s[1..] == d;
      MagnitudeOfRendering(-i);
      assert ParseMagnitude(s[1..]) == Num(-i);
    } else {
      assert s == NatToString(i);
      assert IsDigit(s[0]);
      assert !IsSpace(s[0]) && s[0] != '-' && s[0] != '+';
      assert s[PrefixLength(s, IsSpace)..] == s;
      MagnitudeOfRendering(i);
    }
  }

  /** The decimal rendering of a natural number reads back as that number. */
  lemma MagnitudeOfRendering(n: nat)
    ensures ParseMagnitude(NatToString(n)) == Num(n)
  {
    var d := NatToString(n);
    NatToStringValue(n);
    assert PrefixLength(d, IsDigit) == |d| by { PrefixAll(d, IsDigit); }
    DigitsInDecimal(d);
    assert d[..|d|] == d;
    if |d| >= 2 {
      assert d[0] != '0';
    }
  }

  lemma {:induction false} PrefixAll(s: string, p: char -> bool)
    requires forall i :: 0 <= i < |s| ==> p(s[i])
    ensures PrefixLength(s, p) == |s|
  {
    if |s| > 0 {
      PrefixAll(s[1..], p);
    }
  }
}

=== FILE: json.dfy ===
/**
 * JSON values as `json.loads` hands them to the `parse_json` methods, and
 * the Python operations those methods apply to them: subscripting by key,
 * iteration, `int()`, `float()` and the coercions a pydantic field performs.
 * Text-level parsing and printing are not part of this model.
 */
module Json {
  import opened Wrappers
  import opened Numerals
  import Seqs

  datatype Json =
    | JNull
    | JBool(b: bool)
    | JInt(i: int)
    | JReal(r: real)
    | JStr(s: string)
    | JArr(items: seq<Json>)
    | JObj(members: seq<Member>)

  /** One `"key": value` pair of an object, in text order. */
  datatype Member = Member(key: string, value: Json)

  function Keys(ms: seq<Member>): (ks: seq<string>)
    ensures |ks| == |ms| && forall k :: 0 <= k < |ms| ==> ks[k] == ms[k].key
  {
    seq(|ms|, k requires 0 <= k < |ms| => ms[k].key)
  }

  /** The value of the last member named `key`: `json.loads` keeps the last of duplicate keys. */
  function LastValue(ms: seq<Member>, key: string): (r: Option<Json>)
    ensures r.Some? <==> exists k :: 0 <= k < |ms| && ms[k].key == key
    ensures r.Some? ==>
      exists k :: 0 <= k < |ms| && ms[k] == Member(key, r.value) && forall j :: k < j < |ms| ==> ms[j].key != key
  {
    if |ms| == 0 then None
    else if ms[|ms| - 1].key == key then Some(ms[|ms| - 1].value)
    else
      var r := LastValue(ms[..|ms| - 1], key);
      assert forall k :: 0 <= k < |ms| - 1 ==> ms[..|ms| - 1][k] == ms[k];
      r
  }

  /** `x[key]`: defined on objects holding the key; a KeyError or TypeError otherwise. */
  function Get(j: Json, key: string): (r: Option<Json>)
    ensures r.Some? <==> j.JObj? && key in Keys(j.members)
  {
    if j.JObj? then LastValue(j.members, key) else None
  }

  /** A member no later member shadows is what subscripting returns. */
  lemma GetField(ms: seq<Member>, k: nat)
    requires k < |ms| && forall j :: k < j < |ms| ==> ms[j].key != ms[k].key
    ensures Get(JObj(ms), ms[k].key) == Some(ms[k].value)
  {
    var r := LastValue(ms, ms[k].key);
    assert r.Some?;
  }

  /**
   * The keys of the dict `json.loads` builds from these members: each distinct
   * key once, at its first position (a repeated key updates the value in place).
   */
  function DictKeys(ks: seq<string>): (r: seq<string>)
    ensures forall x :: x in r <==> x in ks
    ensures Seqs.Distinct(r)
    ensures |r| <= |ks|
  {
    if |ks| == 0 then []
    else
      var init := ks[..|ks| - 1];
      var d := DictKeys(init);
      assert forall x :: x in ks <==> x in init || x == ks[|ks| - 1];
      if ks[|ks| - 1] in d then d else d + [ks[|ks| - 1]]
  }

  /**
   * A further key is appended exactly when it is new, and keys that are
   * already distinct are kept as they are.
   */
  lemma {:induction false} DictKeysOrder(ks: seq<string>, k: string)
    ensures DictKeys([]) == []
    ensures DictKeys(ks + [k]) == DictKeys(ks) + (if k in ks then [] else [k])
    ensures Seqs.Distinct(ks) ==> DictKeys(ks) == ks
    decreases |ks|
  {
    assert (ks + [k])[..|ks + [k]| - 1] == ks;
    if |ks| > 0 && Seqs.Distinct(ks) {
      var init := ks[..|ks| - 1];
      var last := ks[|ks| - 1];
      assert init + [last] == ks;
      assert Seqs.Distinct(init) by {
        forall i, j | 0 <= i < j < |init| ensures init[i] != init[j] {
          assert init[i] == ks[i] && init[j] == ks[j];
        }
      }
      DictKeysOrder(init, last);
      assert last !in init by {
        forall i | 0 <= i < |init| ensures init[i] != last {
          assert init[i] == ks[i];
        }
      }
    }
  }

  /** The keys of an object's dict, in dict order, each as a JSON string. */
  function DictKeyStrings(ms: seq<Member>): (r: seq<Json>)
    ensures |r| <= |ms|
    ensures forall x :: JStr(x) in r <==> x in Keys(ms)
    ensures Seqs.Distinct(Keys(ms)) ==> |r| == |ms|
  {
    var ks := DictKeys(Keys(ms));
    DictKeysOrder(Keys(ms), "");
    var r := seq(|ks|, k requires 0 <= k < |ks| => JStr(ks[k]));
    forall x | x in ks
      ensures JStr(x) in r
    {
      var k :| 0 <= k < |ks| && ks[k] == x;
      assert r[k] == JStr(x);
    }
    forall x | JStr(x) in r
      ensures x in ks
    {
      var k :| 0 <= k < |r| && r[k] == JStr(x);
      assert ks[k] == x;
    }
    r
  }

  /**
   * `for x in v`: an array yields its items, an object its dict's keys and a
   * string its characters, each as a string; other values raise TypeError.
   */
  function Iterate(j: Json): (r: Option<seq<Json>>)
    ensures j.JArr? ==> r == Some(j.items)
    ensures r.Some? <==> j.JArr? || j.JObj? || j.JStr?
    ensures j.JObj? ==> |r.value| <= |j.members| && forall x :: JStr(x) in r.value <==> x in Keys(j.members)
    ensures j.JObj? && Seqs.Distinct(Keys(j.members)) ==> |r.value| == |j.members|
    ensures j.JStr? ==> |r.value| == |j.s|
  {
    match j
    case JArr(items) => Some(items)
    case JObj(ms) => Some(DictKeyStrings(ms))
    case JStr(s) => Some(seq(|s|, k requires 0 <= k < |s| => JStr([s[k]])))
    case _ => None
  }

  /** Python's `int(r)` on a float: truncation toward zero. */
  function Truncate(r: real): (i: int)
    ensures r >= 0.0 ==> i as real <= r < i as real + 1.0
    ensures r < 0.0 ==> i as real - 1.0 < r <= i as real
  {
    if r >= 0.0 then r.Floor else 0 - (0.0 - r).Floor
  }

  /** `int(v)`: integers as they are, booleans as 0 or 1, floats truncated, numeric strings parsed. */
  function PyInt(j: Json): (r: Option<int>)
    ensures j.JInt? ==> r == Some(j.i)
    ensures j.JNull? || j.JArr? || j.JObj? ==> r.None?
  {
    match j
    case JInt(i) => Some(i)
    case JBool(b) => Some(if b then 1 else 0)
    case JReal(x) => Some(Truncate(x))
    case JStr(s) => ParseInt(s)
    case _ => None
  }

  /**
   * `float(v)`, and equally a pydantic `float` field: numbers and booleans as
   * reals; strings only in integral decimal form.
   */
  function PyFloat(j: Json): (r: Option<real>)
    ensures j.JReal? ==> r == Some(j.r)
    ensures j.JInt? ==> r == Some(j.i as real)
    ensures j.JNull? || j.JArr? || j.JObj? ==> r.None?
  {
    match j
    case JInt(i) => Some(i as real)
    case JBool(b) => Some(if b then 1.0 else 0.0)
    case JReal(x) => Some(x)
    case JStr(s) => (match ParseInt(s) case Some(i) => Some(i as real) case None => None)
    case _ => None
  }

  /** A pydantic `int` field: integers, booleans, integral floats and numeric strings. */
  function FieldInt(j: Json): (r: Option<int>)
    ensures j.JInt? ==> r == Some(j.i)
    ensures r.Some? && j.JReal? ==> r.value as real == j.r
    ensures j.JNull? || j.JArr? || j.JObj? ==> r.None?
  {
    match j
    case JInt(i) => Some(i)
    case JBool(b) => Some(if b then 1 else 0)
    case JReal(x) => if x.Floor as real == x then Some(x.Floor) else None
    case JStr(s) => ParseInt(s)
    case _ => None
  }

  /** A pydantic `str` field: only strings. */
  function FieldStr(j: Json): (r: Option<string>)
    ensures r.Some? <==> j.JStr?
    ensures j.JStr? ==> r.value == j.s
  {
    if j.JStr? then Some(j.s) else None
  }

  /**
   * Decodes every item or fails: the list comprehensions of `parse_json`
   * propagate the first exception.
   */
  function DecodeEach<T>(items: seq<Json>, f: Json -> Option<T>): (r: Option<seq<T>>)
    ensures r.Some? <==> forall k :: 0 <= k < |items| ==> f(items[k]).Some?
    ensures r.Some? ==> |r.value| == |items| && forall k :: 0 <= k < |items| ==> f(items[k]) == Some(r.value[k])
  {
    if |items| == 0 then Some([])
    else
      match f(items[0])
      case None => None
      case Some(x) =>
        var rest := DecodeEach(items[1..], f);
        assert forall k :: 1 <= k < |items| ==> items[1..][k - 1] == items[k];
        if rest.None? then None else Some([x] + rest.value)
  }

  /** `[f(x) for x in v]` over whatever `v` iterates to. */
  function DecodeArray<T>(j: Json, f: Json -> Option<T>): (r: Option<seq<T>>)
    ensures j == JArr([]) ==> r == Some([])
    ensures r.Some? && j.JArr? ==> |r.value| == |j.items| && forall k :: 0 <= k < |j.items| ==> f(j.items[k]) == Some(r.value[k])
  {
    var items :- Iterate(j);
    DecodeEach(items, f)
  }

  /** Each element as `enc` writes it, in order. */
  function EncodeArray<T>(xs: seq<T>, enc: T -> Json): (j: Json)
    ensures j.JArr? && |j.items| == |xs|
    ensures forall k :: 0 <= k < |xs| ==> j.items[k] == enc(xs[k])
  {
    JArr(seq(|xs|, k requires 0 <= k < |xs| => enc(xs[k])))
  }

  /** Element-wise round trips make the array round trip. */
  lemma {:induction false} ArrayRoundTrip<T>(xs: seq<T>, enc: T -> Json, dec: Json -> Option<T>)
    requires forall k :: 0 <= k < |xs| ==> dec(enc(xs[k])) == Some(xs[k])
    ensures DecodeArray(EncodeArray(xs, enc), dec) == Some(xs)
  {
    var j := EncodeArray(xs, enc);
    var r := DecodeEach(j.items, dec);
    assert r.Some?;
    assert r.value == xs;
  }
}

=== FILE: numerals.dfy ===
/**
 * Decimal renderings of integers, as Python's `str(int)` and f-strings write
 * them, and the parser `int(str)` applies to such a rendering.
 */
module Numerals {
  import opened Wrappers

  predicate IsDigit(c: char) {
    '0' <= c <= '9'
  }

  predicate AllDigits(s: string) {
    forall i :: 0 <= i < |s| ==> IsDigit(s[i])
  }

  function DigitChar(d: nat): (c: char)
    requires d < 10
    ensures IsDigit(c)
  {
    "0123456789"[d]
  }

  function DigitValue(c: char): (d: nat)
    requires IsDigit(c)
    ensures d < 10
  {
    c as int - '0' as int
  }

  lemma DigitCharValue(d: nat)
    requires d < 10
    ensures DigitValue(DigitChar(d)) == d
  {
  }

  /** Canonical decimal text of a natural number: no sign, no leading zero. */
  function NatToString(n: nat): (s: string)
    ensures |s| >= 1
    ensures AllDigits(s)
    ensures |s| > 1 ==> s[0] != '0'
    decreases n
  {
    if n < 10 then [DigitChar(n)]
    else NatToString(n / 10) + [DigitChar(n % 10)]
  }

  /** The number a string of decimal digits denotes (most significant first). */
  function DigitsValue(s: string): nat
    requires AllDigits(s)
  {
    if |s| == 0 then 0
    else DigitsValue(s[..|s| - 1]) * 10 + DigitValue(s[|s| - 1])
  }

  lemma {:induction false} NatToStringValue(n: nat)
    ensures DigitsValue(NatToString(n)) == n
    decreases n
  {
    var s := NatToString(n);
    if n < 10 {
      DigitCharValue(n);
    } else {
      NatToStringValue(n / 10);
      assert s[..|s| - 1] == NatToString(n / 10);
      DigitCharValue(n % 10);
    }
  }

  /** `str(n)` for a Python int. */
  function IntToString(i: int): (s: string)
    ensures |s| >= 1
    ensures s[0] == '-' <==> i < 0
  {
    if i < 0 then "-" + NatToString(-i) else NatToString(i)
  }

  /** Unsigned decimal text to its value; anything else is rejected. */
  function ParseNat(s: string): (r: Option<nat>)
    ensures r.Some? <==> |s| > 0 && AllDigits(s)
  {
    if |s| > 0 && AllDigits(s) then Some(DigitsValue(s)) else None
  }

  /**
   * `int(s)` on a string: an optional sign followed by at least one decimal
   * digit. Python additionally tolerates surrounding blanks and digit-group
   * underscores; those spellings are not produced anywhere in this model.
   */
  function ParseInt(s: string): (r: Option<int>)
    ensures |s| == 0 ==> r.None?
  {
    if |s| > 0 && s[0] == '-' then
      match ParseNat(s[1..])
      case Some(n) => Some(0 - n as int)
      case None => None
    else if |s| > 0 && s[0] == '+' then
      match ParseNat(s[1..])
      case Some(n) => Some(n)
      case None => None
    else
      match ParseNat(s)
      case Some(n) => Some(n)
      case None => None
  }

  /** Parsing the rendering of any integer gives that integer back. */
  lemma IntToStringRoundTrip(i: int)
    ensures ParseInt(IntToString(i)) == Some(i)
  {
    var s := IntToString(i);
    if i < 0 {
      assert s[1..] == NatToString(-i);
      NatToStringValue(-i);
      assert ParseNat(s[1..]) == Some(-i);
    } else {
      NatToStringValue(i);
      assert IsDigit(s[0]);
      assert ParseNat(s) == Some(i);
    }
  }

  /** Distinct integers have distinct renderings. */
  lemma IntToStringInjective(a: int, b: int)
    requires IntToString(a) == IntToString(b)
    ensures a == b
  {
    IntToStringRoundTrip(a);
    IntToStringRoundTrip(b);
  }
}

=== FILE: rating.dfy ===
/** The displayed book rating: the mean of the review ratings, or exactly 0 without reviews. */
module Rating {
  import opened Seqs

  /** Exact-rational stand-in for `sum(ratings) / count if count > 0 else 0`. */
  function BookRating(ratings: seq<int>): (r: real)
    ensures |ratings| == 0 ==> r == 0.0
    ensures |ratings| > 0 ==> r * (|ratings| as real) == Sum(ratings) as real
  {
    if |ratings| > 0 then (Sum(ratings) as real) / (|ratings| as real) else 0.0
  }

  /** The rating depends only on the multiset of ratings, not on the order reviews are read in. */
  lemma RatingOrderIndependent(a: seq<int>, b: seq<int>)
    requires multiset(a) == multiset(b)
    ensures BookRating(a) == BookRating(b)
  {
    SumPermutation(a, b);
    assert |a| == |multiset(a)| == |multiset(b)| == |b|;
  }

  /** With every rating in [lo, hi], a non-empty mean lies in [lo, hi] too. */
  lemma RatingWithinBounds(ratings: seq<int>, lo: int, hi: int)
    requires |ratings| > 0
    requires forall i :: 0 <= i < |ratings| ==> lo <= ratings[i] <= hi
    ensures lo as real <= BookRating(ratings) <= hi as real
  {
    SumBounds(ratings, lo, hi);
    var n := |ratings| as real;
    var r := BookRating(ratings);
    assert r * n == Sum(ratings) as real;
    assert (lo as real) * n <= r * n <= (hi as real) * n;
  }
}

=== FILE: reviews.dfy ===
/** The handlers of routes/reviews_router.py. */
module Reviews {
  import opened Seqs
  import opened Catalog
  import opened Api

  /** The `CreateReviewRequestModel` payload. */
  datatype ReviewRequest = ReviewRequest(bookId: Id, rating: int, text: string)

  datatype UserRef = UserRef(id: Id, name: string)

  /** A review as `get_review`, `get_reviews` and `create_review` return it. */
  datatype ReviewView = ReviewView(id: Id, user: UserRef, bookId: Id, rating: int, text: string, created: Instant)

  /** The `DeleteReviewModelResponse`: the removed id and the review's author. */
  datatype DeletedReview = DeletedReview(id: Id, user: UserRef)

  function ViewOf(s: Store, id: Id): ReviewView
    requires id in s.reviews && s.reviews[id].userId in s.users
  {
    var r := s.reviews[id];
    ReviewView(id, UserRef(r.userId, s.users[r.userId].name), r.bookId, r.rating, r.text, r.created)
  }

  predicate AuthorResolves(s: Store, id: Id) {
    id in s.reviews && s.reviews[id].userId in s.users
  }

  /** `get_review`: 404 for an absent id, otherwise the review with its author's id and name. */
  function GetReview(s: Store, id: Id): (r: Response<ReviewView>)
    requires id in s.reviews ==> s.reviews[id].userId in s.users
    ensures r.Err? <==> id !in s.reviews
    ensures r.Err? ==> r.error == NotFound
    ensures r.Ok? ==> var row := s.reviews[id];
      && r.value.id == id && r.value.bookId == row.bookId && r.value.rating == row.rating
      && r.value.text == row.text && r.value.created == row.created
      && r.value.user == UserRef(row.userId, s.users[row.userId].name)
  {
    if id !in s.reviews then Err(NotFound) else Ok(ViewOf(s, id))
  }

  /** `get_reviews`: every review joined to its author, by ascending review id. */
  function GetReviews(s: Store): (r: seq<ReviewView>)
    requires forall x :: x in s.reviews ==> s.reviews[x].userId in s.users
    ensures |r| == |s.reviews|
  {
    var ids := SortedKeys(s.reviews.Keys);
    seq(|ids|, k requires 0 <= k < |ids| => ViewOf(s, ids[k]))
  }

  /** Each listed entry is the review exactly as `get_review` shows it, by ascending id. */
  lemma GetReviewsEntries(s: Store)
    requires forall x :: x in s.reviews ==> s.reviews[x].userId in s.users
    ensures var r := GetReviews(s);
      && (forall k :: 0 <= k < |r| ==> r[k].id in s.reviews && GetReview(s, r[k].id) == Ok(r[k]))
      && (forall k, j :: 0 <= k < j < |r| ==> r[k].id < r[j].id)
  {
    var r := GetReviews(s);
    var ids := SortedKeys(s.reviews.Keys);
    forall k | 0 <= k < |r| ensures r[k] == ViewOf(s, ids[k]) && r[k].id == ids[k] { }
    forall k | 0 <= k < |r| ensures r[k].id in s.reviews && GetReview(s, r[k].id) == Ok(r[k]) { }
    forall k, j | 0 <= k < j < |r| ensures r[k].id < r[j].id { assert ids[k] < ids[j]; }
  }

  /** Every stored review appears in the list. */
  lemma GetReviewsComplete(s: Store, x: Id)
    requires forall x :: x in s.reviews ==> s.reviews[x].userId in s.users
    requires x in s.reviews
    ensures exists k :: 0 <= k < |GetReviews(s)| && GetReviews(s)[k].id == x
  {
    var r := GetReviews(s);
    var ids := SortedKeys(s.reviews.Keys);
    assert x in ids;
    var k :| 0 <= k < |ids| && ids[k] == x;
    assert r[k] == ViewOf(s, ids[k]);
  }

  /**
   * `create_review`: the book must exist (400), then the rating must lie in
   * 1..5 (400); the review is stored under a fresh id with the caller as its
   * author and `now` as its creation time, and the book's cache key is dropped.
   */
  function CreateReview(s: Store, cache: Cache, caller: Id, req: ReviewRequest, now: Instant): (r: Step<ReviewView>)
    requires caller in s.users
    ensures r.response.Err? ==> r.store == s && r.cache == cache
    ensures r.response.Ok? <==> req.bookId in s.books && 1 <= req.rating <= 5
  {
    if req.bookId !in s.books then Step(s, cache, Err(UnknownBook(req.bookId)))
    else if req.rating < 1 || req.rating > 5 then Step(s, cache, Err(RatingOutOfRange))
    else
      var id := s.next.review;
      var t := InsertReview(s, Review(caller, req.bookId, req.rating, req.text, now));
      Step(t, cache - {BookKey(req.bookId)},
           Ok(ReviewView(id, UserRef(caller, s.users[caller].name), req.bookId, req.rating, req.text, now)))
  }

  /** The missing book is reported before the rating is looked at; both reject without a write. */
  lemma CreateReviewRejects(s: Store, cache: Cache, caller: Id, req: ReviewRequest, now: Instant)
    requires caller in s.users
    ensures req.bookId !in s.books ==>
      CreateReview(s, cache, caller, req, now) == Step(s, cache, Err(UnknownBook(req.bookId)))
    ensures req.bookId in s.books && (req.rating < 1 || req.rating > 5) ==>
      CreateReview(s, cache, caller, req, now) == Step(s, cache, Err(RatingOutOfRange))
    ensures CreateReview(s, cache, caller, req, now).response.Err? ==>
      CreateReview(s, cache, caller, req, now).response.error.Status() == 400
  {
  }

  /**
   * A successful create adds exactly one review, authored by the caller, with
   * the requested book, rating and text, under an id above all existing ones;
   * it deletes the key `/books/{book_id}` and no other cache key.
   */
  lemma CreateReviewInserts(s: Store, cache: Cache, caller: Id, req: ReviewRequest, now: Instant)
    requires IdentityOk(s) && caller in s.users
    requires CreateReview(s, cache, caller, req, now).response.Ok?
    ensures var r := CreateReview(s, cache, caller, req, now);
      var id := r.response.value.id;
      && id !in s.reviews && (forall x :: x in s.reviews ==> x < id)
      && r.store.reviews == s.reviews[id := Review(caller, req.bookId, req.rating, req.text, now)]
      && r.store.books == s.books && r.store.users == s.users
      && r.store.genreLinks == s.genreLinks && r.store.collectionLinks == s.collectionLinks
      && BookKey(req.bookId) !in r.cache
      && (forall k :: k != BookKey(req.bookId) ==> (k in r.cache <==> k in cache) && (k in cache ==> r.cache[k] == cache[k]))
      && IdentityOk(r.store)
      && (Consistent(s) ==> Consistent(r.store))
  {
    FreshIdsExceedExisting(s);
  }

  /**
   * `delete_review`: existence first (404, even for an unprivileged caller),
   * then the owner/moderator/admin policy (403); a delete removes that review
   * only, and — as written — leaves the cache untouched.
   */
  function DeleteReview(s: Store, cache: Cache, caller: Id, id: Id): (r: Step<DeletedReview>)
    requires Authenticated(s, caller)
    requires id in s.reviews ==> s.reviews[id].userId in s.users
    ensures r.cache == cache
    ensures r.response.Err? ==> r.store == s
  {
    if id !in s.reviews then Step(s, cache, Err(NotFound))
    else
      var owner := s.reviews[id].userId;
      if !MayDeleteReview(caller, CallerRole(s, caller), owner) then Step(s, cache, Err(Forbidden))
      else Step(CascadeDeleteReview(s, id), cache, Ok(DeletedReview(id, UserRef(owner, s.users[owner].name))))
  }

  /** The delete succeeds exactly when the review exists and the caller owns it or moderates or administers. */
  lemma DeleteReviewPolicy(s: Store, cache: Cache, caller: Id, id: Id)
    requires Authenticated(s, caller)
    requires id in s.reviews ==> s.reviews[id].userId in s.users
    ensures id !in s.reviews ==> DeleteReview(s, cache, caller, id).response == Err(NotFound)
    ensures id in s.reviews ==>
      (DeleteReview(s, cache, caller, id).response.Ok? <==>
         caller == s.reviews[id].userId || CallerRole(s, caller) in {MODERATOR, ADMIN})
    ensures id in s.reviews && DeleteReview(s, cache, caller, id).response.Err? ==>
      DeleteReview(s, cache, caller, id).response == Err(Forbidden) && id in DeleteReview(s, cache, caller, id).store.reviews
  {
  }

  /** A successful delete removes only that review and reports its id and author. */
  lemma DeleteReviewRemovesOnlyIt(s: Store, cache: Cache, caller: Id, id: Id)
    requires Authenticated(s, caller)
    requires id in s.reviews && s.reviews[id].userId in s.users
    requires DeleteReview(s, cache, caller, id).response.Ok?
    ensures var r := DeleteReview(s, cache, caller, id);
      && r.store.reviews == s.reviews - {id}
      && r.store.books == s.books && r.store.users == s.users && r.store.genreLinks == s.genreLinks
      && r.store.collectionLinks == s.collectionLinks && r.store.collections == s.collections
      && r.response.value.id == id && r.response.value.user.id == s.reviews[id].userId
      && r.cache == cache
  {
  }
}

=== FILE: seqs.dfy ===
/** Sequence helpers: filtering, ordered key listing of a finite id set, sums. */
module Seqs {

  /** The elements of `s` that satisfy `p`, in their original order. */
  function Filter<T(!new)>(s: seq<T>, p: T -> bool): (r: seq<T>)
    ensures |r| <= |s|
    ensures forall x :: x in r <==> x in s && p(x)
    ensures forall i :: 0 <= i < |r| ==> p(r[i])
  {
    if |s| == 0 then []
    else if p(s[0]) then [s[0]] + Filter(s[1..], p)
    else Filter(s[1..], p)
  }

  /** Filtering distributes over concatenation: relative order is kept. */
  lemma {:induction false} FilterAppend<T(!new)>(a: seq<T>, b: seq<T>, p: T -> bool)
    ensures Filter(a + b, p) == Filter(a, p) + Filter(b, p)
  {
    if |a| == 0 {
      assert a + b == b;
    } else {
      assert (a + b)[1..] == a[1..] + b;
      FilterAppend(a[1..], b, p);
    }
  }

  /** Filtering with a predicate every element meets changes nothing. */
  lemma {:induction false} FilterAll<T(!new)>(s: seq<T>, p: T -> bool)
    requires forall i :: 0 <= i < |s| ==> p(s[i])
    ensures Filter(s, p) == s
  {
    if |s| > 0 {
      FilterAll(s[1..], p);
    }
  }

  /** Filtering with a predicate no element meets leaves nothing. */
  lemma {:induction false} FilterNone<T(!new)>(s: seq<T>, p: T -> bool)
    requires forall i :: 0 <= i < |s| ==> !p(s[i])
    ensures Filter(s, p) == []
  {
    if |s| > 0 {
      FilterNone(s[1..], p);
    }
  }

  /** Filtering twice with the same predicate is filtering once. */
  lemma FilterIdempotent<T(!new)>(s: seq<T>, p: T -> bool)
    ensures Filter(Filter(s, p), p) == Filter(s, p)
  {
    FilterAll(Filter(s, p), p);
  }

  /** Filtering away the one element at position `k` removes exactly that position. */
  lemma {:induction false} FilterOutOne<T(!new)>(s: seq<T>, k: nat, p: T -> bool)
    requires k < |s|
    requires !p(s[k])
    requires forall i :: 0 <= i < |s| && i != k ==> p(s[i])
    ensures Filter(s, p) == s[..k] + s[k + 1..]
  {
    var t := s[1..];
    if k == 0 {
      forall i | 0 <= i < |t| ensures p(t[i]) { assert t[i] == s[i + 1]; }
      FilterAll(t, p);
    } else {
      forall i | 0 <= i < |t| && i != k - 1 ensures p(t[i]) { assert t[i] == s[i + 1]; }
      FilterOutOne(t, k - 1, p);
      assert Filter(s, p) == [s[0]] + Filter(t, p);
      assert t[..k - 1] == s[1..k];
      assert t[k..] == s[k + 1..];
      assert [s[0]] + s[1..k] == s[..k];
    }
  }

  predicate Distinct<T(==)>(s: seq<T>) {
    forall i, j :: 0 <= i < j < |s| ==> s[i] != s[j]
  }

  predicate StrictlyIncreasing(s: seq<int>) {
    forall i, j :: 0 <= i < j < |s| ==> s[i] < s[j]
  }

  lemma {:induction false} FilterDistinct<T(!new)>(s: seq<T>, p: T -> bool)
    requires Distinct(s)
    ensures Distinct(Filter(s, p))
  {
    if |s| > 0 {
      FilterDistinct(s[1..], p);
      if p(s[0]) {
        assert s[0] !in s[1..];
      }
    }
  }

  lemma {:induction false} FilterIncreasing(s: seq<int>, p: int -> bool)
    requires StrictlyIncreasing(s)
    ensures StrictlyIncreasing(Filter(s, p))
  {
    if |s| > 0 {
      FilterIncreasing(s[1..], p);
      var r := Filter(s[1..], p);
      forall x | x in r ensures s[0] < x {
        assert x in s[1..];
      }
    }
  }

  lemma NonEmptyHasMember(s: set<int>)
    requires s != {}
    ensures exists y :: y in s
  {
    if forall y :: y !in s {
      assert false;
    }
  }

  lemma {:induction false} MinExists(s: set<int>)
    requires s != {}
    ensures exists m :: m in s && forall x :: x in s ==> m <= x
    decreases s
  {
    NonEmptyHasMember(s);
    var y :| y in s;
    if s != {y} {
      MinExists(s - {y});
      var m :| m in s - {y} && forall x :: x in s - {y} ==> m <= x;
      var least := if y < m then y else m;
      forall x | x in s
        ensures least <= x
      {
        if x != y {
          assert x in s - {y};
        }
      }
    } else {
      assert forall x :: x in s ==> y <= x;
    }
  }

  /** The least element of a non-empty finite set. */
  function Min(s: set<int>): (m: int)
    requires s != {}
    ensures m in s
    ensures forall x :: x in s ==> m <= x
  {
    MinExists(s);
    var m :| m in s && forall x :: x in s ==> m <= x;
    m
  }

  /** The members of a finite id set in ascending order. */
  function SortedKeys(s: set<int>): (r: seq<int>)
    ensures forall x :: x in r <==> x in s
    ensures StrictlyIncreasing(r)
    ensures |r| == |s|
    decreases s
  {
    if s == {} then []
    else
      var m := Min(s);
      var rest := SortedKeys(s - {m});
      PrependLeast(m, rest);
      assert |s - {m}| == |s| - 1;
      [m] + rest
  }

  lemma PrependLeast(m: int, rest: seq<int>)
    requires StrictlyIncreasing(rest) && forall x :: x in rest ==> m < x
    ensures StrictlyIncreasing([m] + rest)
  {
    var r := [m] + rest;
    forall i, j | 0 <= i < j < |r| ensures r[i] < r[j] {
      assert r[j] == rest[j - 1] && rest[j - 1] in rest;
      if i > 0 {
        assert r[i] == rest[i - 1] && rest[i - 1] < rest[j - 1];
      }
    }
  }

  /** A sequence without repetitions is as long as the set of its elements. */
  lemma {:induction false} DistinctCard<T(!new)>(s: seq<T>, c: set<T>)
    requires Distinct(s)
    requires forall x :: x in c <==> x in s
    ensures |c| == |s|
  {
    if |s| > 0 {
      var c' := c - {s[0]};
      forall x | x in c' ensures x in s[1..] {
        var i :| 0 <= i < |s| && s[i] == x;
        assert i != 0;
        assert s[1..][i - 1] == x;
      }
      forall x | x in s[1..] ensures x in c' {
        var i :| 0 <= i < |s[1..]| && s[1..][i] == x;
        assert s[i + 1] == x && s[0] != s[i + 1];
      }
      forall i, j | 0 <= i < j < |s[1..]| ensures s[1..][i] != s[1..][j] {
        assert s[i + 1] != s[j + 1];
      }
      DistinctCard(s[1..], c');
      assert c == c' + {s[0]};
    }
  }

  function Sum(s: seq<int>): int {
    if |s| == 0 then 0 else s[0] + Sum(s[1..])
  }

  lemma {:induction false} SumAppend(a: seq<int>, b: seq<int>)
    ensures Sum(a + b) == Sum(a) + Sum(b)
  {
    if |a| == 0 {
      assert a + b == b;
    } else {
      assert (a + b)[0] == a[0];
      assert (a + b)[1..] == a[1..] + b;
      SumAppend(a[1..], b);
    }
  }

  lemma SliceAround<T>(b: seq<T>, k: nat)
    requires k < |b|
    ensures b[..k] + [b[k]] + b[k + 1..] == b
  {
  }

  lemma SumSplit(pre: seq<int>, x: int, post: seq<int>)
    ensures Sum(pre + [x] + post) == x + Sum(pre + post)
  {
    var head := pre + [x];
    SumAppend(head, post);
    SumAppend(pre, [x]);
    SumAppend(pre, post);
    assert [x][1..] == [];
  }

  /** The sum depends only on the multiset of the summands. */
  lemma {:induction false} SumPermutation(a: seq<int>, b: seq<int>)
    requires multiset(a) == multiset(b)
    ensures Sum(a) == Sum(b)
    decreases |a|
  {
    if |a| > 0 {
      assert a[0] in multiset(b);
      var k :| 0 <= k < |b| && b[k] == a[0];
      var rest := b[..k] + b[k + 1..];
      RemoveAtMultiset(b, k);
      RemoveAtSum(b, k);
      assert a == [a[0]] + a[1..];
      assert multiset(a) == multiset{a[0]} + multiset(a[1..]);
      assert multiset(a[1..]) == multiset(rest);
      SumPermutation(a[1..], rest);
    } else {
      assert |b| == |multiset(b)| == 0;
    }
  }

  /** Taking out the element at `k` takes it out of the multiset. */
  lemma RemoveAtMultiset(b: seq<int>, k: nat)
    requires k < |b|
    ensures multiset(b[..k] + b[k + 1..]) == multiset(b) - multiset{b[k]}
  {
    var pre, x, post := b[..k], b[k], b[k + 1..];
    assert b == pre + [x] + post;
    assert multiset(b) == multiset(pre) + multiset{x} + multiset(post);
  }

  /** Taking out the element at `k` takes it off the sum. */
  lemma RemoveAtSum(b: seq<int>, k: nat)
    requires k < |b|
    ensures Sum(b) == b[k] + Sum(b[..k] + b[k + 1..])
  {
    SliceAround(b, k);
    SumSplit(b[..k], b[k], b[k + 1..]);
  }

  /** Bounds on every summand bound the sum. */
  lemma {:induction false} SumBounds(s: seq<int>, lo: int, hi: int)
    requires forall i :: 0 <= i < |s| ==> lo <= s[i] <= hi
    ensures lo * |s| <= Sum(s) <= hi * |s|
  {
    if |s| > 0 {
      SumBounds(s[1..], lo, hi);
    }
  }
}

=== FILE: single_book_page.dfy ===
/**
 * The state logic of react-ui/src/pages/SingleBookPage.js: the review
 * delete button, review ordering and removal, the star bar and draft of a
 * new review, and the add-to-collection request.
 */
module SingleBookPage {
  import opened Wrappers
  import opened Seqs
  import opened Catalog
  import opened Api
  import Js
  import AuthSlice
  import Collections
  import Reviews

  /**
   * A review as the page holds it; `created` is the value of
   * `Date.parse(review.created)`, and `ownerId` is `review.user.id` of the
   * review document GetBookResponseModel declares. The `get_book` handler
   * sends no `user` in its reviews, so against it the card as written fails
   * on `review.user.name` before any of this is read.
   */
  datatype ClientReview = ClientReview(id: int, ownerId: int, rating: int, text: string, created: int)

  // ---------------------------------------------------------------------
  // The delete button of `ReviewCard`
  // ---------------------------------------------------------------------

  /**
   * The button condition as the page evaluates it against the auth slice.
   * The slice has no `role`, so once the viewer is logged in and not the
   * author, `role.name` reads a property of `undefined`: `None` is that
   * TypeError.
   */
  function DeleteButtonAsWritten(auth: AuthSlice.AuthState, ownerId: int): (shown: Option<bool>)
    ensures !auth.logged ==> shown == Some(false)
    ensures auth.logged && auth.id == Some(ownerId) ==> shown == Some(true)
  {
    if !auth.logged then Some(false)
    else if auth.id == Some(ownerId) then Some(true)
    else None
  }

  /** A logged-in viewer looking at someone else's review makes the card throw. */
  lemma DeleteButtonThrowsForOthers(p: AuthSlice.Payload, ownerId: int)
    requires p.id != ownerId
    ensures DeleteButtonAsWritten(AuthSlice.Login(AuthSlice.Initial, p), ownerId) == None
  {
  }

  /**
   * The intended condition, with the viewer's role supplied: logged in, and
   * the review's author or a moderator or an admin.
   */
  predicate CanDelete(logged: bool, viewer: Option<int>, role: EnumRole, ownerId: int) {
    logged && (viewer == Some(ownerId) || role in {MODERATOR, ADMIN})
  }

  /**
   * For a logged-in viewer the button appears exactly when the server would
   * accept the delete; where the page as written does not throw, it agrees.
   */
  lemma CanDeleteMirrorsServer(auth: AuthSlice.AuthState, role: EnumRole, caller: Id, ownerId: Id)
    ensures CanDelete(true, Some(caller), role, ownerId) <==> MayDeleteReview(caller, role, ownerId)
    ensures !CanDelete(false, Some(caller), role, ownerId)
    ensures DeleteButtonAsWritten(auth, ownerId).Some? ==>
      DeleteButtonAsWritten(auth, ownerId).value == CanDelete(auth.logged, auth.id, role, ownerId)
  {
  }

  // ---------------------------------------------------------------------
  // Review order and removal
  // ---------------------------------------------------------------------

  predicate NewestFirst(rs: seq<ClientReview>) {
    forall i, j :: 0 <= i < j < |rs| ==> rs[i].created >= rs[j].created
  }

  /** Places `x` after every review at least as new, keeping equal ones in their order. */
  function InsertByCreated(x: ClientReview, rs: seq<ClientReview>): (r: seq<ClientReview>)
    requires NewestFirst(rs)
    ensures multiset(r) == multiset(rs) + multiset{x}
    ensures NewestFirst(r)
    ensures |r| == |rs| + 1 && (r[0] == x || (|rs| > 0 && r[0] == rs[0]))
  {
    if |rs| == 0 then [x]
    else if rs[0].created >= x.created then
      var tail := rs[1..];
      assert NewestFirst(tail) by {
        forall i, j | 0 <= i < j < |tail| ensures tail[i].created >= tail[j].created {
          assert tail[i] == rs[i + 1] && tail[j] == rs[j + 1];
        }
      }
      var rest := InsertByCreated(x, tail);
      assert rs == [rs[0]] + tail;
      assert multiset(rs) == multiset{rs[0]} + multiset(tail);
      assert multiset([rs[0]] + rest) == multiset{rs[0]} + multiset(rest);
      PrependNewest(rs[0], rest);
      [rs[0]] + rest
    else
      PrependNewest(x, rs);
      [x] + rs
  }

  /** A review at least as new as the head of a newest-first list may precede it. */
  lemma PrependNewest(y: ClientReview, rs: seq<ClientReview>)
    requires NewestFirst(rs) && (|rs| > 0 ==> y.created >= rs[0].created)
    ensures NewestFirst([y] + rs)
  {
    var r := [y] + rs;
    forall i, j | 0 <= i < j < |r| ensures r[i].created >= r[j].created {
      assert r[j] == rs[j - 1];
      if i == 0 {
        assert rs[0].created >= rs[j - 1].created;
      } else {
        assert r[i] == rs[i - 1];
      }
    }
  }

  /**
   * `sort((a, b) => Date.parse(b.created) - Date.parse(a.created))`: a stable
   * sort, newest first.
   */
  function SortNewestFirst(rs: seq<ClientReview>): (r: seq<ClientReview>)
    ensures multiset(r) == multiset(rs)
    ensures NewestFirst(r)
  {
    if |rs| == 0 then []
    else
      assert rs == rs[..|rs| - 1] + [rs[|rs| - 1]];
      InsertByCreated(rs[|rs| - 1], SortNewestFirst(rs[..|rs| - 1]))
  }

  /** The reviews the page keeps after the server reports `deleted` removed. */
  function NotId(deleted: int): ClientReview -> bool {
    (r: ClientReview) => r.id != deleted
  }

  function AfterDelete(rs: seq<ClientReview>, deleted: int): (r: seq<ClientReview>)
    ensures forall x :: x in r <==> x in rs && x.id != deleted
  {
    Filter(rs, NotId(deleted))
  }

  predicate DistinctIds(rs: seq<ClientReview>) {
    forall i, j :: 0 <= i < j < |rs| ==> rs[i].id != rs[j].id
  }

  /** With distinct ids, exactly the deleted review leaves and the others keep their order. */
  lemma AfterDeleteRemovesOne(rs: seq<ClientReview>, k: nat)
    requires DistinctIds(rs) && k < |rs|
    ensures AfterDelete(rs, rs[k].id) == rs[..k] + rs[k + 1..]
  {
    FilterOutOne(rs, k, NotId(rs[k].id));
  }

  // ---------------------------------------------------------------------
  // RatingBar and the CreateReviewCard draft
  // ---------------------------------------------------------------------

  const Stars: nat := 5

  /** Star `x` (0-based) shows filled iff the rating reaches `x + 1`. */
  predicate Filled(rating: int, x: nat) {
    rating >= x + 1
  }

  /** The draft of `CreateReviewCard`: its rating and its text. */
  datatype Draft = Draft(rating: int, text: string)

  const InitialDraft: Draft := Draft(3, "")

  datatype DraftEvent = Hover(star: nat) | Type(text: string) | Posted

  /** Hovering star `x` sets rating `x + 1`; posting resets text and rating. */
  function DraftStep(d: Draft, e: DraftEvent): (t: Draft)
    requires e.Hover? ==> e.star < Stars
    ensures e.Hover? ==> t == d.(rating := e.star + 1)
    ensures e.Type? ==> t == d.(text := e.text)
    ensures e.Posted? ==> t == InitialDraft
  {
    match e
    case Hover(x) => d.(rating := x + 1)
    case Type(s) => d.(text := s)
    case Posted => InitialDraft
  }

  /** A draft rating always lies in 1..5, so the server's range check passes it. */
  lemma DraftRatingInRange(d: Draft, e: DraftEvent)
    requires 1 <= d.rating <= 5
    requires e.Hover? ==> e.star < Stars
    ensures 1 <= DraftStep(d, e).rating <= 5
    ensures 1 <= InitialDraft.rating <= 5
  {
  }

  /** After hovering star `x`, the filled stars are exactly `0..x`. */
  lemma HoverFillsUpTo(d: Draft, x: nat, y: nat)
    requires x < Stars && y < Stars
    ensures Filled(DraftStep(d, Hover(x)).rating, y) <==> y <= x
  {
  }

  /** A draft posted for an existing book is accepted by `create_review`. */
  lemma DraftAccepted(s: Store, cache: Cache, caller: Id, d: Draft, book: Id, now: Instant)
    requires caller in s.users && book in s.books
    requires 1 <= d.rating <= 5
    ensures Reviews.CreateReview(s, cache, caller, Reviews.ReviewRequest(book, d.rating, d.text), now).response.Ok?
  {
  }

  /** The create-review card appears only when `auth.id` is truthy. */
  predicate ShowCreateCard(auth: AuthSlice.AuthState) {
    Js.Truthy(auth.id)
  }

  lemma ShowCreateCardCases(auth: AuthSlice.AuthState, p: AuthSlice.Payload)
    ensures !ShowCreateCard(AuthSlice.Initial)
    ensures ShowCreateCard(AuthSlice.Login(auth, p)) <==> p.id != 0
    ensures ShowCreateCard(AuthSlice.Logout(auth)) == ShowCreateCard(auth)
  {
  }

  // ---------------------------------------------------------------------
  // AddToCollectionPopup
  // ---------------------------------------------------------------------

  /** The PUT body: the collection's title, its book ids as listed, then this book's id. */
  function AddToCollectionRequest(view: Collections.CollectionDetail, book: Id): (req: Collections.CollectionRequest)
    ensures req.title == view.title
    ensures req.bookIds == Collections.ItemIds(view.books) + [book]
  {
    Collections.CollectionRequest(view.title, Collections.ItemIds(view.books) + [book])
  }

  /**
   * When the server accepts that body, the collection's links are its
   * previous links followed by the book, which may now appear twice. The view
   * is the collection as the listing shows it, which `get_collection` shows
   * alike. As written the page reads `collection.title` and sends `title`,
   * while the listing carries `name` and `CollectionModel` demands `name`, so
   * the real request is refused with 422 before the handler runs; the model
   * reads one `title` attribute throughout and shows the exchange as intended.
   */
  lemma AddToCollectionAppends(s: Store, caller: Id, c: Id, book: Id)
    requires Authenticated(s, caller) && c in s.collections && Collections.LinkedBooksExist(s, c)
    requires Collections.UpdateCollection(s, caller, c, AddToCollectionRequest(Collections.GetCollection(s, c).value, book)).response.Ok?
    ensures var t := Collections.UpdateCollection(s, caller, c, AddToCollectionRequest(Collections.GetCollection(s, c).value, book)).store;
      Collections.BookIdsLinked(t.collectionLinks, c) == Collections.BookIdsLinked(s.collectionLinks, c) + [book]
  {
    Collections.UpdateCollectionReplacesLinks(s, caller, c, AddToCollectionRequest(Collections.GetCollection(s, c).value, book));
  }
}

=== FILE: wrappers.dfy ===
/** Failure-compatible option type shared by every module of the model. */
module Wrappers {

  datatype Option<+T> = None | Some(value: T) {

    predicate IsFailure() {
      None?
    }

    function PropagateFailure<U>(): Option<U>
      requires None?
    {
      None
    }

    function Extract(): T
      requires Some?
    {
      value
    }

    function GetOr(default: T): T {
      match this
      case Some(v) => v
      case None => default
    }
  }
}
